=== FILE: README.md ===
# Browser Butler scheduler core in Dafny

Browser Butler runs browser-automation tasks on cron schedules. A task is a
natural-language instruction handed to an AI browser agent. Each execution
attempt is recorded as a run log with a status (`running`, `success`,
`failure`, `timeout`), timing, a summary and the agent's steps. Telegram
notifications and server-sent events report progress.

This project models the core of that system as pure Dafny functions over
immutable values:

- **Tables.** The `tasks` and `task_logs` tables are kept as sequences with
  unique primary keys and the `task_id` foreign key (`Models`).
- **Services.** Task and run-record services (`TaskService`, `LogService`)
  model SQLAlchemy's behaviour where it matters:
  - the `onupdate` stamp of `updated_at`;
  - `exclude_unset` partial updates;
  - the cascade delete of a task's runs;
  - `ORDER BY ... DESC LIMIT ... OFFSET`.
- **Agent executor.** `AgentExecutor` covers the prompt builder and how the
  agent's outcome maps to a status, summary, error and steps.
- **Telegram.** `Notification` covers chat-id fallback, the three message texts
  and the `.1f` duration rendering.
- **Event manager.** `Events` models the per-subscriber queues, with
  per-queue failures that are swallowed.
- **Scheduler.** `Scheduler` models the job registry keyed `task_{id}`, the
  `_running_tasks` map, and the whole run lifecycle of `_execute_task`. That
  includes its `try`/`except`/`finally`, split at the agent's await so that
  other requests can interleave.
- **Routers.** The task and log HTTP routers (`TasksRouter`, `LogsRouter`)
  model status codes, pagination and the duplicate-name rule.

A `World` value holds everything the scheduler touches:

- the database;
- the job store;
- the running map;
- the optional event manager;
- the list of messages handed to Telegram.

Time is a natural-number clock in seconds. Fresh UUIDs, the agent's outcome,
failing event queues, Telegram delivery success and the cron library are
parameters.

Three behaviours of the code shape the model:

- **The run guard is not atomic.** `_execute_task` checks `_running_tasks` at
  src/services/scheduler_service.py:144 and inserts at :152, with awaits
  (the record insert and its commit) in between. The model splits the guard
  into `Scheduler.GuardCheck` and `Scheduler.Register`, and
  `Scheduler.GuardWindow` proves that two runs of one task can then both be
  recorded as running.
- **Deleting a task leaves its running-map entry.** Deleting a task that is
  running does not remove its `_running_tasks` entry (src/api/routers/tasks.py:91-93).
  The entry then names a run record that the cascade has removed (see
  `Scheduler.DeleteLeavesStaleEntry`).
- **Route responses carry the pre-schedule row.** The task routes return the
  task row as it was before `schedule_task` wrote `next_run_at` through its
  own session.

## Model

| member | source | states |
|---|---|---|
| Text.Take | src/services/notification_service.py:73 | `s[:n]` has length min(len(s), n), is a prefix of `s`, and is `s` itself when `s` is short enough |
| Text.Split | src/config/settings.py:40 | `str.split` yields at least one piece |
| Text.JoinSplit | src/config/settings.py:40 | joining the pieces of a split with the separator gives back the original string |
| Text.SplitPiecesFree | src/config/settings.py:40 | no piece of a split contains the separator |
| Text.SplitLastIsSuffix | src/config/settings.py:40 | the last piece of a split is a suffix of the split string |
| Text.SplitLastAfterSeparator | src/config/settings.py:40 | when the separator occurs, the text ends with the separator followed by the last piece |
| Text.FindFrom | src/config/settings.py:40 | the leftmost occurrence of the separator at or after a position, or none when there is none |
| Text.FindFromStartAbsent | src/config/settings.py:40 | the search fails exactly when the separator does not occur |
| Text.NatToString | src/services/notification_service.py:107 | `str(n)` is a non-empty string of decimal digits with no leading zero (`"0"` for zero) |
| Text.NatToStringParseNat | src/services/notification_service.py:107 | every digit string without a leading zero is `str` of the number it denotes, so `str(n)` is the only such rendering of `n` |
| Text.ParseNatToString | src/services/notification_service.py:107 | reading back `str(n)` gives `n` |
| Text.IntToString | src/services/notification_service.py:107 | `str(i)` reads back to `i`, is `"0"` for zero, and has no leading zero; negatives carry a leading minus before the digits |
| Config.Defaults | src/config/settings.py:17-33 | with no overrides: empty Telegram credentials, host 0.0.0.0, port 8000, headless Chrome, a SQLite URL |
| Config.DatabasePath | src/config/settings.py:35-42 | for a `sqlite` URL the path is the last piece of Python's left-to-right split on `///` (the whole URL when it has none): it holds no `///` and the URL ends with `///` and it; otherwise the fallback path |
| Config.DatabasePathOfSimpleUrl | src/config/settings.py:35-42 | a URL `prefix///path` with a slash-free prefix yields exactly `path` |
| Config.DefaultDatabasePath | src/config/settings.py:25 | the default URL puts the database at ./data/browserautomation.db |
| Models.ParseStatus | src/schemas/log.py:7-13 | a successful parse gives a status whose column value is the parsed string |
| Models.ParseStatusValue | src/schemas/log.py:7-13 | storing a status and reading it back gives the same status, so the four values are distinct |
| Models.TaskRow | src/db/models.py:30-46 | a row inserted with only name and description takes every declared column default |
| Schemas.CreateWithDefaults | src/schemas/task.py:5-18 | a creation body with only name and description gets the schema defaults |
| Schemas.CreateWithDefaultsValid | src/schemas/task.py:8-18 | such a body is accepted exactly when name and description meet their bounds |
| Schemas.CreateBoundsCarryOverToUpdate | src/schemas/task.py:27-41 | every field bound of a creation body holds for the same values sent as an update |
| Schemas.ValidCreate | src/schemas/task.py:5-18 | the field bounds of `TaskBase`: name 1-255, non-empty description, cron up to 100, timezone up to 50, timeout 30-3600, URL up to 2048, chat id up to 100 |
| Schemas.ValidUpdate | src/schemas/task.py:27-41 | the same bounds on every value an update actually sends; omitted fields and nulls pass |
| Schemas.ClearsRequiredColumn | src/db/models.py:31-42 | an update sends null for a column declared without `nullable=True` |
| Seqs.Filter | src/services/log_service.py:102-107 | a `WHERE` keeps only matching rows, none more often than in the table, and every matching row appears in the result |
| Seqs.FilterMultiplicity | src/services/log_service.py:102-107 | each matching row is kept exactly as often as it occurs in the table, every other row is dropped |
| Seqs.FilterKeepsDistinct | src/services/log_service.py:102-107 | filtering a table with unique keys keeps keys unique |
| Seqs.Count | src/services/log_service.py:100-107 | `COUNT` is zero exactly when no row matches and the table size exactly when every row matches |
| Seqs.CountIsFilterLength | src/services/log_service.py:100-115 | `COUNT` with a `WHERE` equals the number of rows the same `WHERE` returns |
| Seqs.FindFirst | src/services/task_service.py:21-24 | the first matching row, and none exactly when no row matches |
| Seqs.InsertDesc | src/services/task_service.py:18 | insertion adds exactly that one element and nothing else |
| Seqs.InsertDescSorted | src/services/task_service.py:18 | inserting into a descending order keeps it descending, and the head stays the larger of the new key and the old head |
| Seqs.SortDesc | src/services/task_service.py:18 | `ORDER BY ... DESC` gives a descending permutation of the rows |
| Seqs.SameElements | src/services/task_service.py:18 | two permutations hold the same elements |
| Seqs.Window | src/services/log_service.py:109 | `LIMIT ... OFFSET` returns at most `limit` consecutive rows starting at `offset`, and none past the end |
| Seqs.WindowSorted | src/services/log_service.py:109 | a window of a descending sequence is descending |
| TaskService.Find | src/services/task_service.py:21-24 | the position of the row with that id, none exactly when the id is absent |
| TaskService.GetById | src/services/task_service.py:21-24 | the row with that id, none exactly when it is absent, unique under unique keys |
| TaskService.GetAll | src/services/task_service.py:16-19 | every task, newest `created_at` first |
| TaskService.GetEnabled | src/services/task_service.py:26-31 | exactly the enabled tasks, newest first |
| TaskService.NewRow | src/services/task_service.py:33-39 | a created row is enabled, unrun, stamped now, and within the field bounds when the body is valid |
| TaskService.SchemaDefaultsMatchColumnDefaults | src/services/task_service.py:33-39 | the schema defaults and the column defaults give the same row |
| TaskService.Create | src/services/task_service.py:33-39 | the row is appended under a fresh id; the foreign key and unique keys stay valid |
| TaskService.Touch | src/db/models.py:44 | `updated_at` is restamped exactly when the row changed |
| TaskService.ApplyUpdate | src/services/task_service.py:47-49 | an update never changes the id, creation time or run times |
| TaskService.Update | src/services/task_service.py:41-53 | 404 exactly for a missing id; refused exactly when a NOT NULL column is cleared; otherwise only the fields the client sent change, and ids and runs stay |
| TaskService.UpdateChangesOnlySetFields | src/services/task_service.py:47-49 | fields the client omitted keep their values; sent fields take the sent values |
| TaskService.ReplaceKeepsIds | src/services/task_service.py:51-53 | replacing a row under its own id keeps the id set and validity |
| TaskService.UpdatePreservesBounds | src/services/task_service.py:41-53 | a validated update of an in-bounds row leaves it in bounds |
| TaskService.Delete | src/services/task_service.py:55-63 | false, changing nothing, exactly for a missing id; otherwise the task and its runs are gone, every other row and record stays, and nothing is added |
| TaskService.DeleteKeepsValid | src/db/models.py:48-50 | the cascade leaves no run pointing at a deleted task |
| TaskService.ToggleEnabled | src/services/task_service.py:65-74 | none exactly for a missing id; otherwise only `is_enabled` flips, and `updated_at` is restamped |
| TaskService.ToggleTwiceRestores | src/services/task_service.py:65-74 | toggling twice restores the enabled flag |
| TaskService.WriteRunTimes | src/services/task_service.py:84-87 | only the run times that were given are written |
| TaskService.UpdateRunTimes | src/services/task_service.py:76-91 | none exactly for a missing id; otherwise only the given run times change, and ids and runs stay |
| TaskService.UpdateRunTimesRow | src/services/task_service.py:76-91 | with unique ids, the row of that id carries each given run time and keeps the other one; every row keeps its id |
| TaskService.Count | src/services/task_service.py:93-96 | the count is the number of tasks, and the number of distinct ids |
| TaskService.DistinctIdsCount | src/services/task_service.py:93-96 | unique ids are as many as rows |
| LogService.FindLog | src/services/log_service.py:45-46 | the position of the run record with that id, none exactly when absent |
| LogService.Create | src/services/log_service.py:20-34 | a new `running` record under a fresh id, started and created now, with nothing else set |
| LogService.ApplyLogUpdateMeaning | src/services/log_service.py:51-66 | a non-running status sets completion time and duration; each given field is written; omitted ones stay |
| LogService.ApplyLogUpdate | src/services/log_service.py:51-66 | a non-running status stamps completion time and duration; each given field is written |
| LogService.Update | src/services/log_service.py:36-69 | none exactly for a missing id; otherwise that record is updated as above and no other row or id changes |
| LogService.ReplaceKeepsLogIds | src/services/log_service.py:67-69 | replacing a record under its own id keeps ids and validity |
| LogService.GetAfterUpdate | src/services/log_service.py:36-69 | reading a record back after an update gives the updated record |
| LogService.UpdateNothingIsIdentity | src/services/log_service.py:51-66 | an update with every field omitted changes nothing |
| LogService.CreateUpdateKeepStamped | src/services/log_service.py:20-69 | creation and updates keep every record's completion time and duration consistent with its status |
| LogService.GetById | src/services/log_service.py:71-76 | the record with that id, none exactly when absent |
| LogService.Matches | src/services/log_service.py:102-107 | the `WHERE` clauses: the task filter when one is given, the status filter when one is given |
| LogService.Selection | src/services/log_service.py:91-109 | exactly the matching records, newest start first, as many as `COUNT` reports |
| LogService.GetByTask | src/services/log_service.py:78-89 | only records of that task, newest first; as many as remain after the offset, up to `limit`, and none past the end |
| LogService.GetByTaskIsWindow | src/services/log_service.py:78-89 | the page is the `LIMIT`/`OFFSET` window of that task's records, newest first |
| LogService.GetByTaskAgreesWithGetAll | src/services/log_service.py:78-115 | for a non-empty id, the per-task query and the general query filtered by that task return the same page |
| LogService.GetAll | src/services/log_service.py:91-117 | a page of the filtered records, newest first, with the unpaged total; an empty task id does not filter |
| LogService.GetAllIsWindow | src/services/log_service.py:109 | the page is the `LIMIT`/`OFFSET` window of the filtered, newest-first selection |
| LogService.GetRunningForTask | src/services/log_service.py:119-127 | a running record of the task with the latest start, none exactly when there is none |
| LogService.RunningHeadLatest | src/services/log_service.py:119-127 | every running record of the task is selected, and none started later than the first one selected |
| Notification.Target | src/services/notification_service.py:41 | the given chat id when truthy, else the configured one |
| Notification.IsConfigured | src/services/notification_service.py:25-28 | a bot token and a default chat id are both non-empty |
| Notification.SendMessage | src/services/notification_service.py:30-55 | a message is handed over exactly when a bot token and a target chat exist and delivery succeeds |
| Notification.ConfiguredSendsAlways | src/services/notification_service.py:25-55 | with Telegram configured, delivery success alone decides the outcome |
| Notification.DurationText | src/services/notification_service.py:65 | "N/A" exactly for a missing or zero duration; otherwise the seconds in decimal followed by ".0s" |
| Notification.Framed | src/services/notification_service.py:67-73 | a framed message starts with its heading and contains the task name |
| Notification.SuccessText | src/services/notification_service.py:57-75 | the success message is the heading, the task name and the duration line, followed by nothing else or, when a summary exists, by exactly the result label and the summary cut to 500 characters |
| Text.Abutting | src/services/notification_service.py:57-111 | a prefix, a suffix and a length with no room between them determine a message exactly |
| Notification.FailureText | src/services/notification_service.py:77-95 | the failure message is the heading, the task name and the duration line, followed by nothing else or, when an error exists, by exactly the error cut to 500 characters in `<code>` |
| Notification.TimeoutText | src/services/notification_service.py:97-111 | the timeout message is exactly the heading, the task name, the timeout label, `str` of the configured timeout and the closing explanation |
| Events.SubscriberCount | src/services/event_manager.py:40-43 | the number of queues, which equals the number of distinct subscriber ids |
| Events.DistinctIdsCount | src/services/event_manager.py:40-43 | distinct ids are as many as queues |
| Events.Subscribe | src/services/event_manager.py:18-21 | one new empty queue under an unused id is appended |
| Events.Unsubscribe | src/services/event_manager.py:29-30 | the first queue with that identity is removed and the others keep their order and contents; nothing changes for an unknown identity |
| Events.RemoveAtKeepsOthers | src/services/event_manager.py:29-30 | removing one queue keeps every other queue |
| Events.RemoveAtKeepsValid | src/services/event_manager.py:29-30 | after removal the ids stay distinct and the removed id is gone |
| Events.Put | src/services/event_manager.py:35-38 | a put keeps the queue's contents as a prefix; it adds exactly the event at the end unless that queue raises, and then nothing changes |
| Events.Broadcast | src/services/event_manager.py:32-38 | each healthy queue gets the event appended; failing queues are unchanged; no queue is added or lost |
| Events.BroadcastAllInOrder | src/services/event_manager.py:32-38 | successive broadcasts reach each queue in order |
| Events.BroadcastTwice | src/services/event_manager.py:32-38 | two broadcasts leave both events, in order, at the end of every healthy queue |
| Events.Receive | src/services/event_manager.py:24-26 | a subscriber receives the head of its queue |
| Events.FindSubscriber | src/services/event_manager.py:24-26 | the queue of a subscriber id, none exactly when absent |
| Events.ReceiveInBroadcastOrder | src/services/event_manager.py:24-38 | a subscriber receives two broadcast events in broadcast order |
| AgentExecutor.Located | src/services/agent_executor.py:161-164 | the prompt is prefixed with "Starting from {url}: " exactly when a start URL is truthy |
| AgentExecutor.BuildPrompt | src/services/agent_executor.py:159-173 | the Telegram hint is appended exactly when the task enables Telegram and the bot is configured |
| AgentExecutor.LatestResult | src/services/agent_executor.py:179-183 | the last history item with a truthy result, none exactly when there is none |
| AgentExecutor.ExtractSummary | src/services/agent_executor.py:175-184 | at most 1000 characters, from the final result, else the latest truthy step result, else "Task completed" |
| AgentExecutor.StepOf | src/services/agent_executor.py:190-199 | a step carries the item's position and the clock; it has an action exactly when the item has one, and a result exactly when the item has one, cut to 500 characters as a prefix of it |
| AgentExecutor.ExtractSteps | src/services/agent_executor.py:186-200 | one step per history item, indexed in order, with action and a result cut to 500 characters |
| AgentExecutor.Execute | src/services/agent_executor.py:74-157 | never `running`; success exactly for a truthy result read without an exception; timeout exactly for the deadline or a `TimeoutError`, with its message; FAILURE with the text of any other exception, and of any exception during set-up; a summary extracted before an exception is kept; no steps unless successful |
| AgentExecutor.Caught | src/services/agent_executor.py:139-147 | a `TimeoutError` gives TIMEOUT with the timeout message, any other exception FAILURE with its text, keeping the summary |
| AgentExecutor.Thrown | src/services/agent_executor.py:125-134 | the exception the timeout handler sees: the run's own, else one raised reading the summary, else one raised reading the steps |
| AgentExecutor.TimeoutMessage | src/services/agent_executor.py:141 | "Task timed out after {timeout} seconds" |
| AgentExecutor.TimeoutMessageQuotesTimeout | src/services/agent_executor.py:141 | the timeout message quotes the configured timeout |
| Scheduler.JobId | src/services/scheduler_service.py:60 | `task_` followed by the task id |
| Scheduler.JobIdInjective | src/services/scheduler_service.py:60 | distinct tasks have distinct job ids |
| Scheduler.WriteNextRun | src/services/scheduler_service.py:86-93 | the next run time is written only when the job has one; only run-time columns change |
| Scheduler.Schedulable | src/services/scheduler_service.py:66-75 | the three conditions under which a job is added: enabled, a truthy cron expression, and one the cron library parses |
| Scheduler.ScheduleTask | src/services/scheduler_service.py:58-100 | a job is installed exactly for an enabled task with a truthy, parsable cron expression; any old job is removed otherwise; other jobs are untouched; only run-time columns of the tables change |
| Scheduler.ScheduleWritesNextRun | src/services/scheduler_service.py:86-93 | after scheduling, the task row holds the job's next fire time |
| Scheduler.ScheduleTwiceSameJobs | src/services/scheduler_service.py:58-100 | scheduling the same task twice gives the same jobs as once |
| Scheduler.UnscheduleTask | src/services/scheduler_service.py:102-110 | removes exactly that task's job; true exactly when it existed |
| Scheduler.UnscheduleTwice | src/services/scheduler_service.py:102-110 | unscheduling is idempotent |
| Scheduler.GetRunningTasks | src/services/scheduler_service.py:260-262 | a copy of the whole running map (same keys, same record ids); while consistent, every task in it exists and has a running record |
| Scheduler.RunNow | src/services/scheduler_service.py:112-130 | the task id exactly when the task exists and is not running |
| Scheduler.GuardCheck | src/services/scheduler_service.py:138-146 | passes exactly when the task exists and is not running, the same condition as run_now |
| Scheduler.Publish | src/services/scheduler_service.py:155-160 | an event is published only when an event manager is attached |
| Scheduler.Register | src/services/scheduler_service.py:148-160 | a new running record for the task, the running map pointing at it, and task_started published |
| Scheduler.BeginRun | src/services/scheduler_service.py:138-160 | refuses, changing nothing, exactly when the task is missing or running; otherwise registers the run |
| Scheduler.NotificationFor | src/services/scheduler_service.py:228-254 | a message exactly when Telegram is on and the status and flags ask for one, naming the task |
| Scheduler.Send | src/services/notification_service.py:30-55 | the message is appended to the outbox, addressed to its target, exactly when a bot token and a target chat exist and delivery succeeds; otherwise nothing changes |
| Scheduler.SendNotification | src/services/scheduler_service.py:228-254 | the due message, to the task's chat, is handed over exactly when one is due and `send_message` succeeds; nothing else changes |
| Scheduler.StoredStatus | src/services/scheduler_service.py:225 | the status stored in the run record with that id, none exactly when it is absent |
| Scheduler.NextRun | src/services/scheduler_service.py:184-185 | a next run time exists exactly when the task still has a job whose trigger fires again, and it is that fire time |
| Scheduler.RecordRunTimes | src/services/scheduler_service.py:178-190 | the task's row gets `last_run_at` now and `next_run_at` the job's next fire time when there is one; no other column or row changes |
| Scheduler.RunTimesRow | src/services/scheduler_service.py:178-188 | the two run-time writes land on the task's one row |
| Scheduler.Recover | src/services/scheduler_service.py:197-214 | the record is marked failed with the exception text; a failure message naming the task and quoting the exception is sent exactly when the flags ask for one and `send_message` succeeds |
| Scheduler.Reloaded | src/services/task_service.py:80-90 | the task object after `update_run_times` is the current row, or the object loaded at the start when the row is gone |
| Scheduler.Release | src/services/scheduler_service.py:216-226 | the task leaves the running map and task_completed is published with the stored status |
| Scheduler.FinishRun | src/services/scheduler_service.py:162-226 | the running entry is always removed; task_completed is published with the stored status, or unknown when the record is gone; ids are kept; at most one message is sent |
| Scheduler.FinishRunNotifies | src/services/scheduler_service.py:178-193 | with nothing raised, the message is chosen from the stored record and the task row as it stands at the end of the run, and sent exactly when due and deliverable |
| Scheduler.FinishRunTaskRows | src/services/scheduler_service.py:162-214 | finishing a run changes task rows only in run-time columns; without a fault the task records `last_run_at` now; with one the rows are untouched |
| Scheduler.UpdatedStatusIsStored | src/services/scheduler_service.py:169-176 | after an update the stored status is the written one |
| Scheduler.Crash | src/services/scheduler_service.py:216-226 | when the run record is gone, the `finally` block still clears the running entry but announces nothing and changes nothing else |
| Scheduler.FinishRunAsWritten | src/services/scheduler_service.py:162-226 | as written, a vanished record means no task_completed event, unless the first update itself raised, in which case the stale record is announced as `running` |
| Scheduler.AsWrittenAgreesWhileRecordExists | src/services/scheduler_service.py:162-226 | while the record exists, the code as written and the corrected form agree |
| Scheduler.VanishedRecordLosesCompletion | src/services/scheduler_service.py:224-225 | with the record gone, the as-written form publishes nothing, while the corrected form publishes completion with status unknown |
| Scheduler.VanishedRecordAnnouncedRunning | src/services/scheduler_service.py:169-226 | with the record gone and the first update raising, the as-written form announces task_completed with the stale status `running`, while the corrected form announces status unknown |
| Scheduler.DeleteDuringRunLosesCompletion | src/services/scheduler_service.py:169-226 | deleting the task during its run leaves a lone subscriber with task_started only under the as-written lifecycle, and with task_started then task_completed (status unknown) under the corrected one |
| Scheduler.DeleteDuringRunRemovesRecord | src/services/task_service.py:55-63 | deleting the task right after its run began removes that run's record and keeps the tables valid |
| Scheduler.VanishedRecordOneSubscriber | src/services/scheduler_service.py:224-225 | for one subscriber that saw task_started, a vanished record with nothing raised means no task_completed as written and exactly one, with status unknown, when corrected |
| Scheduler.ExecuteTask | src/services/scheduler_service.py:132-226 | with nothing interleaved, composed from `BeginRun` and the corrected `FinishRun` (equal to the code as written here, by `AsWrittenAgreesWhileRecordExists`): a missing or running task changes nothing; the running map is unchanged afterwards; at most one message is sent |
| Scheduler.BeginRunFacts | src/services/scheduler_service.py:138-160 | a started run adds exactly one running record of the task and publishes task_started |
| Scheduler.FinishRunRecord | src/services/scheduler_service.py:162-214 | the record ends terminal, completed now, with the agent's status, or failed with the fault's message |
| Scheduler.RunLifecycle | src/services/scheduler_service.py:132-226 | a whole run leaves a terminal record, restores the running map, stamps `last_run_at` when nothing raised, and each healthy subscriber sees task_started then task_completed |
| Scheduler.GuardWindow | src/services/scheduler_service.py:138-160 | two starts that pass the guard before either registers both record running runs; the first to finish unlocks the task while the other still runs |
| Scheduler.RegisterTwice | src/services/scheduler_service.py:148-160 | two registrations of one task leave both records running and the running map pointing at the later one |
| Scheduler.FinishKeepsOtherRecord | src/services/scheduler_service.py:162-226 | finishing one run leaves every other record, looked up by id, exactly as it was |
| Scheduler.RunNowPromisesNoRun | src/services/scheduler_service.py:112-130 | run_now can report success and yet a run started in between makes the spawned one do nothing |
| Scheduler.UpdateChangesOnlyItsRecord | src/services/log_service.py:36-69 | an update changes no other run record |
| Scheduler.FinishRunChangesOnlyItsRecord | src/services/scheduler_service.py:162-226 | finishing a run changes no other run record |
| Scheduler.BeginRunKeepsConsistent | src/services/scheduler_service.py:148-152 | starting a run keeps every running entry pointing at a running record of its task |
| Scheduler.FinishRunKeepsConsistent | src/services/scheduler_service.py:216-217 | finishing a run keeps the running map consistent |
| Scheduler.DeleteLeavesStaleEntry | src/api/routers/tasks.py:82-100 | deleting a running task breaks that consistency |
| Scheduler.ScheduleAll | src/services/scheduler_service.py:48-49 | scheduling a list of tasks changes only jobs and run-time columns; ids and records stay |
| Scheduler.ScheduleAllJobs | src/services/scheduler_service.py:48-49 | after scheduling a list, each listed task has a job exactly when schedulable, and other jobs are kept |
| Scheduler.Start | src/services/scheduler_service.py:38-51 | start changes only jobs and run-time columns; no run starts |
| Scheduler.StartSchedulesEnabled | src/services/scheduler_service.py:38-51 | after start, each enabled task has a job exactly when schedulable, with its own trigger |
| TasksRouter.ListTasks | src/api/routers/tasks.py:13-21 | all tasks, newest first, with their count |
| TasksRouter.GetTask | src/api/routers/tasks.py:40-55 | 404 exactly for a missing id; otherwise that task |
| TasksRouter.ScheduleTaskScheduledAs | src/services/scheduler_service.py:58-100 | scheduling gives a job exactly to schedulable tasks, keeping other jobs |
| TasksRouter.CreateTask | src/api/routers/tasks.py:24-37 | 422 for an invalid body, changing nothing; otherwise 201 with a new in-bounds row; the stored table is the old one with that row appended, up to the run times scheduling writes; scheduled as the cron says |
| TasksRouter.CreateThenGet | src/api/routers/tasks.py:24-55 | after a create, `get_task` of the new id answers the created row up to its run times |
| TasksRouter.UpdateTask | src/api/routers/tasks.py:58-79 | 422, 404 and 500 exactly in their cases, changing nothing; otherwise only the sent fields change, the stored table is the old one with the answered row in the task's place up to run times, and the task is rescheduled |
| TasksRouter.UpdateThenGet | src/api/routers/tasks.py:40-79 | after an update, `get_task` answers the updated row up to its run times |
| TasksRouter.DeleteTask | src/api/routers/tasks.py:82-100 | the job is removed first; 404 exactly for a missing id; otherwise 204 with the task and its runs gone, every other task and run record kept, and nothing added |
| TasksRouter.DeleteThenGet | src/api/routers/tasks.py:40-100 | after a delete, `get_task` answers 404 for the task and answers every other task as before |
| TasksRouter.DeleteWhileRunningLeavesStaleEntry | src/api/routers/tasks.py:82-100 | deleting a running task succeeds and leaves it in the running map with its record gone |
| TasksRouter.RunTask | src/api/routers/tasks.py:103-126 | 404 for a missing task, 409 for a running one, otherwise the run is accepted |
| TasksRouter.ToggleTask | src/api/routers/tasks.py:129-152 | 404 for a missing task; otherwise the answered row is the old one with the flag flipped and a fresh stamp, stored in its place up to run times; the task is rescheduled or has no job |
| TasksRouter.ToggleThenGet | src/api/routers/tasks.py:40-152 | after a toggle, `get_task` answers the toggled row up to its run times |
| TasksRouter.DuplicateBody | src/api/routers/tasks.py:171-183 | the copy's name is the original's plus " (DUPLICATE)"; every other field is copied |
| TasksRouter.DuplicateBodyValid | src/api/routers/tasks.py:171-183 | the copy of an in-bounds task is valid exactly when the longer name still fits 255 characters |
| TasksRouter.DuplicateTask | src/api/routers/tasks.py:155-192 | 404 for a missing task; 500 when the copy's name is too long; otherwise 201 with an enabled copy, stored appended to the table up to run times, scheduled when its cron is truthy |
| TasksRouter.DuplicateThenGet | src/api/routers/tasks.py:40-192 | after a duplicate, `get_task` of the new id answers the copy up to its run times |
| LogsRouter.DefaultPagingValid | src/api/routers/logs.py:43-44 | the default page 1 with 25 per page is accepted |
| LogsRouter.ValidPaging | src/api/routers/logs.py:43-44 | the query constraints `page >= 1` and `1 <= per_page <= 100` |
| LogsRouter.Offset | src/api/routers/logs.py:49 | page 1 starts at row 0 and later pages start past the first page |
| LogsRouter.PageOfPosition | src/api/routers/logs.py:49 | every position lies on exactly one accepted page, at a slot below the page size |
| LogsRouter.TotalPages | src/api/routers/logs.py:58 | at least one page; the pages hold all rows and the last one is non-empty |
| LogsRouter.StepsOf | src/api/routers/logs.py:17-22 | steps are returned exactly when the column decodes |
| LogsRouter.LogToResponse | src/api/routers/logs.py:15-36 | every column is copied; the task name is present exactly when the task exists |
| LogsRouter.WrittenStepsReadBack | src/api/routers/logs.py:17-22 | steps written by an update are read back unchanged |
| LogsRouter.Responses | src/api/routers/logs.py:61 | one response per record, in order |
| LogsRouter.ListLogs | src/api/routers/logs.py:39-66 | 422 exactly for bad paging; otherwise filtered entries, exactly as many as remain after the offset up to `per_page`, with the filtered total and page count |
| LogsRouter.PageEntry | src/api/routers/logs.py:49-61 | entry j of a page is the record at position offset + j of the filtered order |
| LogsRouter.GetLog | src/api/routers/logs.py:69-84 | 404 exactly for a missing id; otherwise that record |
| LogsRouter.TaskLogs | src/api/routers/logs.py:87-112 | 422 exactly for bad paging; otherwise only records of that task, as many as remain after the offset up to `per_page` |
| LogsRouter.TaskLogsIsFilteredListing | src/api/routers/logs.py:87-112 | the task's log listing is the general listing filtered by task id |

## Left out

- I/O is not modelled: the database engine and sessions, commits and rollbacks. Driver failures appear only as the faults of `Scheduler.Fault`. Each service call is one pure step (src/db/database.py is not part of this model).
- APScheduler is a parameter. Which cron strings parse and when a trigger fires next are inputs, and the job store is a map.
- The `except` branch of `schedule_task` covers a database failure after `add_job`. That branch is not modelled; only a parse failure leads to `False`.
- Scheduler.Recover: a fault stands for an exception after which the session still accepts statements, so the `except` branch's own `update` writes FAILURE and the notice follows. A failed flush that leaves the session needing `rollback()` would make that `update` raise too; this is not modelled, and `FinishRunRecord` and `RunLifecycle` assume the session recovers.
- Exceptions in `_execute_task` are modelled at two points: in the update of the run record, and after it but before `update_run_times` reloads the task row. An exception raised later (lines 184-193) is not modelled separately; the `except` branch would then read the reloaded row.
- AgentExecutor.Execute: a `TimeoutError` raised by the run or while its result is read counts as `asyncio.TimeoutError`, which holds from Python 3.11 on; on older versions it would give FAILURE.
- The browser-use agent, the LLM and `browser.stop()` are not modelled. The agent's outcome is an input. A failing `stop()` is swallowed by the source and changes nothing.
- The Telegram controller action (`create_controller`) is not modelled. It runs inside the agent, whose behaviour is an input.
- The bot is a configuration check here. Delivery success or failure is an input.
- Clocks and UUIDs are parameters. One timestamp stands for every step of a run. ISO-8601 strings are replaced by whole seconds, and float durations by integers.
- LogsRouter.TotalPages: computed with exact integer arithmetic instead of `ceil` of a float division. The two agree on every input the API accepts.
- LogsRouter.Offset: the contract states where pages start, not the closed form of the multiplication.
- Scheduler.ExecuteTask: the per-record outcome is stated by `Scheduler.RunLifecycle`, not in its own contract.
- The HTTP and SSE plumbing is not modelled: app.py, main.py, the events and system routers, JSON framing of events (`data: ...`) and `init_db`.
- Concurrency is modelled by splitting `_execute_task` at its await points. Interleavings are the orderings the lemmas compose, not a scheduler of coroutines.
- The `agent_steps` JSON encoding is not modelled. A column written by the core always decodes. Text written from outside is the `Undecodable` case.

## Findings

| source | as written | input that shows it | evidently intended | confidence | as-written member | corrected member |
|---|---|---|---|---|---|---|
| src/services/scheduler_service.py:169-226 | when the run record no longer exists, `update` returns `None` and the `finally` block evaluates `log.id` on it, so task_completed is never broadcast; if instead the first `update` raises, `log` is still the object created at line 149 and task_completed is broadcast with its stale status `running` | delete a task while its run is in progress: the cascade removes the run record before the run finishes | broadcast task_completed with status "unknown", as the `if log else "unknown"` on line 225 shows | not executed | Scheduler.FinishRunAsWritten | Scheduler.FinishRun |

=== FILE: agent_executor.dfy ===
/** The agent run (src/services/agent_executor.py): the prompt handed to the
    browser agent, and the classification of what the agent run ended in into
    the `(status, result_summary, error_message, agent_steps)` tuple. The agent
    itself is outside the model; its outcome is an input. */
module AgentExecutor {
  import opened Wrappers
  import opened Text
  import opened Models
  import opened Config
  import Notification

  /** A value the agent reported: its `str()` and its Python truthiness. */
  datatype Val = Val(text: string, truthy: bool)

  /** One history item; a `None` field is an attribute the item lacks. */
  datatype HistoryItem = HistoryItem(action: Option<Val>, result: Option<Val>)

  /** An exception raised by code outside the core: its `str()`, and whether
      it is a `TimeoutError`. From Python 3.11 on `asyncio.TimeoutError` is
      the builtin `TimeoutError`, so `except asyncio.TimeoutError` catches
      such an exception too. */
  datatype Exc = Exc(message: string, timeoutError: bool)

  /** The object `agent.run()` returns: its own truthiness, its
      `final_result` and `history` attributes (`None` when absent), and
      whether reading it raises: `summaryRaises` while the summary is
      extracted (a `str()` that raises), `stepsRaise` while the steps are (a
      `history` that is not iterable, a `str()` that raises). */
  datatype AgentResult = AgentResult(truthy: bool, finalResult: Option<Val>, history: Option<seq<HistoryItem>>,
                                     summaryRaises: Option<Exc>, stepsRaise: Option<Exc>)

  /** How the agent run ended: setting up the prompt, browser or agent
      raised (outside the timeout handler), or the awaited run returned,
      `asyncio.wait_for` timed out, or the run raised. */
  datatype WorkerOutcome = SetupFailed(message: string) | Returned(result: AgentResult) | TimedOut | Raised(exc: Exc)

  /** The tuple `execute` returns. */
  datatype Outcome = Outcome(status: Status, summary: Option<string>, error: Option<string>, steps: seq<Step>)

  const StartPrefix: string := "Starting from "
  const StartSeparator: string := ": "
  const TelegramHint: string :=
    "\n\nNote: You have access to send_telegram_notification action to send custom messages to the user. Use it when appropriate based on the task."
  const MaxSummaryLength: nat := 1000
  const MaxStepResultLength: nat := 500
  const NoResultMessage: string := "Agent returned no result"
  const DefaultSummary: string := "Task completed"

  /** The description, behind `"Starting from {url}: "` when the task has a start URL. */
  function Located(task: Task): (r: string)
    ensures Truthy(task.startUrl) ==> StartsWith(r, StartPrefix + task.startUrl.value + StartSeparator)
    ensures Truthy(task.startUrl) ==> EndsWith(r, task.description)
    ensures Truthy(task.startUrl) ==> |r| == |StartPrefix| + |task.startUrl.value| + |StartSeparator| + |task.description|
    ensures !Truthy(task.startUrl) ==> r == task.description
  {
    if Truthy(task.startUrl) then
      var p := StartPrefix + task.startUrl.value + StartSeparator;
      var r := p + task.description;
      assert r[..|p|] == p;
      assert r[|r| - |task.description|..] == task.description;
      r
    else task.description
  }

  /** `_build_prompt`: the located description, followed by the hint about the
      Telegram action when the task wants Telegram and the service is configured. */
  function BuildPrompt(task: Task, settings: Settings): (r: string)
    ensures StartsWith(r, Located(task))
    ensures task.telegramEnabled && Notification.IsConfigured(settings) ==>
      EndsWith(r, TelegramHint) && r[..|r| - |TelegramHint|] == Located(task)
    ensures !(task.telegramEnabled && Notification.IsConfigured(settings)) ==> r == Located(task)
  {
    var base := Located(task);
    if task.telegramEnabled && Notification.IsConfigured(settings) then
      var r := base + TelegramHint;
      assert r[..|base|] == base;
      assert r[|r| - |TelegramHint|..] == TelegramHint;
      r
    else base
  }

  /** Index of the latest history item whose result is present and truthy. */
  function LatestResult(h: seq<HistoryItem>): (r: Option<nat>)
    ensures r.Some? ==> r.value < |h| && h[r.value].result.Some? && h[r.value].result.value.truthy
    ensures r.Some? ==> forall k :: r.value < k < |h| ==> !(h[k].result.Some? && h[k].result.value.truthy)
    ensures r.None? <==> forall k :: 0 <= k < |h| ==> !(h[k].result.Some? && h[k].result.value.truthy)
    decreases |h|
  {
    if |h| == 0 then None
    else
      var last := h[|h| - 1];
      if last.result.Some? && last.result.value.truthy then Some(|h| - 1)
      else
        var r := LatestResult(h[..|h| - 1]);
        assert forall k :: 0 <= k < |h| - 1 ==> h[k] == h[..|h| - 1][k];
        r
  }

  /** `_extract_result_summary`: a truthy `final_result`, else the latest
      truthy history result, else `"Task completed"`; at most 1000 characters. */
  function ExtractSummary(res: AgentResult): (r: string)
    ensures |r| <= MaxSummaryLength
    ensures res.finalResult.Some? && res.finalResult.value.truthy ==>
      r == Take(res.finalResult.value.text, MaxSummaryLength)
    ensures !(res.finalResult.Some? && res.finalResult.value.truthy) && res.history.Some? ==>
      match LatestResult(res.history.value)
      case Some(k) => r == Take(res.history.value[k].result.value.text, MaxSummaryLength)
      case None => r == DefaultSummary
    ensures !(res.finalResult.Some? && res.finalResult.value.truthy) && res.history.None? ==> r == DefaultSummary
  {
    if res.finalResult.Some? && res.finalResult.value.truthy then
      Take(res.finalResult.value.text, MaxSummaryLength)
    else if res.history.Some? && LatestResult(res.history.value).Some? then
      var k := LatestResult(res.history.value).value;
      Take(res.history.value[k].result.value.text, MaxSummaryLength)
    else DefaultSummary
  }

  /** The step record for history item `i`: its position and the clock, the
      action when the item has one, and the result cut to 500 characters when
      it has one. */
  function StepOf(i: nat, item: HistoryItem, now: nat): (r: Step)
    ensures r.index == i && r.timestamp == now
    ensures r.action.Some? <==> item.action.Some?
    ensures r.action.Some? ==> r.action.value == item.action.value.text
    ensures r.result.Some? <==> item.result.Some?
    ensures r.result.Some? ==>
      && |r.result.value| <= MaxStepResultLength
      && r.result.value <= item.result.value.text
      && (|item.result.value.text| <= MaxStepResultLength ==> r.result.value == item.result.value.text)
  {
    Step(i, now,
         if item.action.Some? then Some(item.action.value.text) else None,
         if item.result.Some? then Some(Take(item.result.value.text, MaxStepResultLength)) else None)
  }

  /** `_extract_steps`: one step per history item, numbered from 0, with the
      stringified action and the result cut to 500 characters. All steps carry
      the same clock reading. */
  function ExtractSteps(res: AgentResult, now: nat): (r: seq<Step>)
    ensures res.history.None? ==> r == []
    ensures res.history.Some? ==> |r| == |res.history.value|
    ensures forall i :: 0 <= i < |r| ==> r[i].index == i && r[i].timestamp == now
    ensures forall i :: 0 <= i < |r| ==>
      (r[i].action.Some? <==> res.history.value[i].action.Some?) &&
      (r[i].action.Some? ==> r[i].action.value == res.history.value[i].action.value.text)
    ensures forall i :: 0 <= i < |r| ==>
      (r[i].result.Some? <==> res.history.value[i].result.Some?) &&
      (r[i].result.Some? ==> |r[i].result.value| <= MaxStepResultLength &&
                             r[i].result.value <= res.history.value[i].result.value.text)
  {
    if res.history.None? then []
    else
      var h := res.history.value;
      seq(|h|, i requires 0 <= i < |h| => StepOf(i, h[i], now))
  }

  function TimeoutMessage(timeoutSeconds: int): string {
    "Task timed out after " + IntToString(timeoutSeconds) + " seconds"
  }

  /** The exception the timeout handler sees, if any: the run's own, or the
      first one raised while reading a truthy result (the summary is
      extracted before the steps). */
  function Thrown(outcome: WorkerOutcome): Option<Exc> {
    match outcome
    case Raised(e) => Some(e)
    case SetupFailed(_) => None
    case TimedOut => None
    case Returned(res) =>
      if !res.truthy then None
      else if res.summaryRaises.Some? then res.summaryRaises
      else res.stepsRaise
  }

  /** `execute`: the outcome tuple for a worker outcome. A `TimeoutError`
      lands in the inner handler (TIMEOUT), any other exception in the outer
      one (FAILURE with its text); a summary already extracted is kept.
      Clean-up of the browser cannot change the tuple (its failure is only
      logged). */
  function Execute(task: Task, outcome: WorkerOutcome, now: nat): (r: Outcome)
    ensures r.status != Running
    ensures r.status == Success <==> outcome.Returned? && outcome.result.truthy && Thrown(outcome).None?
    ensures r.status == Success ==>
      && r.error.None?
      && r.steps == ExtractSteps(outcome.result, now)
    ensures r.summary.Some? <==> outcome.Returned? && outcome.result.truthy && outcome.result.summaryRaises.None?
    ensures r.summary.Some? ==>
      r.summary == Some(ExtractSummary(outcome.result)) && |r.summary.value| <= MaxSummaryLength
    ensures r.status == Timeout <==> outcome.TimedOut? || (Thrown(outcome).Some? && Thrown(outcome).value.timeoutError)
    ensures r.status == Timeout ==> r.error == Some(TimeoutMessage(task.timeoutSeconds))
    ensures Thrown(outcome).Some? && !Thrown(outcome).value.timeoutError ==>
      r.status == Failure && r.error == Some(Thrown(outcome).value.message)
    ensures r.status != Success ==> r.steps == [] && r.error.Some?
    ensures outcome.Returned? && !outcome.result.truthy ==> r.status == Failure && r.error == Some(NoResultMessage)
    ensures outcome.SetupFailed? ==> r.status == Failure && r.error == Some(outcome.message)
  {
    match outcome
    case Returned(res) =>
      if !res.truthy then Outcome(Failure, None, Some(NoResultMessage), [])
      else if res.summaryRaises.Some? then Caught(task, res.summaryRaises.value, None)
      else if res.stepsRaise.Some? then Caught(task, res.stepsRaise.value, Some(ExtractSummary(res)))
      else Outcome(Success, Some(ExtractSummary(res)), None, ExtractSteps(res, now))
    case SetupFailed(msg) => Outcome(Failure, None, Some(msg), [])
    case TimedOut => Outcome(Timeout, None, Some(TimeoutMessage(task.timeoutSeconds)), [])
    case Raised(e) => Caught(task, e, None)
  }

  /** The tuple after an exception, with the summary extracted so far. */
  function Caught(task: Task, e: Exc, summary: Option<string>): (r: Outcome)
    ensures r.summary == summary && r.steps == [] && r.error.Some?
    ensures e.timeoutError ==> r.status == Timeout && r.error == Some(TimeoutMessage(task.timeoutSeconds))
    ensures !e.timeoutError ==> r.status == Failure && r.error == Some(e.message)
  {
    if e.timeoutError then Outcome(Timeout, summary, Some(TimeoutMessage(task.timeoutSeconds)), [])
    else Outcome(Failure, summary, Some(e.message), [])
  }

  /** The timeout message quotes the configured timeout in decimal. */
  lemma TimeoutMessageQuotesTimeout(timeoutSeconds: int)
    ensures Contains(TimeoutMessage(timeoutSeconds), IntToString(timeoutSeconds))
  {
    ContainsMiddle("Task timed out after ", IntToString(timeoutSeconds), " seconds");
  }
}

=== FILE: api.dfy ===
/** What an endpoint of the HTTP layer answers: a body with its success
    status code, or one of the errors the routers produce (an explicit
    `HTTPException`, a request the validator rejects, or an exception the
    framework turns into a server error). */
module Api {

  /** The error responses: 404 Not Found, 409 Conflict, 422 Unprocessable
      Entity (the validator's answer) and 500 Internal Server Error. */
  datatype ApiError = NotFound | Conflict | Unprocessable | Internal

  const OkCode: int := 200
  const CreatedCode: int := 201
  const NoContentCode: int := 204

  datatype Response<T> = Ok(code: int, body: T) | Fail(error: ApiError)
}

=== FILE: config.dfy ===
/** Application settings (src/config/settings.py): the defaults the process
    starts with when no environment overrides them, and the derivation of the
    SQLite file path from the database URL. */
module Config {
  import opened Text

  datatype Settings = Settings(
    openaiApiKey: string,
    telegramBotToken: string,
    telegramChatId: string,
    databaseUrl: string,
    host: string,
    port: int,
    browserHeadless: bool,
    browserChannel: string)

  /** Settings when no environment variable or `.env` entry overrides a field. */
  function Defaults(): (s: Settings)
    ensures s.telegramBotToken == "" && s.telegramChatId == "" && s.openaiApiKey == ""
    ensures s.host == "0.0.0.0" && s.port == 8000
    ensures s.browserHeadless && s.browserChannel == "chrome"
    ensures StartsWith(s.databaseUrl, "sqlite")
  {
    assert (DefaultUrlPrefix + UrlSeparator + FallbackPath)[..6] == "sqlite";
    Settings(
      "", "", "",
      DefaultUrlPrefix + UrlSeparator + FallbackPath,
      "0.0.0.0", 8000,
      true, "chrome")
  }

  /** The default URL is `sqlite+aiosqlite:///./data/browserautomation.db`. */
  const DefaultUrlPrefix: string := "sqlite+aiosqlite:"
  const UrlSeparator: string := "///"
  const FallbackPath: string := "./data/browserautomation.db"

  /** `database_path`: for a `sqlite...` URL, the last piece of `url.split("///")`
      (the whole URL when it holds no `///`); otherwise a fixed fallback path. */
  function DatabasePath(url: string): (path: string)
    ensures !StartsWith(url, "sqlite") ==> path == FallbackPath
    ensures StartsWith(url, "sqlite") ==> EndsWith(url, path) && !Contains(path, UrlSeparator)
    ensures StartsWith(url, "sqlite") && !Contains(url, UrlSeparator) ==> path == url
    ensures StartsWith(url, "sqlite") && Contains(url, UrlSeparator) ==> EndsWith(url, UrlSeparator + path)
  {
    if StartsWith(url, "sqlite") then
      var pieces := Split(url, UrlSeparator);
      SplitLastIsSuffix(url, UrlSeparator);
      SplitPiecesFree(url, UrlSeparator);
      FindFromStartAbsent(url, UrlSeparator);
      if Contains(url, UrlSeparator) then
        SplitLastAfterSeparator(url, UrlSeparator);
        pieces[|pieces| - 1]
      else
        pieces[|pieces| - 1]
    else
      FallbackPath
  }

  /** A URL `prefix + "///" + path` whose prefix holds no `/` and whose path holds
      no `///` yields exactly `path`. */
  lemma {:induction false} DatabasePathOfSimpleUrl(prefix: string, path: string)
    requires StartsWith(prefix, "sqlite")
    requires forall k :: 0 <= k < |prefix| ==> prefix[k] != '/'
    requires !Contains(path, UrlSeparator)
    ensures DatabasePath(prefix + UrlSeparator + path) == path
  {
    var url := prefix + UrlSeparator + path;
    assert StartsWith(url, "sqlite") by {
      assert url[..|prefix|] == prefix;
    }
    var found := FindFrom(url, UrlSeparator, 0);
    assert OccursAt(url, UrlSeparator, |prefix|) by {
      assert url[|prefix|..|prefix| + 3] == UrlSeparator;
    }
    assert found.Some?;
    forall i: nat | i < |prefix|
      ensures !OccursAt(url, UrlSeparator, i)
    {
      assert url[i] == prefix[i];
      assert i + 3 <= |url| ==> url[i..i + 3][0] == url[i];
    }
    assert found.value == |prefix|;
    var rest := url[|prefix| + 3..];
    assert rest == path;
    FindFromStartAbsent(path, UrlSeparator);
    assert Split(path, UrlSeparator) == [path];
    assert Split(url, UrlSeparator) == [url[..|prefix|]] + [path];
  }

  lemma DefaultPrefixSlashFree()
    ensures forall k :: 0 <= k < |DefaultUrlPrefix| ==> DefaultUrlPrefix[k] != '/'
  {
  }

  lemma FallbackPathSeparatorFree()
    ensures !Contains(FallbackPath, UrlSeparator)
  {
    forall j: nat | j + 3 <= |FallbackPath|
      ensures !OccursAt(FallbackPath, UrlSeparator, j)
    {
      assert FallbackPath[j..j + 3][0] == FallbackPath[j];
      assert FallbackPath[j..j + 3][1] == FallbackPath[j + 1];
      assert FallbackPath[j] != '/' || FallbackPath[j + 1] != '/';
    }
  }

  /** With the default settings the database lives at ./data/browserautomation.db. */
  lemma DefaultDatabasePath()
    ensures DatabasePath(Defaults().databaseUrl) == FallbackPath
  {
    DefaultPrefixSlashFree();
    FallbackPathSeparatorFree();
    assert StartsWith(DefaultUrlPrefix, "sqlite") by {
      assert DefaultUrlPrefix[..6] == "sqlite";
    }
    DatabasePathOfSimpleUrl(DefaultUrlPrefix, FallbackPath);
  }
}

=== FILE: events.dfy ===
/** Server-sent event fan-out (src/services/event_manager.py): a list of
    subscriber queues, each receiving every broadcast event in order. */
module Events {
  import opened Wrappers
  import opened Models

  /** The two payloads the run lifecycle broadcasts. A completion whose run
      record could not be read carries no status (rendered `"unknown"`). */
  datatype Event =
    | TaskStarted(taskId: string, logId: string)
    | TaskCompleted(taskId: string, logId: string, status: Option<Status>)

  /** One open stream: a queue of events not yet taken. The `id` stands for the
      queue object's identity. */
  datatype Subscriber = Subscriber(id: nat, pending: seq<Event>)

  /** The `_queues` list, plus the source of fresh identities. */
  datatype Manager = Manager(subscribers: seq<Subscriber>, nextId: nat)

  function Ids(m: Manager): set<nat> {
    set k | 0 <= k < |m.subscribers| :: m.subscribers[k].id
  }

  /** Identities are distinct and all issued before `nextId`. */
  predicate Valid(m: Manager) {
    && (forall i, j :: 0 <= i < j < |m.subscribers| ==> m.subscribers[i].id != m.subscribers[j].id)
    && (forall k :: 0 <= k < |m.subscribers| ==> m.subscribers[k].id < m.nextId)
  }

  const Empty: Manager := Manager([], 0)

  /** `subscriber_count`. */
  function SubscriberCount(m: Manager): (n: nat)
    ensures n == |m.subscribers|
    ensures Valid(m) ==> n == |Ids(m)|
  {
    if Valid(m) then
      DistinctIdsCount(m.subscribers);
      |m.subscribers|
    else |m.subscribers|
  }

  lemma {:induction false} DistinctIdsCount(subs: seq<Subscriber>)
    requires forall i, j :: 0 <= i < j < |subs| ==> subs[i].id != subs[j].id
    ensures |set k | 0 <= k < |subs| :: subs[k].id| == |subs|
  {
    if |subs| > 0 {
      var init := subs[..|subs| - 1];
      var last := subs[|subs| - 1];
      DistinctIdsCount(init);
      var all := set k | 0 <= k < |subs| :: subs[k].id;
      var front := set k | 0 <= k < |init| :: init[k].id;
      assert all == front + {last.id} by {
        forall x | x in all
          ensures x in front + {last.id}
        {
          var k :| 0 <= k < |subs| && subs[k].id == x;
          if k < |init| {
            assert init[k].id == x;
          }
        }
        forall x | x in front
          ensures x in all
        {
          var k :| 0 <= k < |init| && init[k].id == x;
          assert subs[k].id == x;
        }
        assert subs[|subs| - 1].id == last.id;
      }
      assert last.id !in front by {
        forall k | 0 <= k < |init|
          ensures init[k].id != last.id
        {
          assert init[k] == subs[k];
        }
      }
    }
  }

  /** Opening a stream: a fresh, empty queue joins the end of the list. */
  function Subscribe(m: Manager): (r: (Manager, nat))
    ensures r.0.subscribers == m.subscribers + [Subscriber(r.1, [])]
    ensures r.1 !in Ids(m) || !Valid(m)
    ensures |r.0.subscribers| == |m.subscribers| + 1
    ensures Valid(m) ==> Valid(r.0)
  {
    (Manager(m.subscribers + [Subscriber(m.nextId, [])], m.nextId + 1), m.nextId)
  }

  /** The stream with identity `id` ended (`finally: remove(queue)`): the
      first queue with that identity leaves the list; the others keep their
      order and contents. */
  function Unsubscribe(m: Manager, id: nat): (r: Manager)
    ensures r.nextId == m.nextId
    ensures id !in Ids(m) ==> r == m
    ensures id in Ids(m) ==> |r.subscribers| == |m.subscribers| - 1
    ensures forall k :: 0 <= k < |r.subscribers| ==> r.subscribers[k] in m.subscribers
    ensures forall k :: 0 <= k < |m.subscribers| && m.subscribers[k].id != id ==> m.subscribers[k] in r.subscribers
    ensures Valid(m) ==> id !in Ids(r) && Valid(r)
    ensures id in Ids(m) ==>
      exists i :: 0 <= i < |m.subscribers| && m.subscribers[i].id == id &&
        (forall k :: 0 <= k < i ==> m.subscribers[k].id != id) &&
        r.subscribers == m.subscribers[..i] + m.subscribers[i + 1..]
  {
    match FindSubscriber(m.subscribers, id)
    case None =>
      assert id !in Ids(m);
      m
    case Some(i) =>
      var rest := m.subscribers[..i] + m.subscribers[i + 1..];
      RemoveAtKeepsOthers(m.subscribers, i, rest);
      RemoveAtKeepsValid(m, i);
      Manager(rest, m.nextId)
  }

  lemma RemoveAtKeepsOthers(subs: seq<Subscriber>, i: nat, rest: seq<Subscriber>)
    requires i < |subs| && rest == subs[..i] + subs[i + 1..]
    ensures |rest| == |subs| - 1
    ensures forall k :: 0 <= k < |rest| ==> rest[k] in subs
    ensures forall k :: 0 <= k < |subs| && k != i ==> subs[k] in rest
  {
    forall k | 0 <= k < |subs| && k != i
      ensures subs[k] in rest
    {
      if k < i {
        assert rest[k] == subs[k];
      } else {
        assert rest[k - 1] == subs[k];
      }
    }
  }

  lemma RemoveAtKeepsValid(m: Manager, i: nat)
    requires i < |m.subscribers|
    ensures Valid(m) ==> Valid(Manager(m.subscribers[..i] + m.subscribers[i + 1..], m.nextId))
    ensures Valid(m) ==> m.subscribers[i].id !in Ids(Manager(m.subscribers[..i] + m.subscribers[i + 1..], m.nextId))
  {
    var subs := m.subscribers;
    var rest := subs[..i] + subs[i + 1..];
    assert forall k :: 0 <= k < |rest| ==> rest[k] == subs[if k < i then k else k + 1];
  }

  /** The queue of subscriber `s` after a put of `e`; `failing` are the queues
      whose put raises (the error is logged and the loop goes on). */
  function Put(s: Subscriber, e: Event, failing: set<nat>): (r: Subscriber)
    ensures r.id == s.id && s.pending <= r.pending
    ensures r.pending == s.pending <==> s.id in failing
    ensures s.id !in failing ==> |r.pending| == |s.pending| + 1 && r.pending[|s.pending|] == e
  {
    if s.id in failing then s else s.(pending := s.pending + [e])
  }

  /** `broadcast`: every queue not failing receives `e` at its end; the list
      itself does not change. */
  function Broadcast(m: Manager, e: Event, failing: set<nat>): (r: Manager)
    ensures |r.subscribers| == |m.subscribers| && r.nextId == m.nextId
    ensures forall k :: 0 <= k < |m.subscribers| ==> r.subscribers[k].id == m.subscribers[k].id
    ensures forall k :: 0 <= k < |m.subscribers| && m.subscribers[k].id !in failing ==>
      r.subscribers[k].pending == m.subscribers[k].pending + [e]
    ensures forall k :: 0 <= k < |m.subscribers| && m.subscribers[k].id in failing ==>
      r.subscribers[k].pending == m.subscribers[k].pending
    ensures Ids(r) == Ids(m)
    ensures Valid(m) ==> Valid(r)
  {
    var r := Manager(seq(|m.subscribers|, k requires 0 <= k < |m.subscribers| => Put(m.subscribers[k], e, failing)), m.nextId);
    assert forall k :: 0 <= k < |m.subscribers| ==> r.subscribers[k].id == m.subscribers[k].id;
    r
  }

  /** A broadcast to a manager holding one healthy subscriber appends to its queue. */
  lemma BroadcastToOne(s: Subscriber, nextId: nat, e: Event, failing: set<nat>)
    requires s.id !in failing
    ensures Broadcast(Manager([s], nextId), e, failing) == Manager([s.(pending := s.pending + [e])], nextId)
  {
    var r := Broadcast(Manager([s], nextId), e, failing);
    assert r.subscribers[0] == s.(pending := s.pending + [e]);
  }

  /** Two broadcasts reach each healthy subscriber in the order they were sent. */
  lemma BroadcastTwice(m: Manager, e1: Event, e2: Event, failing: set<nat>)
    ensures forall k :: 0 <= k < |m.subscribers| && m.subscribers[k].id !in failing ==>
      Broadcast(Broadcast(m, e1, failing), e2, failing).subscribers[k].pending == m.subscribers[k].pending + [e1, e2]
  {
    var m1 := Broadcast(m, e1, failing);
    forall k | 0 <= k < |m.subscribers| && m.subscribers[k].id !in failing
      ensures Broadcast(m1, e2, failing).subscribers[k].pending == m.subscribers[k].pending + [e1, e2]
    {
      assert m1.subscribers[k].id == m.subscribers[k].id;
      assert m.subscribers[k].pending + [e1] + [e2] == m.subscribers[k].pending + [e1, e2];
    }
  }

  /** With no failing queue, every subscriber gets the event appended. */
  lemma BroadcastNoneFailing(m: Manager, e: Event)
    ensures forall k :: 0 <= k < |m.subscribers| ==>
      Broadcast(m, e, {}).subscribers[k] == m.subscribers[k].(pending := m.subscribers[k].pending + [e])
  {
  }

  /** Broadcasting a sequence of events, one after the other, with no failing queue. */
  function BroadcastAll(m: Manager, es: seq<Event>): (r: Manager)
    decreases |es|
  {
    if |es| == 0 then m else BroadcastAll(Broadcast(m, es[0], {}), es[1..])
  }

  /** Each subscriber receives the broadcast events in broadcast order, after
      what was already pending. */
  lemma {:induction false} BroadcastAllInOrder(m: Manager, es: seq<Event>)
    ensures |BroadcastAll(m, es).subscribers| == |m.subscribers|
    ensures forall k :: 0 <= k < |m.subscribers| ==>
      BroadcastAll(m, es).subscribers[k] == m.subscribers[k].(pending := m.subscribers[k].pending + es)
    decreases |es|
  {
    if |es| == 0 {
      forall k | 0 <= k < |m.subscribers|
        ensures m.subscribers[k] == m.subscribers[k].(pending := m.subscribers[k].pending + es)
      {
        assert m.subscribers[k].pending + es == m.subscribers[k].pending;
      }
    } else {
      var m1 := Broadcast(m, es[0], {});
      BroadcastAllInOrder(m1, es[1..]);
      BroadcastNoneFailing(m, es[0]);
      forall k | 0 <= k < |m.subscribers|
        ensures BroadcastAll(m, es).subscribers[k] == m.subscribers[k].(pending := m.subscribers[k].pending + es)
      {
        assert m1.subscribers[k].pending + es[1..] == m.subscribers[k].pending + es by {
          assert es == [es[0]] + es[1..];
        }
      }
    }
  }

  /** `await queue.get()` for subscriber `id`: the oldest pending event, or
      `None` when the queue is empty (the reader would wait). */
  function Receive(m: Manager, id: nat): (r: (Manager, Option<Event>))
    ensures |r.0.subscribers| == |m.subscribers|
    ensures r.1.Some? ==>
      exists k :: 0 <= k < |m.subscribers| && m.subscribers[k].id == id &&
        |m.subscribers[k].pending| > 0 && r.1.value == m.subscribers[k].pending[0] &&
        r.0.subscribers == m.subscribers[k := m.subscribers[k].(pending := m.subscribers[k].pending[1..])]
    ensures r.1.None? ==> r.0 == m
  {
    var i := FindSubscriber(m.subscribers, id);
    if i.None? || |m.subscribers[i.value].pending| == 0 then (m, None)
    else
      var s := m.subscribers[i.value];
      (m.(subscribers := m.subscribers[i.value := s.(pending := s.pending[1..])]), Some(s.pending[0]))
  }

  function FindSubscriber(subs: seq<Subscriber>, id: nat): (r: Option<nat>)
    ensures r.Some? ==> r.value < |subs| && subs[r.value].id == id
    ensures r.Some? ==> forall k :: 0 <= k < r.value ==> subs[k].id != id
    ensures r.None? <==> forall k :: 0 <= k < |subs| ==> subs[k].id != id
    decreases |subs|
  {
    if |subs| == 0 then None
    else if subs[0].id == id then Some(0)
    else match FindSubscriber(subs[1..], id)
      case None => None
      case Some(i) => Some(i + 1)
  }

  /** A subscriber that started with an empty queue takes the broadcast events
      back out first to last (FIFO). */
  lemma {:induction false} ReceiveInBroadcastOrder(m: Manager, id: nat, e1: Event, e2: Event)
    requires Valid(m)
    requires exists k :: 0 <= k < |m.subscribers| && m.subscribers[k].id == id && m.subscribers[k].pending == []
    ensures var m2 := Broadcast(Broadcast(m, e1, {}), e2, {});
            var (m3, first) := Receive(m2, id);
            var (_, second) := Receive(m3, id);
            first == Some(e1) && second == Some(e2)
  {
    var k :| 0 <= k < |m.subscribers| && m.subscribers[k].id == id && m.subscribers[k].pending == [];
    var m2 := Broadcast(Broadcast(m, e1, {}), e2, {});
    assert m2.subscribers[k].pending == [e1, e2];
    var (m3, first) := Receive(m2, id);
    var i := FindSubscriber(m2.subscribers, id).value;
    assert i == k;
    assert m3.subscribers[k].pending == [e2];
    var i3 := FindSubscriber(m3.subscribers, id).value;
    assert m3.subscribers[i3].id == id;
    assert i3 == k;
  }
}

=== FILE: log_service.dfy ===
/** Run records (src/services/log_service.py) over the `task_logs` table. */
module LogService {
  import opened Wrappers
  import opened Text
  import opened Models
  import Seqs

  function StartedKey(l: TaskLog): int {
    l.startedAt
  }

  /** Position of the run record with primary key `id`. */
  function FindLog(db: Db, id: string): (r: Option<nat>)
    ensures r.Some? ==> r.value < |db.logs| && db.logs[r.value].id == id
    ensures r.None? <==> id !in LogIds(db)
  {
    var r := Seqs.FindFirst(db.logs, (l: TaskLog) => l.id == id);
    if r.Some? then r
    else
      assert forall k :: 0 <= k < |db.logs| ==> db.logs[k].id != id;
      r
  }

  /** Completion and duration agree: a duration is present exactly when a
      completion time is, and it is the completion time minus the start. */
  predicate Stamped(l: TaskLog) {
    && (l.durationSeconds.Some? <==> l.completedAt.Some?)
    && (l.completedAt.Some? ==> l.durationSeconds.value == l.completedAt.value - l.startedAt)
  }

  /** `create`: a new record in `status` (by default `running`), started now,
      with nothing else filled in. `id` stands for the generated uuid. */
  function Create(db: Db, id: string, taskId: string, status: Status, now: nat): (r: (Db, TaskLog))
    requires id !in LogIds(db)
    ensures r.1.id == id && r.1.taskId == taskId && r.1.status == status
    ensures r.1.startedAt == now && r.1.createdAt == now
    ensures r.1.completedAt.None? && r.1.durationSeconds.None?
    ensures r.1.resultSummary.None? && r.1.errorMessage.None? && r.1.agentSteps.None?
    ensures Stamped(r.1)
    ensures r.0.logs == db.logs + [r.1] && r.0.tasks == db.tasks
    ensures LogIds(r.0) == LogIds(db) + {id}
    ensures Valid(db) && taskId in TaskIds(db) ==> Valid(r.0)
  {
    var l := TaskLog(id, taskId, status, now, None, None, None, None, None, now);
    var db' := db.(logs := db.logs + [l]);
    assert LogIds(db') == LogIds(db) + {id} by {
      forall x | x in LogIds(db')
        ensures x in LogIds(db) + {id}
      {
        var k :| 0 <= k < |db'.logs| && db'.logs[k].id == x;
        if k < |db.logs| {
          assert db.logs[k].id == x;
        }
      }
      forall x | x in LogIds(db) + {id}
        ensures x in LogIds(db')
      {
        if x == id {
          assert db'.logs[|db.logs|].id == x;
        } else {
          var k :| 0 <= k < |db.logs| && db.logs[k].id == x;
          assert db'.logs[k].id == x;
        }
      }
    }
    assert TaskIds(db') == TaskIds(db);
    (db', l)
  }

  /** The record after the assignments `update` makes. */
  function ApplyLogUpdate(l: TaskLog, status: Option<Status>, summary: Option<string>,
                          error: Option<string>, steps: Option<seq<Step>>, now: nat): TaskLog
  {
    var l1 :=
      if status.None? then l
      else if status.value.Terminal() then
        l.(status := status.value, completedAt := Some(now), durationSeconds := Some(now - l.startedAt))
      else l.(status := status.value);
    l1.(resultSummary := if summary.Some? then summary else l1.resultSummary,
        errorMessage := if error.Some? then error else l1.errorMessage,
        agentSteps := if steps.Some? then Some(Encoded(steps.value)) else l1.agentSteps)
  }

  /** `after` is `before` with the update's arguments applied: a given status
      is written and, when it ends the run, stamps completion and duration;
      every argument left out keeps its column. */
  predicate LogUpdated(before: TaskLog, after: TaskLog, status: Option<Status>, summary: Option<string>,
                       error: Option<string>, steps: Option<seq<Step>>, now: nat) {
    && after.id == before.id && after.taskId == before.taskId
    && after.startedAt == before.startedAt && after.createdAt == before.createdAt
    && after.status == (if status.Some? then status.value else before.status)
    && (if status.Some? && status.value.Terminal()
        then after.completedAt == Some(now) && after.durationSeconds == Some(now - before.startedAt)
        else after.completedAt == before.completedAt && after.durationSeconds == before.durationSeconds)
    && after.resultSummary == (if summary.Some? then summary else before.resultSummary)
    && after.errorMessage == (if error.Some? then error else before.errorMessage)
    && (steps.Some? ==> after.agentSteps == Some(Encoded(steps.value)))
    && (steps.None? ==> after.agentSteps == before.agentSteps)
  }

  lemma ApplyLogUpdateMeaning(l: TaskLog, status: Option<Status>, summary: Option<string>,
                              error: Option<string>, steps: Option<seq<Step>>, now: nat)
    ensures LogUpdated(l, ApplyLogUpdate(l, status, summary, error, steps, now), status, summary, error, steps, now)
    ensures Stamped(l) ==> Stamped(ApplyLogUpdate(l, status, summary, error, steps, now))
  {
  }

  /** `update`: `None` for an unknown id (nothing changes), otherwise the
      record with the given fields written. */
  function Update(db: Db, id: string, status: Option<Status>, summary: Option<string>,
                  error: Option<string>, steps: Option<seq<Step>>, now: nat): (r: (Db, Option<TaskLog>))
    ensures r.1.None? <==> id !in LogIds(db)
    ensures r.1.None? ==> r.0 == db
    ensures r.1.Some? ==>
      exists k :: 0 <= k < |db.logs| && db.logs[k].id == id &&
        r.0 == db.(logs := db.logs[k := r.1.value]) &&
        LogUpdated(db.logs[k], r.1.value, status, summary, error, steps, now)
    ensures r.0.tasks == db.tasks && LogIds(r.0) == LogIds(db)
    ensures UniqueLogIds(db.logs) ==> UniqueLogIds(r.0.logs)
    ensures Valid(db) ==> Valid(r.0)
  {
    match FindLog(db, id)
    case None => (db, None)
    case Some(i) =>
      var l' := ApplyLogUpdate(db.logs[i], status, summary, error, steps, now);
      var db' := db.(logs := db.logs[i := l']);
      ApplyLogUpdateMeaning(db.logs[i], status, summary, error, steps, now);
      ReplaceKeepsLogIds(db, i, l');
      assert db.logs[i].id == id && db' == db.(logs := db.logs[i := l']) &&
        LogUpdated(db.logs[i], l', status, summary, error, steps, now);
      (db', Some(l'))
  }

  /** Replacing a record by one with the same id and task keeps the table valid. */
  lemma ReplaceKeepsLogIds(db: Db, i: nat, l: TaskLog)
    requires i < |db.logs| && l.id == db.logs[i].id && l.taskId == db.logs[i].taskId
    ensures LogIds(db.(logs := db.logs[i := l])) == LogIds(db)
    ensures UniqueLogIds(db.logs) ==> UniqueLogIds(db.logs[i := l])
    ensures Valid(db) ==> Valid(db.(logs := db.logs[i := l]))
  {
    var db' := db.(logs := db.logs[i := l]);
    forall x | x in LogIds(db')
      ensures x in LogIds(db)
    {
      var k :| 0 <= k < |db'.logs| && db'.logs[k].id == x;
      assert db.logs[k].id == x;
    }
    forall x | x in LogIds(db)
      ensures x in LogIds(db')
    {
      var k :| 0 <= k < |db.logs| && db.logs[k].id == x;
      assert db'.logs[k].id == x;
    }
  }

  /** Reading a record back after `update` gives the record `update` returned. */
  lemma {:induction false} GetAfterUpdate(db: Db, id: string, status: Option<Status>, summary: Option<string>,
                                          error: Option<string>, steps: Option<seq<Step>>, now: nat)
    requires UniqueLogIds(db.logs) && id in LogIds(db)
    ensures var (db', l) := Update(db, id, status, summary, error, steps, now);
      && l.Some?
      && GetById(db', id) == l
      && LogUpdated(GetById(db, id).value, l.value, status, summary, error, steps, now)
  {
    var (db', l) := Update(db, id, status, summary, error, steps, now);
    var k :| 0 <= k < |db.logs| && db.logs[k].id == id &&
      db' == db.(logs := db.logs[k := l.value]) &&
      LogUpdated(db.logs[k], l.value, status, summary, error, steps, now);
    var i := FindLog(db, id).value;
    assert i == k;
    var j := FindLog(db', id).value;
    assert db'.logs[j].id == id;
    assert j == k;
  }

  /** An update that passes no argument leaves the record and the table as they were. */
  lemma UpdateNothingIsIdentity(db: Db, id: string, now: nat)
    requires UniqueLogIds(db.logs)
    ensures Update(db, id, None, None, None, None, now).0 == db
  {
    var r := Update(db, id, None, None, None, None, now);
    if r.1.Some? {
      var k :| 0 <= k < |db.logs| && db.logs[k].id == id &&
        r.0 == db.(logs := db.logs[k := r.1.value]) &&
        LogUpdated(db.logs[k], r.1.value, None, None, None, None, now);
      assert r.1.value == db.logs[k];
      assert db.logs[k := db.logs[k]] == db.logs;
    }
  }

  /** Every record of a valid run history keeps completion and duration in step. */
  predicate AllStamped(db: Db) {
    forall k :: 0 <= k < |db.logs| ==> Stamped(db.logs[k])
  }

  /** `create` and `update` keep every record's duration equal to its
      completion time minus its start time. */
  lemma {:induction false} CreateUpdateKeepStamped(db: Db, id: string, taskId: string, logId: string,
      status: Option<Status>, summary: Option<string>, error: Option<string>,
      steps: Option<seq<Step>>, now: nat, created: Status)
    requires AllStamped(db)
    requires id !in LogIds(db)
    ensures AllStamped(Create(db, id, taskId, created, now).0)
    ensures AllStamped(Update(db, logId, status, summary, error, steps, now).0)
  {
    CreateKeepsStamped(db, id, taskId, created, now);
    UpdateKeepsStamped(db, logId, status, summary, error, steps, now);
  }

  /** The `create` half of `CreateUpdateKeepStamped`. */
  lemma CreateKeepsStamped(db: Db, id: string, taskId: string, created: Status, now: nat)
    requires AllStamped(db) && id !in LogIds(db)
    ensures AllStamped(Create(db, id, taskId, created, now).0)
  {
    var (db1, l) := Create(db, id, taskId, created, now);
    assert db1.logs == db.logs + [l];
    forall k | 0 <= k < |db1.logs|
      ensures Stamped(db1.logs[k])
    {
      if k < |db.logs| {
        assert db1.logs[k] == db.logs[k];
      }
    }
  }

  /** The `update` half of `CreateUpdateKeepStamped`. */
  lemma UpdateKeepsStamped(db: Db, logId: string, status: Option<Status>, summary: Option<string>,
      error: Option<string>, steps: Option<seq<Step>>, now: nat)
    requires AllStamped(db)
    ensures AllStamped(Update(db, logId, status, summary, error, steps, now).0)
  {
    var r := Update(db, logId, status, summary, error, steps, now);
    if r.1.Some? {
      var k :| 0 <= k < |db.logs| && db.logs[k].id == logId &&
        r.0 == db.(logs := db.logs[k := r.1.value]) &&
        LogUpdated(db.logs[k], r.1.value, status, summary, error, steps, now);
      assert Stamped(db.logs[k]);
      forall j | 0 <= j < |r.0.logs|
        ensures Stamped(r.0.logs[j])
      {
        if j != k {
          assert r.0.logs[j] == db.logs[j];
        }
      }
    }
  }

  /** `get_by_id`: the record with that id, or `None`. */
  function GetById(db: Db, id: string): (r: Option<TaskLog>)
    ensures r.None? <==> id !in LogIds(db)
    ensures r.Some? ==> r.value in db.logs && r.value.id == id
  {
    match FindLog(db, id)
    case None => None
    case Some(i) => Some(db.logs[i])
  }

  /** The `WHERE` clause of the listing queries: an optional task filter and an
      optional status filter. */
  predicate Selected(l: TaskLog, taskId: Option<string>, status: Option<Status>) {
    && (taskId.Some? ==> l.taskId == taskId.value)
    && (status.Some? ==> l.status == status.value)
  }

  /** `Selected` as a row predicate, the form `Filter` and `Count` take. */
  function Matches(taskId: Option<string>, status: Option<Status>): TaskLog -> bool {
    (l: TaskLog) => Selected(l, taskId, status)
  }

  /** The selected records, newest `started_at` first. */
  function Selection(db: Db, taskId: Option<string>, status: Option<Status>): (r: seq<TaskLog>)
    ensures Seqs.SortedDesc(r, StartedKey)
    ensures forall k :: 0 <= k < |r| ==> r[k] in db.logs && Selected(r[k], taskId, status)
    ensures forall k :: 0 <= k < |db.logs| && Selected(db.logs[k], taskId, status) ==> db.logs[k] in r
    ensures |r| == Seqs.Count(db.logs, Matches(taskId, status))
  {
    Seqs.CountIsFilterLength(db.logs, Matches(taskId, status));
    Seqs.SortDesc(Seqs.Filter(db.logs, Matches(taskId, status)), StartedKey)
  }

  /** `get_by_task`: one page of that task's records, newest first. */
  function GetByTask(db: Db, taskId: string, limit: nat, offset: nat): (r: seq<TaskLog>)
    ensures |r| <= limit
    ensures Seqs.SortedDesc(r, StartedKey)
    ensures forall k :: 0 <= k < |r| ==> r[k] in db.logs && r[k].taskId == taskId
    ensures offset == 0 && Seqs.Count(db.logs, Matches(Some(taskId), None)) <= limit ==>
      forall k :: 0 <= k < |db.logs| && db.logs[k].taskId == taskId ==> db.logs[k] in r
    ensures var n := Seqs.Count(db.logs, Matches(Some(taskId), None));
      offset < n ==> |r| == if n - offset < limit then n - offset else limit
    ensures offset >= Seqs.Count(db.logs, Matches(Some(taskId), None)) ==> r == []
  {
    var all := Selection(db, Some(taskId), None);
    Seqs.WindowSorted(all, StartedKey, limit, 0);
    Seqs.WindowSorted(all, StartedKey, limit, offset);
    var page := Seqs.Window(all, limit, offset);
    assert |all| == Seqs.Count(db.logs, Matches(Some(taskId), None));
    page
  }

  /** The page `get_by_task` returns is the `LIMIT`/`OFFSET` window of that
      task's records, newest first. */
  lemma GetByTaskIsWindow(db: Db, taskId: string, limit: nat, offset: nat)
    ensures GetByTask(db, taskId, limit, offset) == Seqs.Window(Selection(db, Some(taskId), None), limit, offset)
  {
  }

  /** For a non-empty id, `get_by_task` and `get_all` filtered by that task
      return the same page (`get_all` skips the task filter for an empty id). */
  lemma GetByTaskAgreesWithGetAll(db: Db, taskId: string, limit: nat, offset: nat)
    requires taskId != ""
    ensures GetByTask(db, taskId, limit, offset) == GetAll(db, Some(taskId), None, limit, offset).0
  {
  }

  /** `get_all`: one page of the records passing the filters, newest first,
      and the number of records passing them. The task filter applies only
      when the id is non-empty; an absent status applies no filter. */
  function GetAll(db: Db, taskId: Option<string>, status: Option<Status>, limit: nat, offset: nat): (r: (seq<TaskLog>, nat))
    ensures |r.0| <= limit
    ensures Seqs.SortedDesc(r.0, StartedKey)
    ensures forall k :: 0 <= k < |r.0| ==> r.0[k] in db.logs
    ensures forall k :: 0 <= k < |r.0| ==> Truthy(taskId) ==> r.0[k].taskId == taskId.value
    ensures forall k :: 0 <= k < |r.0| ==> status.Some? ==> r.0[k].status == status.value
    ensures r.1 == Seqs.Count(db.logs, Matches(if Truthy(taskId) then taskId else None, status))
    ensures offset < r.1 ==> |r.0| == if r.1 - offset < limit then r.1 - offset else limit
    ensures offset >= r.1 ==> r.0 == []
  {
    var filter := if Truthy(taskId) then taskId else None;
    var all := Selection(db, filter, status);
    var page := Seqs.Window(all, limit, offset);
    Seqs.WindowSorted(all, StartedKey, limit, offset);
    assert forall k :: 0 <= k < |page| ==> page[k] in db.logs && Selected(page[k], filter, status);
    (page, |all|)
  }

  /** The page `get_all` returns is the `LIMIT`/`OFFSET` window of the selection. */
  lemma GetAllIsWindow(db: Db, taskId: Option<string>, status: Option<Status>, limit: nat, offset: nat)
    ensures GetAll(db, taskId, status, limit, offset).0 ==
      Seqs.Window(Selection(db, if Truthy(taskId) then taskId else None, status), limit, offset)
  {
  }

  /** `get_running_for_task`: a `running` record of the task with the latest
      start, or `None` when the task has no running record. */
  function GetRunningForTask(db: Db, taskId: string): (r: Option<TaskLog>)
    ensures r.None? <==> forall k :: 0 <= k < |db.logs| ==> !(db.logs[k].taskId == taskId && db.logs[k].status == Running)
    ensures r.Some? ==> r.value in db.logs && r.value.taskId == taskId && r.value.status == Running
    ensures r.Some? ==> forall k :: 0 <= k < |db.logs| && db.logs[k].taskId == taskId && db.logs[k].status == Running ==>
      db.logs[k].startedAt <= r.value.startedAt
  {
    var running := Selection(db, Some(taskId), Some(Running));
    if |running| == 0 then None
    else
      RunningHeadLatest(db, taskId);
      Some(running[0])
  }

  /** Every running record of the task is selected, and none started later
      than the first of the newest-first selection. */
  lemma RunningHeadLatest(db: Db, taskId: string)
    ensures var running := Selection(db, Some(taskId), Some(Running));
      forall k :: 0 <= k < |db.logs| && db.logs[k].taskId == taskId && db.logs[k].status == Running ==>
        db.logs[k] in running && db.logs[k].startedAt <= running[0].startedAt
  {
    var running := Selection(db, Some(taskId), Some(Running));
    forall k | 0 <= k < |db.logs| && db.logs[k].taskId == taskId && db.logs[k].status == Running
      ensures db.logs[k] in running && db.logs[k].startedAt <= running[0].startedAt
    {
      assert Selected(db.logs[k], Some(taskId), Some(Running));
      var i :| 0 <= i < |running| && running[i] == db.logs[k];
      assert i == 0 || StartedKey(running[0]) >= StartedKey(running[i]);
    }
  }
}

=== FILE: logs_router.dfy ===
/** The run-record endpoints (src/api/routers/logs.py): query validation,
    page arithmetic, and the conversion of a stored record to its response. */
module LogsRouter {
  import opened Wrappers
  import opened Text
  import opened Models
  import Seqs
  import TaskService
  import LogService
  import opened Api

  const DefaultPage: int := 1
  const DefaultPerPage: int := 25
  const MaxPerPage: int := 100

  /** The query constraints `page >= 1` and `1 <= per_page <= 100`; anything
      else is answered 422 before the handler runs. */
  predicate ValidPaging(page: int, perPage: int) {
    page >= 1 && 1 <= perPage <= MaxPerPage
  }

  lemma DefaultPagingValid()
    ensures ValidPaging(DefaultPage, DefaultPerPage)
  {
  }

  /** `(page - 1) * per_page`: the number of records on the earlier pages. */
  function Offset(page: int, perPage: int): (o: nat)
    requires ValidPaging(page, perPage)
    ensures page == 1 ==> o == 0
    ensures page > 1 ==> o >= perPage
  {
    (page - 1) * perPage
  }

  /** Position `i` of a listing lies on page `i / per_page + 1`, at entry
      `i % per_page` of that page (with `PageEntry`: paging visits every match). */
  lemma PageOfPosition(i: nat, perPage: int) returns (page: int, j: nat)
    requires 1 <= perPage <= MaxPerPage
    ensures page == i / perPage + 1 && j == i % perPage
    ensures ValidPaging(page, perPage) && j < perPage
    ensures Offset(page, perPage) + j == i
  {
    page, j := i / perPage + 1, i % perPage;
  }

  /** `ceil(total / per_page)` when there is a record, else 1: the fewest pages
      of `per_page` records that hold them all, and never 0. */
  function TotalPages(total: nat, perPage: int): (n: int)
    requires 1 <= perPage
    ensures n >= 1
    ensures total == 0 ==> n == 1
    ensures total > 0 ==> (n - 1) * perPage < total <= n * perPage
  {
    if total > 0 then
      var q := (total + perPage - 1) / perPage;
      var m := (total + perPage - 1) % perPage;
      assert total + perPage - 1 == q * perPage + m;
      assert (q - 1) * perPage == q * perPage - perPage;
      q
    else 1
  }

  /** How many of `total` matches fall on the page starting at `offset`:
      none past the end, otherwise the rest, up to `per_page`. */
  function PageLength(total: nat, offset: nat, perPage: int): int {
    if offset >= total then 0
    else if total - offset < perPage then total - offset
    else perPage
  }

  /** A record as the API returns it; `agentSteps` is the decoded step list. */
  datatype LogResponse = LogResponse(
    id: string,
    taskId: string,
    taskName: Option<string>,
    status: Status,
    startedAt: nat,
    completedAt: Option<nat>,
    durationSeconds: Option<int>,
    resultSummary: Option<string>,
    errorMessage: Option<string>,
    agentSteps: Option<seq<Step>>,
    createdAt: nat)

  /** The steps column as returned: the decoded list when the text decodes,
      `None` when it is empty or does not decode (no error is raised). */
  function StepsOf(col: Option<StepsColumn>): (r: Option<seq<Step>>)
    ensures r.Some? <==> col.Some? && col.value.Encoded?
    ensures r.Some? ==> r.value == col.value.steps
  {
    match col
    case Some(Encoded(steps)) => Some(steps)
    case _ => None
  }

  /** `_log_to_response`: the record's columns, the decoded steps, and the
      name of the task the record belongs to (loaded with the record). */
  function LogToResponse(db: Db, l: TaskLog): (r: LogResponse)
    ensures r.id == l.id && r.taskId == l.taskId && r.status == l.status
    ensures r.startedAt == l.startedAt && r.completedAt == l.completedAt
    ensures r.durationSeconds == l.durationSeconds && r.createdAt == l.createdAt
    ensures r.resultSummary == l.resultSummary && r.errorMessage == l.errorMessage
    ensures r.agentSteps == StepsOf(l.agentSteps)
    ensures r.taskName.Some? <==> l.taskId in TaskIds(db)
    ensures r.taskName.Some? ==> exists k :: 0 <= k < |db.tasks| && db.tasks[k].id == l.taskId && r.taskName.value == db.tasks[k].name
  {
    var name := match TaskService.GetById(db, l.taskId)
      case None => None
      case Some(t) => Some(t.name);
    LogResponse(l.id, l.taskId, name, l.status, l.startedAt, l.completedAt, l.durationSeconds,
                l.resultSummary, l.errorMessage, StepsOf(l.agentSteps), l.createdAt)
  }

  /** Steps written by the executor come back unchanged through the API. */
  lemma {:induction false} WrittenStepsReadBack(db: Db, id: string, status: Option<Status>, summary: Option<string>,
      error: Option<string>, steps: seq<Step>, now: nat)
    requires UniqueLogIds(db.logs) && id in LogIds(db)
    ensures var (db', _) := LogService.Update(db, id, status, summary, error, Some(steps), now);
      LogToResponse(db', LogService.GetById(db', id).value).agentSteps == Some(steps)
  {
    LogService.GetAfterUpdate(db, id, status, summary, error, Some(steps), now);
  }

  datatype LogList = LogList(logs: seq<LogResponse>, total: nat, page: int, perPage: int, totalPages: int)

  function Responses(db: Db, logs: seq<TaskLog>): (r: seq<LogResponse>)
    ensures |r| == |logs|
    ensures forall k :: 0 <= k < |r| ==> r[k] == LogToResponse(db, logs[k])
  {
    seq(|logs|, k requires 0 <= k < |logs| => LogToResponse(db, logs[k]))
  }

  /** `list_logs`: one page of the records passing the filters, newest
      first, with the number of matches and of pages. */
  function ListLogs(db: Db, taskId: Option<string>, status: Option<Status>, page: int, perPage: int): (r: Response<LogList>)
    ensures r.Fail? <==> !ValidPaging(page, perPage)
    ensures r.Fail? ==> r.error == Unprocessable
    ensures r.Ok? ==> r.code == OkCode && r.body.page == page && r.body.perPage == perPage
    ensures r.Ok? ==> |r.body.logs| <= perPage
    ensures r.Ok? ==> |r.body.logs| == PageLength(r.body.total, Offset(page, perPage), perPage)
    ensures r.Ok? ==> r.body.total == |LogService.Selection(db, if Truthy(taskId) then taskId else None, status)|
    ensures r.Ok? ==> r.body.totalPages == TotalPages(r.body.total, perPage)
    ensures r.Ok? ==> forall k :: 0 <= k < |r.body.logs| ==> Truthy(taskId) ==> r.body.logs[k].taskId == taskId.value
    ensures r.Ok? ==> forall k :: 0 <= k < |r.body.logs| ==> status.Some? ==> r.body.logs[k].status == status.value
  {
    if !ValidPaging(page, perPage) then Fail(Unprocessable)
    else
      var off := Offset(page, perPage);
      var (logs, total) := LogService.GetAll(db, taskId, status, perPage, off);
      LogService.GetAllIsWindow(db, taskId, status, perPage, off);
      assert total == |LogService.Selection(db, if Truthy(taskId) then taskId else None, status)|;
      assert |logs| == PageLength(total, off, perPage);
      Ok(OkCode, LogList(Responses(db, logs), total, page, perPage, TotalPages(total, perPage)))
  }

  /** Entry `j` of page `page` is the match at position
      `(page - 1) * per_page + j` of the full, newest-first selection. */
  lemma {:induction false} PageEntry(db: Db, taskId: Option<string>, status: Option<Status>, page: int, perPage: int, j: nat)
    requires ValidPaging(page, perPage) && j < perPage
    requires Offset(page, perPage) + j < |LogService.Selection(db, if Truthy(taskId) then taskId else None, status)|
    ensures var all := LogService.Selection(db, if Truthy(taskId) then taskId else None, status);
      var r := ListLogs(db, taskId, status, page, perPage);
      && r.Ok?
      && j < |r.body.logs|
      && r.body.logs[j] == LogToResponse(db, all[Offset(page, perPage) + j])
  {
    var all := LogService.Selection(db, if Truthy(taskId) then taskId else None, status);
    var off := Offset(page, perPage);
    var (logs, total) := LogService.GetAll(db, taskId, status, perPage, off);
    LogService.GetAllIsWindow(db, taskId, status, perPage, off);
    assert j < |logs| && logs[j] == all[off + j];
    var r := ListLogs(db, taskId, status, page, perPage);
    assert r == Ok(OkCode, LogList(Responses(db, logs), total, page, perPage, TotalPages(total, perPage)));
  }

  /** `get_log`: the record with that id, or 404. */
  function GetLog(db: Db, id: string): (r: Response<LogResponse>)
    ensures r.Fail? <==> id !in LogIds(db)
    ensures r.Fail? ==> r.error == NotFound
    ensures r.Ok? ==> r.code == OkCode && r.body.id == id
    ensures r.Ok? ==> exists k :: 0 <= k < |db.logs| && r.body == LogToResponse(db, db.logs[k])
  {
    match LogService.GetById(db, id)
    case None => Fail(NotFound)
    case Some(l) =>
      assert l in db.logs;
      Ok(OkCode, LogToResponse(db, l))
  }

  /** `get_task_logs`: the same query as `list_logs` for one task, with no
      status filter. */
  function TaskLogs(db: Db, taskId: string, page: int, perPage: int): (r: Response<LogList>)
    ensures r.Fail? <==> !ValidPaging(page, perPage)
    ensures r.Ok? ==> forall k :: 0 <= k < |r.body.logs| ==> taskId != "" ==> r.body.logs[k].taskId == taskId
    ensures r.Ok? ==> |r.body.logs| == PageLength(r.body.total, Offset(page, perPage), perPage)
  {
    if !ValidPaging(page, perPage) then Fail(Unprocessable)
    else
      var (logs, total) := LogService.GetAll(db, Some(taskId), None, perPage, Offset(page, perPage));
      var r := Ok(OkCode, LogList(Responses(db, logs), total, page, perPage, TotalPages(total, perPage)));
      assert r == ListLogs(db, Some(taskId), None, page, perPage);
      r
  }

  /** The per-task listing is the general listing filtered by that task. */
  lemma TaskLogsIsFilteredListing(db: Db, taskId: string, page: int, perPage: int)
    ensures TaskLogs(db, taskId, page, perPage) == ListLogs(db, Some(taskId), None, page, perPage)
  {
  }
}

=== FILE: models.dfy ===
/** The persisted records (src/db/models.py) and the run status enumeration
    (src/schemas/log.py). Timestamps are whole seconds on an abstract clock
    instead of ISO-8601 strings; durations are whole seconds instead of floats. */
module Models {
  import opened Wrappers

  /** `LogStatus`: the four values the `status` column of a run record takes. */
  datatype Status = Running | Success | Failure | Timeout {

    /** The string stored in the column. */
    function Value(): string {
      match this
      case Running => "running"
      case Success => "success"
      case Failure => "failure"
      case Timeout => "timeout"
    }

    /** Every status other than `running` ends a run. */
    predicate Terminal() {
      !Running?
    }
  }

  /** `LogStatus(value)`: reads a column value back; fails on anything else. */
  function ParseStatus(v: string): (r: Option<Status>)
    ensures r.Some? ==> r.value.Value() == v
  {
    if v == "running" then Some(Running)
    else if v == "success" then Some(Success)
    else if v == "failure" then Some(Failure)
    else if v == "timeout" then Some(Timeout)
    else None
  }

  /** Storing a status and reading it back gives the same status, so the four
      column values are pairwise distinct. */
  lemma ParseStatusValue(s: Status)
    ensures ParseStatus(s.Value()) == Some(s)
  {
  }

  /** One step record of a run: position, time, and the stringified action and
      result the worker reported (each absent when the worker's item lacks it). */
  datatype Step = Step(index: nat, timestamp: nat, action: Option<string>, result: Option<string>)

  /** The `agent_steps` text column: either the JSON encoding of a step list,
      or text that does not decode (only possible when written from outside the core). */
  datatype StepsColumn = Encoded(steps: seq<Step>) | Undecodable(text: string)

  /** A row of the `tasks` table. */
  datatype Task = Task(
    id: string,
    name: string,
    description: string,
    cronExpression: Option<string>,
    timezone: string,
    isEnabled: bool,
    timeoutSeconds: int,
    headless: bool,
    startUrl: Option<string>,
    telegramEnabled: bool,
    telegramChatId: Option<string>,
    notifyOnSuccess: bool,
    notifyOnFailure: bool,
    createdAt: nat,
    updatedAt: nat,
    lastRunAt: Option<nat>,
    nextRunAt: Option<nat>)

  /** A row of the `task_logs` table: one execution attempt of a task. */
  datatype TaskLog = TaskLog(
    id: string,
    taskId: string,
    status: Status,
    startedAt: nat,
    completedAt: Option<nat>,
    durationSeconds: Option<int>,
    resultSummary: Option<string>,
    errorMessage: Option<string>,
    agentSteps: Option<StepsColumn>,
    createdAt: nat)

  /** A `tasks` row inserted with only its required columns (`name`,
      `description`), every other column taking its declared default. */
  function TaskRow(id: string, name: string, description: string, now: nat): (t: Task)
    ensures t.id == id && t.name == name && t.description == description
    ensures t.timezone == "UTC" && t.isEnabled && t.timeoutSeconds == 300 && t.headless
    ensures t.telegramEnabled && !t.notifyOnSuccess && t.notifyOnFailure
    ensures t.cronExpression.None? && t.startUrl.None? && t.telegramChatId.None?
    ensures t.lastRunAt.None? && t.nextRunAt.None?
    ensures t.createdAt == now && t.updatedAt == now
  {
    Task(id, name, description, None, "UTC", true, 300, true, None, true, None, false, true,
         now, now, None, None)
  }

  /** Both tables. Rows are kept in insertion order. */
  datatype Db = Db(tasks: seq<Task>, logs: seq<TaskLog>)

  function TaskIds(db: Db): set<string> {
    set k | 0 <= k < |db.tasks| :: db.tasks[k].id
  }

  function LogIds(db: Db): set<string> {
    set k | 0 <= k < |db.logs| :: db.logs[k].id
  }

  predicate UniqueTaskIds(tasks: seq<Task>) {
    forall i, j :: 0 <= i < j < |tasks| ==> tasks[i].id != tasks[j].id
  }

  predicate UniqueLogIds(logs: seq<TaskLog>) {
    forall i, j :: 0 <= i < j < |logs| ==> logs[i].id != logs[j].id
  }

  /** Primary keys are unique and every run record points at an existing task
      (the `task_id` foreign key). */
  predicate Valid(db: Db) {
    && UniqueTaskIds(db.tasks)
    && UniqueLogIds(db.logs)
    && forall k :: 0 <= k < |db.logs| ==> db.logs[k].taskId in TaskIds(db)
  }
}

=== FILE: notification.dfy ===
/** Telegram notifications (src/services/notification_service.py): whether the
    service is configured, which chat a message goes to, and the text of the
    three run-outcome messages. The network call itself is a parameter. */
module Notification {
  import opened Wrappers
  import opened Text
  import opened Config

  /** `is_configured`: a bot token and a default chat id are both set. */
  predicate IsConfigured(settings: Settings) {
    |settings.telegramBotToken| > 0 && |settings.telegramChatId| > 0
  }

  /** A message handed to Telegram. */
  datatype Delivery = Delivery(chatId: string, text: string)

  /** `chat_id or settings.telegram_chat_id`. */
  function Target(settings: Settings, chatId: Option<string>): (r: string)
    ensures Truthy(chatId) ==> r == chatId.value
    ensures !Truthy(chatId) ==> r == settings.telegramChatId
  {
    if Truthy(chatId) then chatId.value else settings.telegramChatId
  }

  /** `send_message`: `delivered` is whether the Bot API call succeeds. Returns
      the boolean result and the message sent, if any. It never fails. */
  function SendMessage(settings: Settings, text: string, chatId: Option<string>, delivered: bool): (r: (bool, Option<Delivery>))
    ensures r.0 <==> r.1.Some?
    ensures r.0 <==> |settings.telegramBotToken| > 0 && |Target(settings, chatId)| > 0 && delivered
    ensures r.1.Some? ==> r.1.value == Delivery(Target(settings, chatId), text)
  {
    if |settings.telegramBotToken| == 0 then (false, None)
    else
      var target := Target(settings, chatId);
      if |target| == 0 then (false, None)
      else if delivered then (true, Some(Delivery(target, text)))
      else (false, None)
  }

  /** With the service configured, a message fails only when the API call
      does; the chat is the explicit one when given. */
  lemma {:induction false} ConfiguredSendsAlways(settings: Settings, text: string, chatId: Option<string>)
    requires IsConfigured(settings)
    ensures SendMessage(settings, text, chatId, true) == (true, Some(Delivery(Target(settings, chatId), text)))
    ensures SendMessage(settings, text, chatId, false) == (false, None)
  {
    assert |Target(settings, chatId)| > 0;
  }

  /** The duration line: `f"{d:.1f}s"` when the duration is truthy, `"N/A"`
      for a missing or zero duration. Durations are whole seconds, so the
      fractional digit is always `0`. */
  function DurationText(d: Option<int>): (r: string)
    ensures (d.None? || d.value == 0) <==> r == "N/A"
    ensures d.Some? && d.value > 0 ==> |r| > 3 && AllDigits(r[..|r| - 3]) && ParseNat(r[..|r| - 3]) == d.value
    ensures d.Some? && d.value != 0 ==> EndsWith(r, ".0s")
  {
    if d.None? || d.value == 0 then "N/A"
    else
      var s := IntToString(d.value);
      assert (s + ".0s")[..|s + ".0s"| - 3] == s;
      assert s[0] != 'N';
      s + ".0s"
  }

  const SuccessHeading: string := "\U{2705} <b>Task Completed Successfully</b>\n\n<b>Task:</b> "
  const FailureHeading: string := "\U{274C} <b>Task Failed</b>\n\n<b>Task:</b> "
  const TimeoutHeading: string := "\U{23F1}\U{FE0F} <b>Task Timed Out</b>\n\n<b>Task:</b> "
  const DurationLabel: string := "\n<b>Duration:</b> "
  const TimeoutLabel: string := "\n<b>Timeout:</b> "
  const TimeoutExplanation: string := "s\n\nThe task was terminated because it exceeded the configured timeout."
  const ResultLabel: string := "\n\n<b>Result:</b>\n"
  const ErrorLabel: string := "\n\n<b>Error:</b>\n<code>"
  const ErrorClose: string := "</code>"
  const MaxDetailLength: nat := 500

  /** The `<b>Duration:</b>` line. */
  function DurationLine(d: Option<int>): string {
    DurationLabel + DurationText(d)
  }

  /** A message built as heading, name, a fixed middle and an optional tail
      names the task, starts with its fixed part and ends with its tail. */
  lemma Framed(heading: string, name: string, middle: string, tail: string)
    ensures StartsWith(heading + name + middle + tail, heading + name + middle)
    ensures EndsWith(heading + name + middle + tail, tail)
    ensures Contains(heading + name + middle + tail, name)
  {
    var r := heading + name + middle + tail;
    ContainsMiddle(heading, name, middle + tail);
    assert heading + name + (middle + tail) == r;
    assert r[..|heading + name + middle|] == heading + name + middle;
    assert r[|r| - |tail|..] == tail;
  }

  /** The message of `notify_task_success`. */
  function SuccessText(name: string, summary: Option<string>, duration: Option<int>): (r: string)
    ensures StartsWith(r, SuccessHeading + name + DurationLine(duration))
    ensures Contains(r, name)
    ensures Truthy(summary) ==> EndsWith(r, ResultLabel + Take(summary.value, MaxDetailLength))
    ensures Truthy(summary) ==>
      |r| == |SuccessHeading + name + DurationLine(duration)| + |ResultLabel + Take(summary.value, MaxDetailLength)|
    ensures !Truthy(summary) ==> r == SuccessHeading + name + DurationLine(duration)
  {
    var tail := if Truthy(summary) then ResultLabel + Take(summary.value, MaxDetailLength) else "";
    Framed(SuccessHeading, name, DurationLine(duration), tail);
    assert SuccessHeading + name + DurationLine(duration) + "" == SuccessHeading + name + DurationLine(duration);
    SuccessHeading + name + DurationLine(duration) + tail
  }

  /** The message of `notify_task_failure`. */
  function FailureText(name: string, error: Option<string>, duration: Option<int>): (r: string)
    ensures StartsWith(r, FailureHeading + name + DurationLine(duration))
    ensures Contains(r, name)
    ensures Truthy(error) ==> EndsWith(r, ErrorLabel + Take(error.value, MaxDetailLength) + ErrorClose)
    ensures Truthy(error) ==>
      |r| == |FailureHeading + name + DurationLine(duration)| + |ErrorLabel + Take(error.value, MaxDetailLength) + ErrorClose|
    ensures !Truthy(error) ==> r == FailureHeading + name + DurationLine(duration)
  {
    var tail := if Truthy(error) then ErrorLabel + Take(error.value, MaxDetailLength) + ErrorClose else "";
    Framed(FailureHeading, name, DurationLine(duration), tail);
    assert FailureHeading + name + DurationLine(duration) + "" == FailureHeading + name + DurationLine(duration);
    FailureHeading + name + DurationLine(duration) + tail
  }

  /** The message of `notify_task_timeout`. */
  function TimeoutText(name: string, timeoutSeconds: int): (r: string)
    ensures StartsWith(r, TimeoutHeading + name + TimeoutLabel)
    ensures Contains(r, name)
    ensures EndsWith(r, IntToString(timeoutSeconds) + TimeoutExplanation)
    ensures |r| == |TimeoutHeading + name + TimeoutLabel| + |IntToString(timeoutSeconds) + TimeoutExplanation|
  {
    var tail := IntToString(timeoutSeconds) + TimeoutExplanation;
    Framed(TimeoutHeading, name, TimeoutLabel, tail);
    TimeoutHeading + name + TimeoutLabel + tail
  }
}

=== FILE: scheduler.dfy ===
/** The scheduler service (src/services/scheduler_service.py): the registry of
    cron jobs keyed `task_{id}`, the map of runs in progress, and the run
    lifecycle of `_execute_task`, with the database, the event fan-out and the
    sent notifications as one world value. The cron library is abstract. */
module Scheduler {
  import opened Wrappers
  import opened Text
  import opened Models
  import opened Config
  import TaskService
  import LogService
  import Notification
  import Events
  import AgentExecutor

  /** A parsed cron trigger. */
  datatype Trigger = Trigger(expression: string, timezone: string)

  /** The cron library, left abstract: which (expression, timezone) pairs
      `CronTrigger.from_crontab` accepts, and the next fire time of a trigger
      after a given instant (`None` when it never fires again). */
  datatype Cron = Cron(parses: (string, string) -> bool, nextFire: (Trigger, nat) -> Option<nat>)

  /** A scheduled job: it runs `_execute_task(taskId)` on its trigger. */
  datatype Job = Job(taskId: string, trigger: Trigger)

  /** Everything a scheduler operation reads or writes: the tables, the job
      store, `_running_tasks` (task id to run record id), the event manager
      when one is attached, and every message handed to Telegram so far. */
  datatype World = World(
    db: Db,
    jobs: map<string, Job>,
    running: map<string, string>,
    events: Option<Events.Manager>,
    outbox: seq<Notification.Delivery>)

  const JobPrefix: string := "task_"

  /** `f"task_{task_id}"`. */
  function JobId(taskId: string): (r: string)
    ensures StartsWith(r, JobPrefix) && r[|JobPrefix|..] == taskId
  {
    JobPrefix + taskId
  }

  /** Distinct tasks have distinct job ids, so no two tasks share a job. */
  lemma JobIdInjective(a: string, b: string)
    ensures JobId(a) == JobId(b) <==> a == b
  {
  }

  /** Every job is stored under the id of its own task. */
  predicate WellKeyed(jobs: map<string, Job>) {
    forall key :: key in jobs ==> key == JobId(jobs[key].taskId)
  }

  /** `update_run_times(task_id, next_run_at=...)` when a next fire time exists. */
  function WriteNextRun(db: Db, taskId: string, next: Option<nat>, now: nat): (r: Db)
    ensures next.None? ==> r == db
    ensures TaskService.OnlyRunTimesDiffer(db, r)
    ensures TaskIds(r) == TaskIds(db) && r.logs == db.logs
    ensures Valid(db) ==> Valid(r)
  {
    if next.Some? then TaskService.UpdateRunTimes(db, taskId, None, next, now).0 else db
  }

  /** The task may be scheduled: enabled, with a cron expression that parses. */
  predicate Schedulable(task: Task, cron: Cron) {
    task.isEnabled && Truthy(task.cronExpression) && cron.parses(task.cronExpression.value, task.timezone)
  }

  /** `schedule_task`: drop the task's job, then add it back (with
      `replace_existing`) when the task is schedulable, writing `next_run_at`
      when the trigger has a next fire time. */
  function ScheduleTask(w: World, task: Task, cron: Cron, now: nat): (r: (World, bool))
    ensures r.1 <==> Schedulable(task, cron)
    ensures r.1 ==>
      JobId(task.id) in r.0.jobs &&
      r.0.jobs[JobId(task.id)] == Job(task.id, Trigger(task.cronExpression.value, task.timezone))
    ensures !r.1 ==> JobId(task.id) !in r.0.jobs && r.0.db == w.db
    ensures forall key :: key != JobId(task.id) ==> (key in r.0.jobs <==> key in w.jobs)
    ensures forall key :: key != JobId(task.id) && key in w.jobs ==> r.0.jobs[key] == w.jobs[key]
    ensures WellKeyed(w.jobs) ==> WellKeyed(r.0.jobs)
    ensures r.0.running == w.running && r.0.events == w.events && r.0.outbox == w.outbox
    ensures TaskService.OnlyRunTimesDiffer(w.db, r.0.db)
    ensures TaskIds(r.0.db) == TaskIds(w.db) && r.0.db.logs == w.db.logs
    ensures Valid(w.db) ==> Valid(r.0.db)
  {
    var jobs := w.jobs - {JobId(task.id)};
    if !Schedulable(task, cron) then (w.(jobs := jobs), false)
    else
      var trigger := Trigger(task.cronExpression.value, task.timezone);
      var db := WriteNextRun(w.db, task.id, cron.nextFire(trigger, now), now);
      (w.(db := db, jobs := jobs[JobId(task.id) := Job(task.id, trigger)]), true)
  }

  /** After a successful schedule the task's row carries the trigger's next
      fire time when there is one; otherwise the tables are untouched. */
  lemma {:induction false} ScheduleWritesNextRun(w: World, task: Task, cron: Cron, now: nat)
    requires Valid(w.db)
    ensures var (w', ok) := ScheduleTask(w, task, cron, now);
      ok && task.cronExpression.Some? ==>
        var next := cron.nextFire(Trigger(task.cronExpression.value, task.timezone), now);
        && (next.None? ==> w'.db == w.db)
        && (next.Some? ==> forall k :: 0 <= k < |w'.db.tasks| && w'.db.tasks[k].id == task.id ==>
              w'.db.tasks[k].nextRunAt == next)
  {
    var (w', ok) := ScheduleTask(w, task, cron, now);
    if ok {
      var trigger := Trigger(task.cronExpression.value, task.timezone);
      var next := cron.nextFire(trigger, now);
      if next.Some? {
        var r := TaskService.UpdateRunTimes(w.db, task.id, None, next, now);
        assert w'.db == r.0;
        if r.1.Some? {
          var i :| 0 <= i < |w.db.tasks| && w.db.tasks[i].id == task.id &&
            r.0 == w.db.(tasks := w.db.tasks[i := r.1.value]) &&
            TaskService.RunTimesWritten(w.db.tasks[i], r.1.value, None, next);
          forall k | 0 <= k < |w'.db.tasks| && w'.db.tasks[k].id == task.id
            ensures w'.db.tasks[k].nextRunAt == next
          {
            assert k == i;
          }
        }
      }
    }
  }

  /** Scheduling is idempotent: a second schedule of the same task leaves the
      same jobs and the same answer. */
  lemma {:induction false} ScheduleTwiceSameJobs(w: World, task: Task, cron: Cron, now1: nat, now2: nat)
    ensures var (w1, ok1) := ScheduleTask(w, task, cron, now1);
            var (w2, ok2) := ScheduleTask(w1, task, cron, now2);
            w2.jobs == w1.jobs && ok2 == ok1
  {
    var (w1, ok1) := ScheduleTask(w, task, cron, now1);
    var (w2, ok2) := ScheduleTask(w1, task, cron, now2);
    assert forall key :: key in w2.jobs <==> key in w1.jobs;
    assert forall key :: key in w2.jobs ==> w2.jobs[key] == w1.jobs[key];
  }

  /** `unschedule_task`: removes the task's job; answers whether there was one. */
  function UnscheduleTask(w: World, taskId: string): (r: (World, bool))
    ensures r.1 <==> JobId(taskId) in w.jobs
    ensures r.0.jobs == w.jobs - {JobId(taskId)}
    ensures r.0 == w.(jobs := w.jobs - {JobId(taskId)})
  {
    if JobId(taskId) in w.jobs then (w.(jobs := w.jobs - {JobId(taskId)}), true) else (w, false)
  }

  /** A second unschedule finds nothing to remove. */
  lemma UnscheduleTwice(w: World, taskId: string)
    ensures var (w1, _) := UnscheduleTask(w, taskId);
            UnscheduleTask(w1, taskId) == (w1, false)
  {
  }

  /** `get_running_tasks`: a copy of the map of runs in progress. While the
      map is consistent every listed task exists and its record is running. */
  function GetRunningTasks(w: World): (r: map<string, string>)
    ensures Valid(w.db) && RunningConsistent(w) ==> forall id :: id in r ==> id in TaskIds(w.db)
    ensures RunningConsistent(w) ==> forall id :: id in r ==> LogService.GetRunningForTask(w.db, id).Some?
    ensures forall id :: id in r <==> id in w.running
    ensures forall id :: id in w.running ==> r[id] == w.running[id]
  {
    w.running
  }

  /** Every entry of the running map names a `running` record of its own task. */
  predicate RunningConsistent(w: World) {
    forall id :: id in w.running ==>
      exists k :: 0 <= k < |w.db.logs| && w.db.logs[k].id == w.running[id] &&
        w.db.logs[k].taskId == id && w.db.logs[k].status == Running
  }

  /** `run_now`: `None` for a missing task or one whose id is in the running
      map, otherwise the id (the run itself is spawned and may still find the
      task busy; nothing is registered here). */
  function RunNow(w: World, taskId: string): (r: Option<string>)
    ensures r.None? <==> taskId !in TaskIds(w.db) || taskId in w.running
    ensures r.Some? ==> r.value == taskId
  {
    if TaskService.GetById(w.db, taskId).None? then None
    else if taskId in w.running then None
    else Some(taskId)
  }

  /** What a started run remembers: the task as loaded when it began, and the
      id of its run record. */
  datatype RunHandle = RunHandle(task: Task, logId: string)

  /** The guard of `_execute_task` (lines up to the second `return`): the task
      to run, or `None` when it is missing or already running. */
  function GuardCheck(w: World, taskId: string): (r: Option<Task>)
    ensures r.None? <==> taskId !in TaskIds(w.db) || taskId in w.running
    ensures r.Some? ==> r.value.id == taskId && r.value in w.db.tasks
    ensures r.Some? <==> RunNow(w, taskId).Some?
  {
    match TaskService.GetById(w.db, taskId)
    case None => None
    case Some(t) => if taskId in w.running then None else Some(t)
  }

  /** Broadcast to the attached event manager, if any; `failing` are the
      queues whose put raises. */
  function Publish(events: Option<Events.Manager>, e: Events.Event, failing: set<nat>): (r: Option<Events.Manager>)
    ensures r.None? <==> events.None?
  {
    if events.Some? then Some(Events.Broadcast(events.value, e, failing)) else None
  }

  /** The rest of the start of `_execute_task`: create the run record, enter
      it in the running map, announce `task_started`. `logId` stands for the
      generated uuid. */
  function Register(w: World, task: Task, logId: string, now: nat, failing: set<nat>): (r: (World, RunHandle))
    requires logId !in LogIds(w.db)
    ensures r.1 == RunHandle(task, logId)
    ensures r.0.running == w.running[task.id := logId]
    ensures r.0.db.tasks == w.db.tasks
    ensures r.0.db.logs == w.db.logs + [LogService.Create(w.db, logId, task.id, Running, now).1]
    ensures r.0.db.logs[|w.db.logs|].status == Running && r.0.db.logs[|w.db.logs|].taskId == task.id
    ensures r.0.db.logs[|w.db.logs|].id == logId
    ensures r.0.events == Publish(w.events, Events.TaskStarted(task.id, logId), failing)
    ensures r.0.jobs == w.jobs && r.0.outbox == w.outbox
    ensures Valid(w.db) && task.id in TaskIds(w.db) ==> Valid(r.0.db)
  {
    var (db, log) := LogService.Create(w.db, logId, task.id, Running, now);
    (w.(db := db, running := w.running[task.id := logId],
        events := Publish(w.events, Events.TaskStarted(task.id, logId), failing)),
     RunHandle(task, logId))
  }

  /** The whole start of `_execute_task`: the guard, then registration. */
  function BeginRun(w: World, taskId: string, logId: string, now: nat, failing: set<nat>): (r: (World, Option<RunHandle>))
    requires logId !in LogIds(w.db)
    ensures r.1.None? <==> taskId !in TaskIds(w.db) || taskId in w.running
    ensures r.1.None? ==> r.0 == w
    ensures r.1.Some? ==> r.1.value.task.id == taskId && r.1.value.logId == logId
    ensures r.1.Some? ==> r.0.running == w.running[taskId := logId]
    ensures r.1.Some? ==>
      |r.0.db.logs| == |w.db.logs| + 1 &&
      r.0.db.logs[|w.db.logs|].id == logId && r.0.db.logs[|w.db.logs|].taskId == taskId &&
      r.0.db.logs[|w.db.logs|].status == Running
  {
    match GuardCheck(w, taskId)
    case None => (w, None)
    case Some(t) =>
      var (w', h) := Register(w, t, logId, now, failing);
      (w', Some(h))
  }

  /** `_send_notification`'s choice: the message for a finished record, or
      `None` when the task does not want one. */
  function NotificationFor(task: Task, log: TaskLog): (r: Option<string>)
    ensures r.None? <==>
      || !task.telegramEnabled
      || log.status == Running
      || (log.status == Success && !task.notifyOnSuccess)
      || ((log.status.Failure? || log.status.Timeout?) && !task.notifyOnFailure)
    ensures r.Some? ==> Contains(r.value, task.name)
    ensures r.Some? && log.status == Success ==>
      r.value == Notification.SuccessText(task.name, log.resultSummary, log.durationSeconds)
    ensures r.Some? && log.status == Failure ==>
      r.value == Notification.FailureText(task.name, log.errorMessage, log.durationSeconds)
    ensures r.Some? && log.status == Timeout ==>
      r.value == Notification.TimeoutText(task.name, task.timeoutSeconds)
  {
    if !task.telegramEnabled then None
    else match log.status
      case Success =>
        if task.notifyOnSuccess then Some(Notification.SuccessText(task.name, log.resultSummary, log.durationSeconds))
        else None
      case Failure =>
        if task.notifyOnFailure then Some(Notification.FailureText(task.name, log.errorMessage, log.durationSeconds))
        else None
      case Timeout =>
        if task.notifyOnFailure then Some(Notification.TimeoutText(task.name, task.timeoutSeconds))
        else None
      case Running => None
  }

  /** Hands `text` to `send_message`; `delivered` is whether the API call succeeds. */
  function Send(w: World, settings: Settings, text: string, chatId: Option<string>, delivered: bool): (r: World)
    ensures r.db == w.db && r.jobs == w.jobs && r.running == w.running && r.events == w.events
    ensures |r.outbox| <= |w.outbox| + 1 && w.outbox <= r.outbox
    ensures |r.outbox| == |w.outbox| + 1 <==>
      |settings.telegramBotToken| > 0 && |Notification.Target(settings, chatId)| > 0 && delivered
    ensures |r.outbox| == |w.outbox| + 1 ==>
      r.outbox[|w.outbox|] == Notification.Delivery(Notification.Target(settings, chatId), text)
  {
    var (_, sent) := Notification.SendMessage(settings, text, chatId, delivered);
    if sent.Some? then
      w.(outbox := w.outbox + [sent.value])
    else w
  }

  /** `_send_notification`: at most one message, to the task's chat. */
  function SendNotification(w: World, settings: Settings, task: Task, log: TaskLog, delivered: bool): (r: World)
    ensures r.db == w.db && r.jobs == w.jobs && r.running == w.running && r.events == w.events
    ensures |r.outbox| <= |w.outbox| + 1 && w.outbox <= r.outbox
    ensures NotificationFor(task, log).None? ==> r.outbox == w.outbox
    ensures |r.outbox| == |w.outbox| + 1 <==>
      && NotificationFor(task, log).Some?
      && Notification.SendMessage(settings, NotificationFor(task, log).value, task.telegramChatId, delivered).1.Some?
    ensures |r.outbox| == |w.outbox| + 1 ==>
      NotificationFor(task, log).Some? &&
      r.outbox[|w.outbox|] ==
        Notification.Delivery(Notification.Target(settings, task.telegramChatId), NotificationFor(task, log).value)
  {
    match NotificationFor(task, log)
    case None => w
    case Some(text) => Send(w, settings, text, task.telegramChatId, delivered)
  }

  /** The status the completion event reports: that of the stored record,
      or none (`"unknown"`) when the record is gone. */
  function StoredStatus(db: Db, logId: string): (r: Option<Status>)
    ensures r.None? <==> logId !in LogIds(db)
    ensures r.Some? ==> exists k :: 0 <= k < |db.logs| && db.logs[k].id == logId && db.logs[k].status == r.value
  {
    match LogService.GetById(db, logId)
    case None => None
    case Some(l) => Some(l.status)
  }

  /** Where the finalisation of a run raises: nowhere, in the update of the
      run record (nothing written), or after it (run times, commit). */
  datatype Fault = NoFault | FailsAtLogUpdate(message: string) | FailsAfterLogUpdate(message: string)

  /** The next fire time of the task's job, when it still has one. */
  function NextRun(w: World, taskId: string, cron: Cron, now: nat): (r: Option<nat>)
    ensures r.Some? <==> JobId(taskId) in w.jobs && cron.nextFire(w.jobs[JobId(taskId)].trigger, now).Some?
    ensures r.Some? ==> r == cron.nextFire(w.jobs[JobId(taskId)].trigger, now)
  {
    if JobId(taskId) in w.jobs then cron.nextFire(w.jobs[JobId(taskId)].trigger, now) else None
  }

  /** The run-time bookkeeping: `last_run_at` is now, and `next_run_at` the
      job's next fire time when the task still has a job that fires again;
      no other column changes. */
  function RecordRunTimes(w: World, taskId: string, cron: Cron, now: nat): (r: World)
    ensures r.jobs == w.jobs && r.running == w.running && r.events == w.events && r.outbox == w.outbox
    ensures TaskService.OnlyRunTimesDiffer(w.db, r.db)
    ensures TaskIds(r.db) == TaskIds(w.db) && r.db.logs == w.db.logs
    ensures Valid(w.db) ==> Valid(r.db)
    ensures UniqueTaskIds(w.db.tasks) ==> forall k :: 0 <= k < |r.db.tasks| && r.db.tasks[k].id == taskId ==>
      && r.db.tasks[k].lastRunAt == Some(now)
      && r.db.tasks[k].nextRunAt == (if NextRun(w, taskId, cron, now).Some? then NextRun(w, taskId, cron, now) else w.db.tasks[k].nextRunAt)
  {
    var db := TaskService.UpdateRunTimes(w.db, taskId, Some(now), None, now).0;
    var next := NextRun(w, taskId, cron, now);
    var db2 := WriteNextRun(db, taskId, next, now);
    TaskService.OnlyRunTimesDifferTrans(w.db, db, db2);
    if UniqueTaskIds(w.db.tasks) then
      RunTimesRow(w.db, taskId, next, now);
      w.(db := db2)
    else
      w.(db := db2)
  }

  /** The two writes of the bookkeeping land on the task's one row. */
  lemma RunTimesRow(db: Db, taskId: string, next: Option<nat>, now: nat)
    requires UniqueTaskIds(db.tasks)
    ensures var db2 := WriteNextRun(TaskService.UpdateRunTimes(db, taskId, Some(now), None, now).0, taskId, next, now);
      forall k :: 0 <= k < |db2.tasks| && db2.tasks[k].id == taskId ==>
        && db2.tasks[k].lastRunAt == Some(now)
        && db2.tasks[k].nextRunAt == (if next.Some? then next else db.tasks[k].nextRunAt)
  {
    var db1 := TaskService.UpdateRunTimes(db, taskId, Some(now), None, now).0;
    TaskService.UpdateRunTimesRow(db, taskId, Some(now), None, now);
    if next.Some? {
      assert UniqueTaskIds(db1.tasks) by {
        forall i, j | 0 <= i < j < |db1.tasks|
          ensures db1.tasks[i].id != db1.tasks[j].id
        {
          assert db1.tasks[i].id == db.tasks[i].id && db1.tasks[j].id == db.tasks[j].id;
        }
      }
      TaskService.UpdateRunTimesRow(db1, taskId, None, next, now);
    }
  }

  /** The `except` branch: record FAILURE with the exception text and, when
      the task wants failure notices, send one naming the task and quoting the
      exception (without a duration). The flags are those of the task as
      loaded when the run began: the exceptions modelled here are raised
      before `update_run_times` reloads the row. The session is taken to
      accept statements after the exception, so this branch's own update
      goes through. */
  function Recover(w: World, settings: Settings, h: RunHandle, message: string, delivered: bool, now: nat): (r: World)
    ensures r.jobs == w.jobs && r.running == w.running && r.events == w.events
    ensures r.db == LogService.Update(w.db, h.logId, Some(Failure), None, Some(message), None, now).0
    ensures |r.outbox| <= |w.outbox| + 1 && w.outbox <= r.outbox
    ensures |r.outbox| == |w.outbox| + 1 <==>
      && h.task.telegramEnabled && h.task.notifyOnFailure
      && Notification.SendMessage(settings, Notification.FailureText(h.task.name, Some(message), None),
                                  h.task.telegramChatId, delivered).1.Some?
    ensures |r.outbox| == |w.outbox| + 1 ==>
      r.outbox[|w.outbox|] == Notification.Delivery(Notification.Target(settings, h.task.telegramChatId),
                                                    Notification.FailureText(h.task.name, Some(message), None))
  {
    var db := LogService.Update(w.db, h.logId, Some(Failure), None, Some(message), None, now).0;
    if h.task.telegramEnabled && h.task.notifyOnFailure then
      Send(w.(db := db), settings, Notification.FailureText(h.task.name, Some(message), None), h.task.telegramChatId, delivered)
    else w.(db := db)
  }

  /** The task object `_execute_task` holds once `update_run_times` has
      refreshed it: the current row (the same object, reloaded, so updates
      committed during the run are seen), or the object loaded at the start
      when the row is gone. */
  function Reloaded(db: Db, task: Task): (r: Task)
    ensures task.id !in TaskIds(db) ==> r == task
    ensures task.id in TaskIds(db) ==> r in db.tasks && r.id == task.id
    ensures UniqueTaskIds(db.tasks) ==> forall k :: 0 <= k < |db.tasks| && db.tasks[k].id == task.id ==> r == db.tasks[k]
  {
    match TaskService.GetById(db, task.id)
    case None => task
    case Some(t) => t
  }

  /** The `finally` branch: leave the running map and announce `task_completed`. */
  function Release(w: World, h: RunHandle, status: Option<Status>, failing: set<nat>): (r: World)
    ensures h.task.id !in r.running && r.running == w.running - {h.task.id}
    ensures r.events == Publish(w.events, Events.TaskCompleted(h.task.id, h.logId, status), failing)
    ensures r.db == w.db && r.jobs == w.jobs && r.outbox == w.outbox
  {
    w.(running := w.running - {h.task.id},
       events := Publish(w.events, Events.TaskCompleted(h.task.id, h.logId, status), failing))
  }

  /** The end of `_execute_task` once the agent has produced `out`, as it is
      evidently meant to work: the run record gets the outcome, the task its
      run times, the owner a notification; on an exception the record gets
      FAILURE and a failure notice goes out; in every case the task leaves the
      running map and `task_completed` is announced with the stored status, or
      with none when the record has vanished meanwhile. */
  function FinishRun(w: World, settings: Settings, cron: Cron, h: RunHandle, out: AgentExecutor.Outcome,
                     fault: Fault, delivered: bool, now: nat, failing: set<nat>): (r: World)
    ensures r.running == w.running - {h.task.id}
    ensures UniqueLogIds(w.db.logs) ==>
      r.events == Publish(w.events, Events.TaskCompleted(h.task.id, h.logId, StoredStatus(r.db, h.logId)), failing)
    ensures r.jobs == w.jobs
    ensures |r.outbox| <= |w.outbox| + 1
    ensures TaskIds(r.db) == TaskIds(w.db) && LogIds(r.db) == LogIds(w.db)
    ensures Valid(w.db) ==> Valid(r.db)
  {
    match fault
    case FailsAtLogUpdate(msg) =>
      var w1 := Recover(w, settings, h, msg, delivered, now);
      Release(w1, h, StoredStatus(w1.db, h.logId), failing)
    case FailsAfterLogUpdate(msg) =>
      var (db, _) := LogService.Update(w.db, h.logId, Some(out.status), out.summary, out.error, Some(out.steps), now);
      var w2 := Recover(w.(db := db), settings, h, msg, delivered, now);
      Release(w2, h, StoredStatus(w2.db, h.logId), failing)
    case NoFault =>
      var (db, log) := LogService.Update(w.db, h.logId, Some(out.status), out.summary, out.error, Some(out.steps), now);
      var w2 := RecordRunTimes(w.(db := db), h.task.id, cron, now);
      var w3 := if log.Some? then SendNotification(w2, settings, Reloaded(w2.db, h.task), log.value, delivered) else w2;
      UpdatedStatusIsStored(w.db, h.logId, Some(out.status), out.summary, out.error, Some(out.steps), now);
      Release(w3, h, if log.Some? then Some(log.value.status) else None, failing)
  }

  /** When nothing raises, the notice is chosen from the stored run record
      and from the task row as it stands when the run ends (a flag changed
      while the agent worked is honoured), and it is handed over exactly when
      the task wants one and `send_message` succeeds. */
  lemma {:induction false} FinishRunNotifies(w: World, settings: Settings, cron: Cron, h: RunHandle,
      out: AgentExecutor.Outcome, delivered: bool, now: nat, failing: set<nat>)
    requires UniqueLogIds(w.db.logs) && h.logId in LogIds(w.db)
    ensures var r := FinishRun(w, settings, cron, h, out, NoFault, delivered, now, failing);
      && LogService.GetById(r.db, h.logId).Some?
      && w.outbox <= r.outbox
      && var l := LogService.GetById(r.db, h.logId).value;
         var t := Reloaded(r.db, h.task);
         && (|r.outbox| == |w.outbox| + 1 <==>
               NotificationFor(t, l).Some? &&
               Notification.SendMessage(settings, NotificationFor(t, l).value, t.telegramChatId, delivered).1.Some?)
         && (|r.outbox| == |w.outbox| + 1 ==>
               r.outbox[|w.outbox|] == Notification.Delivery(Notification.Target(settings, t.telegramChatId), NotificationFor(t, l).value))
  {
    var r := FinishRun(w, settings, cron, h, out, NoFault, delivered, now, failing);
    LogService.GetAfterUpdate(w.db, h.logId, Some(out.status), out.summary, out.error, Some(out.steps), now);
    var (db, log) := LogService.Update(w.db, h.logId, Some(out.status), out.summary, out.error, Some(out.steps), now);
    var w2 := RecordRunTimes(w.(db := db), h.task.id, cron, now);
    var w3 := SendNotification(w2, settings, Reloaded(w2.db, h.task), log.value, delivered);
    assert r == Release(w3, h, Some(log.value.status), failing);
    assert r.db == w2.db && w2.db.logs == db.logs;
    assert LogService.GetById(r.db, h.logId) == LogService.GetById(db, h.logId);
  }

  /** The finalisation touches task rows only in their run times: when
      nothing raises the task's row records the run at `now`, and when
      something raises the task rows are left as they were. */
  lemma {:induction false} FinishRunTaskRows(w: World, settings: Settings, cron: Cron, h: RunHandle,
      out: AgentExecutor.Outcome, fault: Fault, delivered: bool, now: nat, failing: set<nat>)
    requires UniqueTaskIds(w.db.tasks)
    ensures var r := FinishRun(w, settings, cron, h, out, fault, delivered, now, failing);
      && TaskService.OnlyRunTimesDiffer(w.db, r.db.(logs := w.db.logs))
      && (!fault.NoFault? ==> r.db.tasks == w.db.tasks)
      && (fault.NoFault? ==> forall k :: 0 <= k < |r.db.tasks| && r.db.tasks[k].id == h.task.id ==>
            r.db.tasks[k].lastRunAt == Some(now))
  {
    var r := FinishRun(w, settings, cron, h, out, fault, delivered, now, failing);
    var (db, log) := LogService.Update(w.db, h.logId, Some(out.status), out.summary, out.error, Some(out.steps), now);
    match fault
    case FailsAtLogUpdate(msg) =>
    case FailsAfterLogUpdate(msg) =>
    case NoFault =>
      var w2 := RecordRunTimes(w.(db := db), h.task.id, cron, now);
      assert r.db == w2.db;
  }

  /** The record `update` returns is the one stored under its id. */
  lemma UpdatedStatusIsStored(db: Db, logId: string, status: Option<Status>, summary: Option<string>,
                              error: Option<string>, steps: Option<seq<Step>>, now: nat)
    ensures var (db', log) := LogService.Update(db, logId, status, summary, error, steps, now);
      UniqueLogIds(db.logs) ==> StoredStatus(db', logId) == if log.Some? then Some(log.value.status) else None
  {
    var (db', log) := LogService.Update(db, logId, status, summary, error, steps, now);
    if log.Some? && UniqueLogIds(db.logs) {
      var k :| 0 <= k < |db.logs| && db.logs[k].id == logId &&
        db' == db.(logs := db.logs[k := log.value]) &&
        LogService.LogUpdated(db.logs[k], log.value, status, summary, error, steps, now);
      var j := LogService.FindLog(db', logId).value;
      assert db'.logs[j].id == logId;
      assert j == k;
    }
  }

  /** The `finally` branch when the run record variable is `None`: the pop
      happens, then building the `task_completed` payload (`log.id`) raises,
      so nothing is announced. */
  function Crash(w: World, h: RunHandle): (r: World)
    ensures r.running == w.running - {h.task.id}
    ensures r.db == w.db && r.jobs == w.jobs && r.events == w.events && r.outbox == w.outbox
  {
    w.(running := w.running - {h.task.id})
  }

  /** The end of `_execute_task` exactly as written. It differs from
      `FinishRun` only when the run record has vanished (its task was deleted
      during the run). Then no `task_completed` is announced, because
      `update` returns `None` and the later `log.id` raises, unless the first
      update itself raised: `log` is then still the record object created at
      the start, and it is announced with its stale status `running`. */
  function FinishRunAsWritten(w: World, settings: Settings, cron: Cron, h: RunHandle, out: AgentExecutor.Outcome,
                              fault: Fault, delivered: bool, now: nat, failing: set<nat>): (r: World)
    ensures r.running == w.running - {h.task.id}
    ensures r.jobs == w.jobs
    ensures h.logId !in LogIds(w.db) && !fault.FailsAtLogUpdate? ==> r.events == w.events
    ensures h.logId !in LogIds(w.db) && fault.FailsAtLogUpdate? ==>
      r.events == Publish(w.events, Events.TaskCompleted(h.task.id, h.logId, Some(Running)), failing)
  {
    match fault
    case FailsAtLogUpdate(msg) =>
      var w1 := Recover(w, settings, h, msg, delivered, now);
      // The record object created at the start is the one announced; when its
      // row is gone the recovery update leaves it saying `running`.
      Release(w1, h, if h.logId in LogIds(w1.db) then StoredStatus(w1.db, h.logId) else Some(Running), failing)
    case FailsAfterLogUpdate(msg) =>
      var (db, log) := LogService.Update(w.db, h.logId, Some(out.status), out.summary, out.error, Some(out.steps), now);
      if log.None? then Crash(w.(db := db), h)
      else
        var w2 := Recover(w.(db := db), settings, h, msg, delivered, now);
        Release(w2, h, StoredStatus(w2.db, h.logId), failing)
    case NoFault =>
      var (db, log) := LogService.Update(w.db, h.logId, Some(out.status), out.summary, out.error, Some(out.steps), now);
      var w2 := RecordRunTimes(w.(db := db), h.task.id, cron, now);
      if log.None? then Crash(w2, h)
      else Release(SendNotification(w2, settings, Reloaded(w2.db, h.task), log.value, delivered), h, Some(log.value.status), failing)
  }

  /** While the run record exists the code as written and the intended
      behaviour agree. */
  lemma {:induction false} AsWrittenAgreesWhileRecordExists(w: World, settings: Settings, cron: Cron, h: RunHandle,
      out: AgentExecutor.Outcome, fault: Fault, delivered: bool, now: nat, failing: set<nat>)
    requires UniqueLogIds(w.db.logs) && h.logId in LogIds(w.db)
    ensures FinishRunAsWritten(w, settings, cron, h, out, fault, delivered, now, failing) ==
            FinishRun(w, settings, cron, h, out, fault, delivered, now, failing)
  {
    var upd := LogService.Update(w.db, h.logId, Some(out.status), out.summary, out.error, Some(out.steps), now);
    assert upd.1.Some?;
    UpdatedStatusIsStored(w.db, h.logId, Some(out.status), out.summary, out.error, Some(out.steps), now);
    match fault
    case FailsAtLogUpdate(msg) =>
      var w1 := Recover(w, settings, h, msg, delivered, now);
      assert LogIds(w1.db) == LogIds(w.db);
    case FailsAfterLogUpdate(msg) =>
    case NoFault =>
  }

  /** The discrepancy: when the record is gone and nothing else raises, the
      code as written announces nothing, while the intended behaviour
      announces the completion with an unknown status. */
  lemma VanishedRecordLosesCompletion(w: World, settings: Settings, cron: Cron, h: RunHandle,
      out: AgentExecutor.Outcome, delivered: bool, now: nat, failing: set<nat>)
    requires h.logId !in LogIds(w.db) && UniqueLogIds(w.db.logs)
    requires w.events.Some?
    ensures FinishRunAsWritten(w, settings, cron, h, out, NoFault, delivered, now, failing).events == w.events
    ensures FinishRun(w, settings, cron, h, out, NoFault, delivered, now, failing).events ==
            Some(Events.Broadcast(w.events.value, Events.TaskCompleted(h.task.id, h.logId, None), failing))
  {
  }

  /** The second symptom: when the record is gone and the first update
      raises, the code as written announces the stale status `running`,
      while the intended behaviour announces an unknown status. */
  lemma VanishedRecordAnnouncedRunning(w: World, settings: Settings, cron: Cron, h: RunHandle,
      out: AgentExecutor.Outcome, message: string, delivered: bool, now: nat, failing: set<nat>)
    requires h.logId !in LogIds(w.db) && UniqueLogIds(w.db.logs)
    requires w.events.Some?
    ensures FinishRunAsWritten(w, settings, cron, h, out, FailsAtLogUpdate(message), delivered, now, failing).events ==
            Some(Events.Broadcast(w.events.value, Events.TaskCompleted(h.task.id, h.logId, Some(Running)), failing))
    ensures FinishRun(w, settings, cron, h, out, FailsAtLogUpdate(message), delivered, now, failing).events ==
            Some(Events.Broadcast(w.events.value, Events.TaskCompleted(h.task.id, h.logId, None), failing))
  {
  }

  /** The scenario behind the discrepancy: a run starts, its task is deleted
      while the agent works (the cascade removes the run record), and the run
      finishes. A subscriber that saw `task_started` never sees
      `task_completed` under the code as written. */
  lemma {:induction false} DeleteDuringRunLosesCompletion(w: World, settings: Settings, cron: Cron, taskId: string,
      logId: string, out: AgentExecutor.Outcome, delivered: bool, t0: nat, t1: nat)
    requires Valid(w.db) && taskId in TaskIds(w.db) && taskId !in w.running && logId !in LogIds(w.db)
    requires w.events == Some(Events.Manager([Events.Subscriber(0, [])], 1))
    ensures var (w1, h) := BeginRun(w, taskId, logId, t0, {});
            h.Some? &&
            var w2 := w1.(db := TaskService.Delete(w1.db, taskId).0);
            var w3 := FinishRunAsWritten(w2, settings, cron, h.value, out, NoFault, delivered, t1, {});
            var w4 := FinishRun(w2, settings, cron, h.value, out, NoFault, delivered, t1, {});
            && w3.events == Some(Events.Manager([Events.Subscriber(0, [Events.TaskStarted(taskId, logId)])], 1))
            && w4.events == Some(Events.Manager([Events.Subscriber(0, [Events.TaskStarted(taskId, logId),
                                                                        Events.TaskCompleted(taskId, logId, None)])], 1))
  {
    DeleteDuringRunRemovesRecord(w, taskId, logId, t0);
    var (w1, h) := BeginRun(w, taskId, logId, t0, {});
    var w2 := w1.(db := TaskService.Delete(w1.db, taskId).0);
    var empty := Events.Subscriber(0, []);
    Events.BroadcastToOne(empty, 1, Events.TaskStarted(taskId, logId), {});
    assert empty.(pending := empty.pending + [Events.TaskStarted(taskId, logId)]) ==
      Events.Subscriber(0, [Events.TaskStarted(taskId, logId)]);
    VanishedRecordOneSubscriber(w2, settings, cron, h.value, out, delivered, t1);
  }

  /** The end of that scenario for a single subscriber that has seen
      `task_started`: the run's record is gone when the run finishes. */
  lemma VanishedRecordOneSubscriber(w: World, settings: Settings, cron: Cron, h: RunHandle,
      out: AgentExecutor.Outcome, delivered: bool, now: nat)
    requires h.logId !in LogIds(w.db) && UniqueLogIds(w.db.logs)
    requires w.events == Some(Events.Manager([Events.Subscriber(0, [Events.TaskStarted(h.task.id, h.logId)])], 1))
    ensures FinishRunAsWritten(w, settings, cron, h, out, NoFault, delivered, now, {}).events == w.events
    ensures FinishRun(w, settings, cron, h, out, NoFault, delivered, now, {}).events ==
      Some(Events.Manager([Events.Subscriber(0, [Events.TaskStarted(h.task.id, h.logId),
                                                 Events.TaskCompleted(h.task.id, h.logId, None)])], 1))
  {
    VanishedRecordLosesCompletion(w, settings, cron, h, out, delivered, now, {});
    var started := Events.Subscriber(0, [Events.TaskStarted(h.task.id, h.logId)]);
    Events.BroadcastToOne(started, 1, Events.TaskCompleted(h.task.id, h.logId, None), {});
    assert started.pending + [Events.TaskCompleted(h.task.id, h.logId, None)] ==
      [Events.TaskStarted(h.task.id, h.logId), Events.TaskCompleted(h.task.id, h.logId, None)];
  }

  /** Deleting the task right after its run began removes the run record. */
  lemma DeleteDuringRunRemovesRecord(w: World, taskId: string, logId: string, t0: nat)
    requires Valid(w.db) && taskId in TaskIds(w.db) && taskId !in w.running && logId !in LogIds(w.db)
    ensures var (w1, h) := BeginRun(w, taskId, logId, t0, {});
      var db2 := TaskService.Delete(w1.db, taskId).0;
      && h.Some? && h.value.logId == logId && h.value.task.id == taskId
      && w1.events == Publish(w.events, Events.TaskStarted(taskId, logId), {})
      && Valid(db2) && logId !in LogIds(db2)
  {
    BeginRunFacts(w, taskId, logId, t0, {});
    var (w1, h) := BeginRun(w, taskId, logId, t0, {});
    var t := GuardCheck(w, taskId).value;
    assert w1 == Register(w, t, logId, t0, {}).0;
    var (db2, deleted) := TaskService.Delete(w1.db, taskId);
    var n := |w.db.logs|;
    assert w1.db.logs[n].id == logId && w1.db.logs[n].taskId == taskId;
    forall k | 0 <= k < |db2.logs|
      ensures db2.logs[k].id != logId
    {
      var j :| 0 <= j < |w1.db.logs| && w1.db.logs[j] == db2.logs[k];
      assert j != n;
    }
    TaskService.DeleteKeepsValid(w1.db, taskId);
  }

  /** `_execute_task` from start to finish with nothing interleaved: the
      guard and registration at `start`, the agent ending in `worker`, the
      finalisation at `end`. It finishes with the corrected `FinishRun`;
      here that equals `FinishRunAsWritten` (`AsWrittenAgreesWhileRecordExists`),
      because the record was just created and nothing runs in between. */
  function ExecuteTask(w: World, settings: Settings, cron: Cron, taskId: string, logId: string,
                       worker: AgentExecutor.WorkerOutcome, fault: Fault, delivered: bool,
                       start: nat, end: nat, failing: set<nat>): (r: World)
    requires logId !in LogIds(w.db)
    ensures taskId !in TaskIds(w.db) || taskId in w.running ==> r == w
    ensures r.running == w.running && r.jobs == w.jobs
    ensures |r.outbox| <= |w.outbox| + 1
  {
    var (w1, h) := BeginRun(w, taskId, logId, start, failing);
    if h.None? then w
    else
      var out := AgentExecutor.Execute(h.value.task, worker, end);
      AddThenRemove(w.running, taskId, logId);
      FinishRun(w1, settings, cron, h.value, out, fault, delivered, end, failing)
  }

  /** Registering a task that was not running and then releasing it gives
      back the running map it started from. */
  lemma AddThenRemove(m: map<string, string>, k: string, v: string)
    requires k !in m
    ensures m[k := v] - {k} == m
  {
  }

  /** What the start of a run leaves behind when the guard passes. */
  lemma {:induction false} BeginRunFacts(w: World, taskId: string, logId: string, start: nat, failing: set<nat>)
    requires Valid(w.db) && taskId in TaskIds(w.db) && taskId !in w.running && logId !in LogIds(w.db)
    ensures var (w1, h) := BeginRun(w, taskId, logId, start, failing);
      && h == Some(RunHandle(TaskService.GetById(w.db, taskId).value, logId))
      && Valid(w1.db) && TaskIds(w1.db) == TaskIds(w.db) && logId in LogIds(w1.db)
      && LogService.GetById(w1.db, logId).value.taskId == taskId
      && LogService.GetById(w1.db, logId).value.status == Running
      && w1.events == Publish(w.events, Events.TaskStarted(taskId, logId), failing)
      && w1.running == w.running[taskId := logId]
  {
    var t := TaskService.GetById(w.db, taskId).value;
    var (w1, h) := Register(w, t, logId, start, failing);
    assert BeginRun(w, taskId, logId, start, failing) == (w1, Some(h));
    var n := |w.db.logs|;
    assert w1.db.logs[n].id == logId;
    var j := LogService.FindLog(w1.db, logId).value;
    assert j == n;
  }

  /** What the finalisation writes into the run record: a terminal status
      with its completion time; the agent's status when nothing raised,
      FAILURE with the exception text otherwise. */
  lemma {:induction false} FinishRunRecord(w: World, settings: Settings, cron: Cron, h: RunHandle,
      out: AgentExecutor.Outcome, fault: Fault, delivered: bool, now: nat, failing: set<nat>)
    requires UniqueLogIds(w.db.logs) && h.logId in LogIds(w.db) && out.status != Running
    ensures var r := FinishRun(w, settings, cron, h, out, fault, delivered, now, failing);
      var l := LogService.GetById(r.db, h.logId);
      && l.Some?
      && l.value.taskId == LogService.GetById(w.db, h.logId).value.taskId
      && l.value.status.Terminal()
      && l.value.completedAt == Some(now)
      && (fault.NoFault? ==> l.value.status == out.status && l.value.errorMessage.Some? == (out.error.Some? || LogService.GetById(w.db, h.logId).value.errorMessage.Some?))
      && (!fault.NoFault? ==> l.value.status == Failure && l.value.errorMessage == Some(fault.message))
  {
    var r := FinishRun(w, settings, cron, h, out, fault, delivered, now, failing);
    LogService.GetAfterUpdate(w.db, h.logId, Some(out.status), out.summary, out.error, Some(out.steps), now);
    var (db1, _) := LogService.Update(w.db, h.logId, Some(out.status), out.summary, out.error, Some(out.steps), now);
    match fault
    case FailsAtLogUpdate(msg) =>
      LogService.GetAfterUpdate(w.db, h.logId, Some(Failure), None, Some(msg), None, now);
      assert r.db == LogService.Update(w.db, h.logId, Some(Failure), None, Some(msg), None, now).0;
    case FailsAfterLogUpdate(msg) =>
      LogService.GetAfterUpdate(db1, h.logId, Some(Failure), None, Some(msg), None, now);
      assert r.db == LogService.Update(db1, h.logId, Some(Failure), None, Some(msg), None, now).0;
    case NoFault =>
      assert r.db.logs == db1.logs;
  }

  /** Every subscriber of `before` whose queue works has received exactly
      `es` since, in order; an absent manager stays absent. */
  predicate Received(before: Option<Events.Manager>, after: Option<Events.Manager>, es: seq<Events.Event>, failing: set<nat>) {
    && (before.Some? <==> after.Some?)
    && (before.Some? ==>
          && |after.value.subscribers| == |before.value.subscribers|
          && forall k :: 0 <= k < |before.value.subscribers| && before.value.subscribers[k].id !in failing ==>
               after.value.subscribers[k].pending == before.value.subscribers[k].pending + es)
  }

  /** A run with nothing interleaved: every subscriber whose queue works sees
      `task_started` and then `task_completed` with the stored status; the
      record ends terminal, stamped at `end`, with the agent's status when
      nothing raised and FAILURE with the exception text otherwise; when
      nothing raised the task's `last_run_at` is `end`; the task leaves the
      running map it was not in. */
  lemma {:induction false} RunLifecycle(w: World, settings: Settings, cron: Cron, taskId: string, logId: string,
      worker: AgentExecutor.WorkerOutcome, fault: Fault, delivered: bool, start: nat, end: nat, failing: set<nat>)
    requires Valid(w.db) && taskId in TaskIds(w.db) && taskId !in w.running && logId !in LogIds(w.db)
    ensures var r := ExecuteTask(w, settings, cron, taskId, logId, worker, fault, delivered, start, end, failing);
      var out := AgentExecutor.Execute(TaskService.GetById(w.db, taskId).value, worker, end);
      var l := LogService.GetById(r.db, logId);
      && Valid(r.db) && r.running == w.running
      && l.Some? && l.value.taskId == taskId && l.value.status.Terminal() && l.value.completedAt == Some(end)
      && (fault.NoFault? ==> l.value.status == out.status)
      && (!fault.NoFault? ==> l.value.status == Failure && l.value.errorMessage == Some(fault.message))
      && (fault.NoFault? ==> forall k :: 0 <= k < |r.db.tasks| && r.db.tasks[k].id == taskId ==> r.db.tasks[k].lastRunAt == Some(end))
      && Received(w.events, r.events, [Events.TaskStarted(taskId, logId), Events.TaskCompleted(taskId, logId, Some(l.value.status))], failing)
  {
    var (w1, h) := BeginRun(w, taskId, logId, start, failing);
    BeginRunFacts(w, taskId, logId, start, failing);
    var out := AgentExecutor.Execute(h.value.task, worker, end);
    var r := FinishRun(w1, settings, cron, h.value, out, fault, delivered, end, failing);
    assert r == ExecuteTask(w, settings, cron, taskId, logId, worker, fault, delivered, start, end, failing);
    FinishRunRecord(w1, settings, cron, h.value, out, fault, delivered, end, failing);
    FinishRunTaskRows(w1, settings, cron, h.value, out, fault, delivered, end, failing);
    var l := LogService.GetById(r.db, logId).value;
    assert StoredStatus(r.db, logId) == Some(l.status);
    if w.events.Some? {
      Events.BroadcastTwice(w.events.value, Events.TaskStarted(taskId, logId), Events.TaskCompleted(taskId, logId, Some(l.status)), failing);
    }
  }

  /** Two runs of one task started before either registers (the guard and
      the registration are separate steps, so this interleaving is possible)
      both pass the guard; the running map then keeps only the later record,
      and when the earlier run finishes the task leaves the map while the
      later record still says `running`, so a third run passes the guard. */
  lemma {:induction false} GuardWindow(w: World, settings: Settings, cron: Cron, taskId: string, log1: string, log2: string,
      out: AgentExecutor.Outcome, delivered: bool, t1: nat, t2: nat, t3: nat, failing: set<nat>)
    requires Valid(w.db) && taskId in TaskIds(w.db) && taskId !in w.running
    requires log1 !in LogIds(w.db) && log2 !in LogIds(w.db) && log1 != log2 && out.status != Running
    ensures GuardCheck(w, taskId).Some?
    ensures var task := GuardCheck(w, taskId).value;
      var (w1, h1) := Register(w, task, log1, t1, failing);
      && log2 !in LogIds(w1.db)
      && var (w2, h2) := Register(w1, task, log2, t2, failing);
      && w2.running[taskId] == log2
      && LogService.GetById(w2.db, log1).value.status == Running
      && LogService.GetById(w2.db, log2).value.status == Running
      && var w3 := FinishRun(w2, settings, cron, h1, out, NoFault, delivered, t3, failing);
      && taskId !in w3.running
      && LogService.GetById(w3.db, log2) == LogService.GetById(w2.db, log2)
      && LogService.GetById(w3.db, log2).value.status == Running
      && GuardCheck(w3, taskId).Some?
  {
    var task := GuardCheck(w, taskId).value;
    RegisterTwice(w, task, log1, log2, t1, t2, failing);
    var (w1, h1) := Register(w, task, log1, t1, failing);
    var (w2, h2) := Register(w1, task, log2, t2, failing);
    FinishKeepsOtherRecord(w2, settings, cron, h1, out, NoFault, delivered, t3, failing, log2);
  }

  /** Two registrations of one task in a row: both records are `running`
      and the running map points at the later one. */
  lemma RegisterTwice(w: World, task: Task, log1: string, log2: string, t1: nat, t2: nat, failing: set<nat>)
    requires Valid(w.db) && task.id in TaskIds(w.db)
    requires log1 !in LogIds(w.db) && log2 !in LogIds(w.db) && log1 != log2
    ensures var (w1, h1) := Register(w, task, log1, t1, failing);
      && log2 !in LogIds(w1.db)
      && var (w2, h2) := Register(w1, task, log2, t2, failing);
      && Valid(w2.db) && TaskIds(w2.db) == TaskIds(w.db)
      && w2.running[task.id] == log2
      && LogService.GetById(w2.db, log1).value.status == Running
      && LogService.GetById(w2.db, log2).value.status == Running
  {
    var (w1, h1) := Register(w, task, log1, t1, failing);
    var n := |w.db.logs|;
    assert w1.db.logs[n].id == log1;
    assert LogIds(w1.db) == LogIds(w.db) + {log1} by {
      assert forall k :: 0 <= k < n ==> w1.db.logs[k] == w.db.logs[k];
    }
    var (w2, h2) := Register(w1, task, log2, t2, failing);
    assert w2.db.logs[n + 1].id == log2;
    assert w2.db.logs[n].id == log1;
    assert Valid(w1.db) && Valid(w2.db);
    var j1 := LogService.FindLog(w2.db, log1).value;
    assert j1 == n;
    var j2 := LogService.FindLog(w2.db, log2).value;
    assert j2 == n + 1;
  }

  /** Finishing one run leaves every other run's record as it was. */
  lemma FinishKeepsOtherRecord(w: World, settings: Settings, cron: Cron, h: RunHandle,
      out: AgentExecutor.Outcome, fault: Fault, delivered: bool, now: nat, failing: set<nat>, other: string)
    requires Valid(w.db) && other != h.logId
    ensures LogService.GetById(FinishRun(w, settings, cron, h, out, fault, delivered, now, failing).db, other) ==
      LogService.GetById(w.db, other)
  {
    var r := FinishRun(w, settings, cron, h, out, fault, delivered, now, failing);
    FinishRunChangesOnlyItsRecord(w, settings, cron, h, out, fault, delivered, now, failing);
    match LogService.FindLog(w.db, other)
    case None =>
      assert other !in LogIds(r.db);
    case Some(i) =>
      assert r.db.logs[i] == w.db.logs[i];
      var j := LogService.FindLog(r.db, other).value;
      assert j == i;
  }

  /** `run_now` answering with the id does not promise a run: when another
      run of the task registers before the spawned one reaches its guard,
      the spawned run finds the task busy and does nothing at all. */
  lemma {:induction false} RunNowPromisesNoRun(w: World, settings: Settings, cron: Cron, taskId: string,
      logA: string, logB: string, worker: AgentExecutor.WorkerOutcome, fault: Fault, delivered: bool,
      t0: nat, t1: nat, t2: nat, failing: set<nat>)
    requires Valid(w.db) && taskId in TaskIds(w.db) && taskId !in w.running
    requires logA !in LogIds(w.db) && logB !in LogIds(w.db) && logA != logB
    ensures RunNow(w, taskId) == Some(taskId)
    ensures var (w1, h) := BeginRun(w, taskId, logA, t0, failing);
      && h.Some?
      && logB !in LogIds(w1.db)
      && RunNow(w1, taskId).None?
      && BeginRun(w1, taskId, logB, t1, failing) == (w1, None)
      && ExecuteTask(w1, settings, cron, taskId, logB, worker, fault, delivered, t1, t2, failing) == w1
  {
    var (w1, h) := BeginRun(w, taskId, logA, t0, failing);
    BeginRunFacts(w, taskId, logA, t0, failing);
    assert LogIds(w1.db) == LogIds(w.db) + {logA} by {
      var n := |w.db.logs|;
      assert forall k :: 0 <= k < n ==> w1.db.logs[k] == w.db.logs[k];
      assert w1.db.logs[n].id == logA;
    }
  }

  /** A record differs from the table it came from at most in the record
      with id `logId`. */
  predicate OnlyRecordChanged(a: seq<TaskLog>, b: seq<TaskLog>, logId: string) {
    |a| == |b| && forall k :: 0 <= k < |a| && a[k].id != logId ==> b[k] == a[k]
  }

  lemma UpdateChangesOnlyItsRecord(db: Db, id: string, status: Option<Status>, summary: Option<string>,
                                   error: Option<string>, steps: Option<seq<Step>>, now: nat)
    ensures OnlyRecordChanged(db.logs, LogService.Update(db, id, status, summary, error, steps, now).0.logs, id)
  {
    var (db', l) := LogService.Update(db, id, status, summary, error, steps, now);
    if l.Some? {
      var k :| 0 <= k < |db.logs| && db.logs[k].id == id &&
        db' == db.(logs := db.logs[k := l.value]) &&
        LogService.LogUpdated(db.logs[k], l.value, status, summary, error, steps, now);
    }
  }

  /** The finalisation of a run writes only that run's record. */
  lemma FinishRunChangesOnlyItsRecord(w: World, settings: Settings, cron: Cron, h: RunHandle,
      out: AgentExecutor.Outcome, fault: Fault, delivered: bool, now: nat, failing: set<nat>)
    ensures OnlyRecordChanged(w.db.logs, FinishRun(w, settings, cron, h, out, fault, delivered, now, failing).db.logs, h.logId)
  {
    UpdateChangesOnlyItsRecord(w.db, h.logId, Some(out.status), out.summary, out.error, Some(out.steps), now);
    var db1 := LogService.Update(w.db, h.logId, Some(out.status), out.summary, out.error, Some(out.steps), now).0;
    match fault
    case FailsAtLogUpdate(msg) =>
      UpdateChangesOnlyItsRecord(w.db, h.logId, Some(Failure), None, Some(msg), None, now);
    case FailsAfterLogUpdate(msg) =>
      UpdateChangesOnlyItsRecord(db1, h.logId, Some(Failure), None, Some(msg), None, now);
    case NoFault =>
  }

  /** Starting a run keeps every entry of the running map pointing at a
      `running` record of its task, the new entry included. */
  lemma {:induction false} BeginRunKeepsConsistent(w: World, taskId: string, logId: string, now: nat, failing: set<nat>)
    requires logId !in LogIds(w.db) && RunningConsistent(w)
    ensures RunningConsistent(BeginRun(w, taskId, logId, now, failing).0)
  {
    var (w1, h) := BeginRun(w, taskId, logId, now, failing);
    if h.Some? {
      var n := |w.db.logs|;
      forall id | id in w1.running
        ensures exists k ::
          0 <= k < |w1.db.logs| && w1.db.logs[k].id == w1.running[id] &&
          w1.db.logs[k].taskId == id && w1.db.logs[k].status == Running
      {
        if id == taskId {
          assert w1.db.logs[n].id == w1.running[id];
        } else {
          var k :| 0 <= k < |w.db.logs| && w.db.logs[k].id == w.running[id] &&
            w.db.logs[k].taskId == id && w.db.logs[k].status == Running;
          assert w1.db.logs[k] == w.db.logs[k];
        }
      }
    }
  }

  /** Finishing a run keeps the other entries consistent: the only record it
      writes belongs to the task that leaves the map. */
  lemma {:induction false} FinishRunKeepsConsistent(w: World, settings: Settings, cron: Cron, h: RunHandle,
      out: AgentExecutor.Outcome, fault: Fault, delivered: bool, now: nat, failing: set<nat>)
    requires UniqueLogIds(w.db.logs) && RunningConsistent(w)
    requires forall k :: 0 <= k < |w.db.logs| && w.db.logs[k].id == h.logId ==> w.db.logs[k].taskId == h.task.id
    ensures RunningConsistent(FinishRun(w, settings, cron, h, out, fault, delivered, now, failing))
  {
    var r := FinishRun(w, settings, cron, h, out, fault, delivered, now, failing);
    FinishRunChangesOnlyItsRecord(w, settings, cron, h, out, fault, delivered, now, failing);
    forall id | id in r.running
      ensures exists k ::
        0 <= k < |r.db.logs| && r.db.logs[k].id == r.running[id] &&
        r.db.logs[k].taskId == id && r.db.logs[k].status == Running
    {
      var k :| 0 <= k < |w.db.logs| && w.db.logs[k].id == w.running[id] &&
        w.db.logs[k].taskId == id && w.db.logs[k].status == Running;
      assert r.db.logs[k] == w.db.logs[k];
    }
  }

  /** Deleting a task that is running leaves its entry in the running map
      with no record behind it (the entry goes only when the run finishes). */
  lemma DeleteLeavesStaleEntry(w: World, taskId: string)
    requires Valid(w.db) && taskId in w.running
    ensures !RunningConsistent(w.(db := TaskService.Delete(w.db, taskId).0))
  {
  }

  /** The loop of `start`: schedule each task in turn. */
  function ScheduleAll(w: World, tasks: seq<Task>, cron: Cron, now: nat): (r: World)
    ensures r.running == w.running && r.events == w.events && r.outbox == w.outbox
    ensures TaskService.OnlyRunTimesDiffer(w.db, r.db)
    ensures TaskIds(r.db) == TaskIds(w.db) && r.db.logs == w.db.logs
    ensures Valid(w.db) ==> Valid(r.db)
    ensures WellKeyed(w.jobs) ==> WellKeyed(r.jobs)
    decreases |tasks|
  {
    if |tasks| == 0 then w
    else
      var w1 := ScheduleTask(w, tasks[0], cron, now).0;
      var r := ScheduleAll(w1, tasks[1..], cron, now);
      TaskService.OnlyRunTimesDifferTrans(w.db, w1.db, r.db);
      r
  }

  /** After the loop each listed task has a job exactly when it is
      schedulable, and jobs of unlisted tasks are untouched. Listed tasks
      with the same id are the same row. */
  lemma {:induction false} ScheduleAllJobs(w: World, tasks: seq<Task>, cron: Cron, now: nat)
    requires forall i, j :: 0 <= i < |tasks| && 0 <= j < |tasks| && tasks[i].id == tasks[j].id ==> tasks[i] == tasks[j]
    ensures var r := ScheduleAll(w, tasks, cron, now);
      && (forall k :: 0 <= k < |tasks| ==> (JobId(tasks[k].id) in r.jobs <==> Schedulable(tasks[k], cron)))
      && (forall k :: 0 <= k < |tasks| && Schedulable(tasks[k], cron) ==>
            r.jobs[JobId(tasks[k].id)] == Job(tasks[k].id, Trigger(tasks[k].cronExpression.value, tasks[k].timezone)))
      && (forall key :: (forall k :: 0 <= k < |tasks| ==> key != JobId(tasks[k].id)) ==>
            (key in r.jobs <==> key in w.jobs) && (key in w.jobs ==> r.jobs[key] == w.jobs[key]))
    decreases |tasks|
  {
    if |tasks| > 0 {
      var w1 := ScheduleTask(w, tasks[0], cron, now).0;
      var rest := tasks[1..];
      ScheduleAllJobs(w1, rest, cron, now);
      var r := ScheduleAll(w1, rest, cron, now);
      assert r == ScheduleAll(w, tasks, cron, now);
      forall k | 0 <= k < |tasks|
        ensures (JobId(tasks[k].id) in r.jobs <==> Schedulable(tasks[k], cron))
        ensures Schedulable(tasks[k], cron) ==>
          r.jobs[JobId(tasks[k].id)] == Job(tasks[k].id, Trigger(tasks[k].cronExpression.value, tasks[k].timezone))
      {
        if k == 0 {
          if j :| 0 <= j < |rest| && rest[j].id == tasks[0].id {
            assert rest[j] == tasks[j + 1] == tasks[0];
          } else {
            forall j | 0 <= j < |rest|
              ensures JobId(tasks[0].id) != JobId(rest[j].id)
            {
              JobIdInjective(tasks[0].id, rest[j].id);
            }
          }
        } else {
          assert tasks[k] == rest[k - 1];
        }
      }
      forall key | forall k :: 0 <= k < |tasks| ==> key != JobId(tasks[k].id)
        ensures (key in r.jobs <==> key in w.jobs) && (key in w.jobs ==> r.jobs[key] == w.jobs[key])
      {
        assert key != JobId(tasks[0].id);
        assert forall j :: 0 <= j < |rest| ==> rest[j] == tasks[j + 1];
      }
    }
  }

  /** `start`: schedule every enabled task, newest first. Every enabled task
      whose cron expression parses gets its job; no run starts. */
  function Start(w: World, cron: Cron, now: nat): (r: World)
    ensures r.running == w.running && r.events == w.events && r.outbox == w.outbox
    ensures TaskService.OnlyRunTimesDiffer(w.db, r.db)
    ensures TaskIds(r.db) == TaskIds(w.db) && r.db.logs == w.db.logs
    ensures Valid(w.db) ==> Valid(r.db)
  {
    ScheduleAll(w, TaskService.GetEnabled(w.db), cron, now)
  }

  /** Rows drawn from a table with unique ids are determined by their id. */
  lemma RowsDeterminedById(tasks: seq<Task>, e: seq<Task>)
    requires UniqueTaskIds(tasks)
    requires forall k :: 0 <= k < |e| ==> e[k] in tasks
    ensures forall i, j :: 0 <= i < |e| && 0 <= j < |e| && e[i].id == e[j].id ==> e[i] == e[j]
  {
    forall i, j | 0 <= i < |e| && 0 <= j < |e| && e[i].id == e[j].id
      ensures e[i] == e[j]
    {
      var a :| 0 <= a < |tasks| && tasks[a] == e[i];
      var b :| 0 <= b < |tasks| && tasks[b] == e[j];
      assert a == b;
    }
  }

  /** With unique task ids, after `start` the enabled tasks that can be
      scheduled are exactly those with a job, each with its own trigger. */
  lemma StartSchedulesEnabled(w: World, cron: Cron, now: nat)
    requires Valid(w.db)
    ensures var r := Start(w, cron, now);
      forall k :: 0 <= k < |w.db.tasks| && w.db.tasks[k].isEnabled ==>
        && (JobId(w.db.tasks[k].id) in r.jobs <==> Schedulable(w.db.tasks[k], cron))
        && (Schedulable(w.db.tasks[k], cron) ==>
              r.jobs[JobId(w.db.tasks[k].id)] == Job(w.db.tasks[k].id, Trigger(w.db.tasks[k].cronExpression.value, w.db.tasks[k].timezone)))
  {
    var enabled := TaskService.GetEnabled(w.db);
    RowsDeterminedById(w.db.tasks, enabled);
    ScheduleAllJobs(w, enabled, cron, now);
    var r := Start(w, cron, now);
    assert r == ScheduleAll(w, enabled, cron, now);
    forall k | 0 <= k < |w.db.tasks| && w.db.tasks[k].isEnabled
      ensures JobId(w.db.tasks[k].id) in r.jobs <==> Schedulable(w.db.tasks[k], cron)
      ensures Schedulable(w.db.tasks[k], cron) ==>
        r.jobs[JobId(w.db.tasks[k].id)] == Job(w.db.tasks[k].id, Trigger(w.db.tasks[k].cronExpression.value, w.db.tasks[k].timezone))
    {
      assert w.db.tasks[k] in enabled;
      var j :| 0 <= j < |enabled| && enabled[j] == w.db.tasks[k];
    }
  }
}

=== FILE: schemas.dfy ===
/** Request bodies for creating and updating a task (src/schemas/task.py) and
    the field bounds the request validator enforces on them. */
module Schemas {
  import opened Wrappers
  import opened Models

  /** `TaskCreate` (= `TaskBase`): every column a client may set on creation.
      `is_enabled` is not among them. */
  datatype TaskCreate = TaskCreate(
    name: string,
    description: string,
    cronExpression: Option<string>,
    timezone: string,
    timeoutSeconds: int,
    headless: bool,
    startUrl: Option<string>,
    telegramEnabled: bool,
    telegramChatId: Option<string>,
    notifyOnSuccess: bool,
    notifyOnFailure: bool)

  const MaxNameLength: nat := 255
  const MaxCronLength: nat := 100
  const MaxTimezoneLength: nat := 50
  const MinTimeout: int := 30
  const MaxTimeout: int := 3600
  const MaxStartUrlLength: nat := 2048
  const MaxChatIdLength: nat := 100

  /** A body that supplies only the two required fields; the validator fills
      in the declared defaults for the rest. */
  function CreateWithDefaults(name: string, description: string): (c: TaskCreate)
    ensures c.name == name && c.description == description
    ensures c.cronExpression.None? && c.startUrl.None? && c.telegramChatId.None?
    ensures c.timezone == "UTC" && c.timeoutSeconds == 300
    ensures c.headless && c.telegramEnabled && !c.notifyOnSuccess && c.notifyOnFailure
  {
    TaskCreate(name, description, None, "UTC", 300, true, None, true, None, false, true)
  }

  /** An optional text field within its `max_length` when present. */
  predicate AtMost(o: Option<string>, n: nat) {
    o.None? || |o.value| <= n
  }

  predicate NameOk(name: string) {
    1 <= |name| <= MaxNameLength
  }

  predicate DescriptionOk(description: string) {
    1 <= |description|
  }

  predicate TimeoutOk(t: int) {
    MinTimeout <= t <= MaxTimeout
  }

  /** The validator's acceptance condition for a `TaskCreate` body. */
  predicate ValidCreate(c: TaskCreate) {
    && NameOk(c.name)
    && DescriptionOk(c.description)
    && AtMost(c.cronExpression, MaxCronLength)
    && |c.timezone| <= MaxTimezoneLength
    && TimeoutOk(c.timeoutSeconds)
    && AtMost(c.startUrl, MaxStartUrlLength)
    && AtMost(c.telegramChatId, MaxChatIdLength)
  }

  /** The same bounds, read off a stored row. */
  predicate TaskWithinBounds(t: Task) {
    && NameOk(t.name)
    && DescriptionOk(t.description)
    && AtMost(t.cronExpression, MaxCronLength)
    && |t.timezone| <= MaxTimezoneLength
    && TimeoutOk(t.timeoutSeconds)
    && AtMost(t.startUrl, MaxStartUrlLength)
    && AtMost(t.telegramChatId, MaxChatIdLength)
  }

  /** A body with only name and description is accepted exactly when those two are. */
  lemma CreateWithDefaultsValid(name: string, description: string)
    ensures ValidCreate(CreateWithDefaults(name, description)) <==> NameOk(name) && DescriptionOk(description)
  {
  }

  /** A field of an update body: `Unset` when the client omitted it, `Put(v)`
      when the client sent it, where `v` may be JSON `null` (`None`). */
  datatype Patch<T> = Unset | Put(value: T)

  /** `TaskUpdate`: every field optional, `is_enabled` included. */
  datatype TaskUpdate = TaskUpdate(
    name: Patch<Option<string>>,
    description: Patch<Option<string>>,
    cronExpression: Patch<Option<string>>,
    timezone: Patch<Option<string>>,
    isEnabled: Patch<Option<bool>>,
    timeoutSeconds: Patch<Option<int>>,
    headless: Patch<Option<bool>>,
    startUrl: Patch<Option<string>>,
    telegramEnabled: Patch<Option<bool>>,
    telegramChatId: Patch<Option<string>>,
    notifyOnSuccess: Patch<Option<bool>>,
    notifyOnFailure: Patch<Option<bool>>)

  /** The body `{}`: nothing set. */
  const EmptyUpdate: TaskUpdate :=
    TaskUpdate(Unset, Unset, Unset, Unset, Unset, Unset, Unset, Unset, Unset, Unset, Unset, Unset)

  /** A sent, non-null value satisfies `ok`; omitted fields and nulls pass. */
  predicate PatchOk<T>(p: Patch<Option<T>>, ok: T -> bool) {
    p.Unset? || p.value.None? || ok(p.value.value)
  }

  /** The validator's acceptance condition for a `TaskUpdate` body: the
      `TaskBase` bounds on every value actually sent. */
  predicate ValidUpdate(u: TaskUpdate) {
    && PatchOk(u.name, NameOk)
    && PatchOk(u.description, DescriptionOk)
    && PatchOk(u.cronExpression, (s: string) => |s| <= MaxCronLength)
    && PatchOk(u.timezone, (s: string) => |s| <= MaxTimezoneLength)
    && PatchOk(u.timeoutSeconds, TimeoutOk)
    && PatchOk(u.startUrl, (s: string) => |s| <= MaxStartUrlLength)
    && PatchOk(u.telegramChatId, (s: string) => |s| <= MaxChatIdLength)
  }

  predicate PutsNull<T>(p: Patch<Option<T>>) {
    p.Put? && p.value.None?
  }

  /** The body sends `null` for a column declared NOT NULL; the validator lets
      it through (`str | None`), the database refuses it when the row is flushed. */
  predicate ClearsRequiredColumn(u: TaskUpdate) {
    || PutsNull(u.name) || PutsNull(u.description) || PutsNull(u.timezone)
    || PutsNull(u.isEnabled) || PutsNull(u.timeoutSeconds) || PutsNull(u.headless)
    || PutsNull(u.telegramEnabled) || PutsNull(u.notifyOnSuccess) || PutsNull(u.notifyOnFailure)
  }

  /** Every `TaskCreate` field has the same bound in `TaskUpdate`: an update
      that sends every field of an accepted creation body is itself accepted. */
  lemma CreateBoundsCarryOverToUpdate(c: TaskCreate, enabled: bool)
    requires ValidCreate(c)
    ensures ValidUpdate(TaskUpdate(
      Put(Some(c.name)), Put(Some(c.description)), Put(c.cronExpression), Put(Some(c.timezone)),
      Put(Some(enabled)), Put(Some(c.timeoutSeconds)), Put(Some(c.headless)), Put(c.startUrl),
      Put(Some(c.telegramEnabled)), Put(c.telegramChatId), Put(Some(c.notifyOnSuccess)),
      Put(Some(c.notifyOnFailure))))
  {
  }
}

=== FILE: seqs.dfy ===
/** Sequence operations that stand in for the SQL clauses the services issue:
    `WHERE` (Filter), primary-key lookup (FindFirst), `ORDER BY key DESC`
    (SortDesc) and `LIMIT n OFFSET k` (Window). */
module Seqs {
  import opened Wrappers

  /** The elements of `s` satisfying `p`, in their original order. */
  function Filter<T>(s: seq<T>, p: T -> bool): (r: seq<T>)
    ensures |r| <= |s|
    ensures forall k :: 0 <= k < |r| ==> r[k] in s
    ensures forall k :: 0 <= k < |s| && p(s[k]) ==> s[k] in r
    ensures forall k :: 0 <= k < |r| ==> p(r[k])
    ensures multiset(r) <= multiset(s)
  {
    if |s| == 0 then []
    else if p(s[0]) then
      assert s == [s[0]] + s[1..];
      [s[0]] + Filter(s[1..], p)
    else
      assert s == [s[0]] + s[1..];
      Filter(s[1..], p)
  }

  /** `Filter` keeps every matching element as often as it occurs and drops
      every other one: the multiplicities are exactly those of the matches. */
  lemma {:induction false} FilterMultiplicity<T>(s: seq<T>, p: T -> bool)
    ensures forall x :: multiset(Filter(s, p))[x] == if p(x) then multiset(s)[x] else 0
  {
    if |s| > 0 {
      FilterMultiplicity(s[1..], p);
      assert s == [s[0]] + s[1..];
      assert multiset(s) == multiset{s[0]} + multiset(s[1..]);
      if p(s[0]) {
        assert Filter(s, p) == [s[0]] + Filter(s[1..], p);
        assert multiset(Filter(s, p)) == multiset{s[0]} + multiset(Filter(s[1..], p));
      } else {
        assert Filter(s, p) == Filter(s[1..], p);
      }
    }
  }

  /** No two elements of `s` share a key. */
  ghost predicate DistinctKeys<T, K>(s: seq<T>, key: T -> K) {
    forall i, j :: 0 <= i < j < |s| ==> key(s[i]) != key(s[j])
  }

  /** Prepending an element whose key differs from every key of a sequence
      with distinct keys keeps the keys distinct. */
  lemma ConsDistinct<T, K>(x: T, rt: seq<T>, key: T -> K)
    requires DistinctKeys(rt, key)
    requires forall k :: 0 <= k < |rt| ==> key(x) != key(rt[k])
    ensures DistinctKeys([x] + rt, key)
  {
    var r := [x] + rt;
    forall i, j | 0 <= i < j < |r|
      ensures key(r[i]) != key(r[j])
    {
      assert r[j] == rt[j - 1];
      if i > 0 {
        assert r[i] == rt[i - 1];
      }
    }
  }

  /** Elements with pairwise distinct keys keep them distinct under `Filter`. */
  lemma {:induction false} FilterKeepsDistinct<T, K>(s: seq<T>, p: T -> bool, key: T -> K)
    requires DistinctKeys(s, key)
    ensures DistinctKeys(Filter(s, p), key)
  {
    if |s| > 0 {
      var tail := s[1..];
      assert DistinctKeys(tail, key) by {
        forall i, j | 0 <= i < j < |tail|
          ensures key(tail[i]) != key(tail[j])
        {
          assert tail[i] == s[i + 1] && tail[j] == s[j + 1];
        }
      }
      FilterKeepsDistinct(tail, p, key);
      var rt := Filter(tail, p);
      if p(s[0]) {
        assert Filter(s, p) == [s[0]] + rt;
        forall k | 0 <= k < |rt|
          ensures key(s[0]) != key(rt[k])
        {
          var j :| 0 <= j < |tail| && tail[j] == rt[k];
          assert tail[j] == s[j + 1];
        }
        ConsDistinct(s[0], rt, key);
      } else {
        assert Filter(s, p) == rt;
      }
    }
  }

  /** Number of elements satisfying `p` (SQL `COUNT(*) ... WHERE p`), counted
      position by position. */
  function Count<T>(s: seq<T>, p: T -> bool): (n: nat)
    ensures n <= |s|
    ensures n == 0 <==> forall k :: 0 <= k < |s| ==> !p(s[k])
    ensures n == |s| <==> forall k :: 0 <= k < |s| ==> p(s[k])
  {
    if |s| == 0 then 0
    else
      assert forall k :: 1 <= k < |s| ==> s[k] == s[1..][k - 1];
      (if p(s[0]) then 1 else 0) + Count(s[1..], p)
  }

  /** `COUNT` with a `WHERE` agrees with the number of rows the same `WHERE`
      returns. */
  lemma {:induction false} CountIsFilterLength<T>(s: seq<T>, p: T -> bool)
    ensures Count(s, p) == |Filter(s, p)|
  {
    if |s| > 0 {
      CountIsFilterLength(s[1..], p);
    }
  }

  /** Index of the first element satisfying `p`, if any. */
  function FindFirst<T>(s: seq<T>, p: T -> bool): (r: Option<nat>)
    ensures r.Some? ==> r.value < |s| && p(s[r.value])
    ensures r.Some? ==> forall k :: 0 <= k < r.value ==> !p(s[k])
    ensures r.None? <==> forall k :: 0 <= k < |s| ==> !p(s[k])
  {
    if |s| == 0 then None
    else if p(s[0]) then Some(0)
    else match FindFirst(s[1..], p)
      case None => None
      case Some(i) => Some(i + 1)
  }

  /** `s` is ordered by `key`, largest first. */
  predicate SortedDesc<T>(s: seq<T>, key: T -> int) {
    forall i, j :: 0 <= i < j < |s| ==> key(s[i]) >= key(s[j])
  }

  /** Inserts `x` into a descending sequence, before the first element whose key is not larger. */
  function InsertDesc<T>(x: T, s: seq<T>, key: T -> int): (r: seq<T>)
    ensures |r| == |s| + 1
    ensures multiset(r) == multiset(s) + multiset{x}
  {
    if |s| == 0 then [x]
    else if key(x) >= key(s[0]) then [x] + s
    else
      assert s == [s[0]] + s[1..];
      [s[0]] + InsertDesc(x, s[1..], key)
  }

  /** Inserting into a descending sequence keeps it descending, and the
      result's largest key is the larger of `x`'s and the old head's. */
  lemma {:induction false} InsertDescSorted<T>(x: T, s: seq<T>, key: T -> int)
    requires SortedDesc(s, key)
    ensures SortedDesc(InsertDesc(x, s, key), key)
    ensures |s| > 0 ==> forall k :: 0 <= k < |s| + 1 ==>
      key(InsertDesc(x, s, key)[k]) <= (if key(x) >= key(s[0]) then key(x) else key(s[0]))
  {
    if |s| == 0 {
    } else if key(x) >= key(s[0]) {
      ConsSorted(x, s, key);
    } else {
      var t := s[1..];
      InsertDescSorted(x, t, key);
      var rest := InsertDesc(x, t, key);
      assert |t| > 0 ==> key(t[0]) <= key(s[0]);
      ConsSorted(s[0], rest, key);
    }
  }

  /** A head no smaller than every element keeps a descending sequence descending. */
  lemma ConsSorted<T>(h: T, rest: seq<T>, key: T -> int)
    requires SortedDesc(rest, key)
    requires forall k :: 0 <= k < |rest| ==> key(h) >= key(rest[k])
    ensures SortedDesc([h] + rest, key)
  {
    var r := [h] + rest;
    forall i, j | 0 <= i < j < |r|
      ensures key(r[i]) >= key(r[j])
    {
      assert r[j] == rest[j - 1];
      if i > 0 {
        assert r[i] == rest[i - 1];
      }
    }
  }

  /** Two sequences with the same multiset hold the same elements. */
  lemma SameElements<T>(a: seq<T>, b: seq<T>)
    requires multiset(a) == multiset(b)
    ensures forall k :: 0 <= k < |a| ==> a[k] in b
    ensures forall k :: 0 <= k < |b| ==> b[k] in a
  {
    forall k | 0 <= k < |a|
      ensures a[k] in b
    {
      assert a[k] in multiset(a);
    }
    forall k | 0 <= k < |b|
      ensures b[k] in a
    {
      assert b[k] in multiset(b);
    }
  }

  /** `ORDER BY key DESC`: a descending permutation of `s`. */
  function SortDesc<T>(s: seq<T>, key: T -> int): (r: seq<T>)
    ensures SortedDesc(r, key)
    ensures multiset(r) == multiset(s)
    ensures |r| == |s|
    ensures forall k :: 0 <= k < |r| ==> r[k] in s
    ensures forall k :: 0 <= k < |s| ==> s[k] in r
  {
    if |s| == 0 then []
    else
      assert s == [s[0]] + s[1..];
      var r := InsertDesc(s[0], SortDesc(s[1..], key), key);
      InsertDescSorted(s[0], SortDesc(s[1..], key), key);
      SameElements(r, s);
      r
  }

  /** `LIMIT limit OFFSET offset`: the contiguous run of at most `limit`
      elements starting at position `offset` (empty past the end). */
  function Window<T>(s: seq<T>, limit: nat, offset: nat): (r: seq<T>)
    ensures |r| <= limit
    ensures offset >= |s| ==> r == []
    ensures offset < |s| ==> |r| == if |s| - offset < limit then |s| - offset else limit
    ensures forall k :: 0 <= k < |r| ==> offset + k < |s| && r[k] == s[offset + k]
  {
    if offset >= |s| then []
    else if |s| - offset <= limit then s[offset..]
    else s[offset..offset + limit]
  }

  /** A window of a descending sequence is descending. */
  lemma WindowSorted<T>(s: seq<T>, key: T -> int, limit: nat, offset: nat)
    requires SortedDesc(s, key)
    ensures SortedDesc(Window(s, limit, offset), key)
  {
  }
}

=== FILE: task_service.dfy ===
/** Task CRUD (src/services/task_service.py) over the `tasks` table. Each
    operation takes the database and returns the database after the flush,
    together with what the service method returns. */
module TaskService {
  import opened Wrappers
  import opened Models
  import opened Schemas
  import Seqs

  function CreatedKey(t: Task): int {
    t.createdAt
  }

  /** Position of the row with primary key `id`. */
  function Find(db: Db, id: string): (r: Option<nat>)
    ensures r.Some? ==> r.value < |db.tasks| && db.tasks[r.value].id == id
    ensures r.None? <==> id !in TaskIds(db)
    ensures UniqueTaskIds(db.tasks) ==> forall k :: 0 <= k < |db.tasks| && db.tasks[k].id == id ==> r == Some(k)
  {
    var r := Seqs.FindFirst(db.tasks, (t: Task) => t.id == id);
    if r.Some? then r
    else
      assert forall k :: 0 <= k < |db.tasks| ==> db.tasks[k].id != id;
      r
  }

  /** `get_by_id`: the row with that id, or `None`. */
  function GetById(db: Db, id: string): (r: Option<Task>)
    ensures r.None? <==> id !in TaskIds(db)
    ensures r.Some? ==> r.value in db.tasks && r.value.id == id
    ensures UniqueTaskIds(db.tasks) ==>
      forall k :: 0 <= k < |db.tasks| && db.tasks[k].id == id ==> r == Some(db.tasks[k])
  {
    match Find(db, id)
    case None => None
    case Some(i) => Some(db.tasks[i])
  }

  /** `get_all`: every row, newest `created_at` first. */
  function GetAll(db: Db): (r: seq<Task>)
    ensures Seqs.SortedDesc(r, CreatedKey)
    ensures multiset(r) == multiset(db.tasks)
  {
    Seqs.SortDesc(db.tasks, CreatedKey)
  }

  /** `get_enabled`: exactly the enabled rows, newest `created_at` first. */
  function GetEnabled(db: Db): (r: seq<Task>)
    ensures Seqs.SortedDesc(r, CreatedKey)
    ensures forall k :: 0 <= k < |r| ==> r[k].isEnabled && r[k] in db.tasks
    ensures forall k :: 0 <= k < |db.tasks| && db.tasks[k].isEnabled ==> db.tasks[k] in r
    ensures multiset(r) <= multiset(db.tasks)
  {
    Seqs.SortDesc(Seqs.Filter(db.tasks, (t: Task) => t.isEnabled), CreatedKey)
  }

  /** The row `Task(**task_data.model_dump())` builds: the body's fields, the
      `is_enabled` column default, fresh timestamps, no run times. */
  function NewRow(id: string, data: TaskCreate, now: nat): (t: Task)
    ensures t.id == id && t.isEnabled && t.createdAt == now && t.updatedAt == now
    ensures t.lastRunAt.None? && t.nextRunAt.None?
    ensures ValidCreate(data) ==> TaskWithinBounds(t)
  {
    Task(id, data.name, data.description, data.cronExpression, data.timezone, true,
         data.timeoutSeconds, data.headless, data.startUrl, data.telegramEnabled,
         data.telegramChatId, data.notifyOnSuccess, data.notifyOnFailure,
         now, now, None, None)
  }

  /** The request schema's defaults and the table's column defaults agree: a
      body with only name and description produces the same row as an insert
      that relies on the column defaults alone. */
  lemma SchemaDefaultsMatchColumnDefaults(id: string, name: string, description: string, now: nat)
    ensures NewRow(id, CreateWithDefaults(name, description), now) == TaskRow(id, name, description, now)
  {
  }

  /** `create`: appends the new row. `id` stands for the generated uuid, so it
      is not yet in use. */
  function Create(db: Db, id: string, data: TaskCreate, now: nat): (r: (Db, Task))
    requires id !in TaskIds(db)
    ensures r.0.tasks == db.tasks + [r.1] && r.0.logs == db.logs
    ensures r.1 == NewRow(id, data, now)
    ensures TaskIds(r.0) == TaskIds(db) + {id}
    ensures Valid(db) ==> Valid(r.0)
  {
    var t := NewRow(id, data, now);
    var db' := db.(tasks := db.tasks + [t]);
    assert TaskIds(db') == TaskIds(db) + {id} by {
      forall x | x in TaskIds(db')
        ensures x in TaskIds(db) + {id}
      {
        var k :| 0 <= k < |db'.tasks| && db'.tasks[k].id == x;
        if k < |db.tasks| {
          assert db.tasks[k].id == x;
        }
      }
      forall x | x in TaskIds(db) + {id}
        ensures x in TaskIds(db')
      {
        if x == id {
          assert db'.tasks[|db.tasks|].id == x;
        } else {
          var k :| 0 <= k < |db.tasks| && db.tasks[k].id == x;
          assert db'.tasks[k].id == x;
        }
      }
    }
    (db', t)
  }

  /** The `onupdate` stamp: `updated_at` moves to `now` only when the flush
      actually writes a changed row. */
  function Touch(before: Task, after: Task, now: nat): (t: Task)
    requires after.updatedAt == before.updatedAt
    ensures after == before ==> t == before
    ensures after != before ==> t == after.(updatedAt := now)
  {
    if after == before then before else after.(updatedAt := now)
  }

  /** A `Put` of a present value overwrites, anything else keeps the column. */
  function PatchValue<T>(p: Patch<Option<T>>, current: T): T {
    if p.Put? && p.value.Some? then p.value.value else current
  }

  /** A nullable column: `Put(None)` clears it. */
  function PatchNullable<T>(p: Patch<Option<T>>, current: Option<T>): Option<T> {
    if p.Put? then p.value else current
  }

  /** The row after `setattr` of every field the client sent. */
  function ApplyUpdate(t: Task, u: TaskUpdate): (r: Task)
    ensures r.id == t.id && r.createdAt == t.createdAt && r.updatedAt == t.updatedAt
    ensures r.lastRunAt == t.lastRunAt && r.nextRunAt == t.nextRunAt
  {
    t.(name := PatchValue(u.name, t.name),
       description := PatchValue(u.description, t.description),
       cronExpression := PatchNullable(u.cronExpression, t.cronExpression),
       timezone := PatchValue(u.timezone, t.timezone),
       isEnabled := PatchValue(u.isEnabled, t.isEnabled),
       timeoutSeconds := PatchValue(u.timeoutSeconds, t.timeoutSeconds),
       headless := PatchValue(u.headless, t.headless),
       startUrl := PatchNullable(u.startUrl, t.startUrl),
       telegramEnabled := PatchValue(u.telegramEnabled, t.telegramEnabled),
       telegramChatId := PatchNullable(u.telegramChatId, t.telegramChatId),
       notifyOnSuccess := PatchValue(u.notifyOnSuccess, t.notifyOnSuccess),
       notifyOnFailure := PatchValue(u.notifyOnFailure, t.notifyOnFailure))
  }

  /** Field `p` of the update was left out and the column kept its value, or
      was sent and the column now holds the sent value. */
  predicate FieldFollows<T(==)>(p: Patch<Option<T>>, before: T, after: T) {
    && (p.Unset? ==> after == before)
    && (p.Put? && p.value.Some? ==> after == p.value.value)
  }

  predicate NullableFollows<T(==)>(p: Patch<Option<T>>, before: Option<T>, after: Option<T>) {
    && (p.Unset? ==> after == before)
    && (p.Put? ==> after == p.value)
  }

  /** The row `after` differs from `before` only in the fields `u` sets (and
      the `updated_at` stamp). */
  predicate OnlySetFieldsChange(before: Task, after: Task, u: TaskUpdate) {
    && after.id == before.id
    && after.createdAt == before.createdAt
    && after.lastRunAt == before.lastRunAt
    && after.nextRunAt == before.nextRunAt
    && FieldFollows(u.name, before.name, after.name)
    && FieldFollows(u.description, before.description, after.description)
    && NullableFollows(u.cronExpression, before.cronExpression, after.cronExpression)
    && FieldFollows(u.timezone, before.timezone, after.timezone)
    && FieldFollows(u.isEnabled, before.isEnabled, after.isEnabled)
    && FieldFollows(u.timeoutSeconds, before.timeoutSeconds, after.timeoutSeconds)
    && FieldFollows(u.headless, before.headless, after.headless)
    && NullableFollows(u.startUrl, before.startUrl, after.startUrl)
    && FieldFollows(u.telegramEnabled, before.telegramEnabled, after.telegramEnabled)
    && NullableFollows(u.telegramChatId, before.telegramChatId, after.telegramChatId)
    && FieldFollows(u.notifyOnSuccess, before.notifyOnSuccess, after.notifyOnSuccess)
    && FieldFollows(u.notifyOnFailure, before.notifyOnFailure, after.notifyOnFailure)
  }

  /** What `update` ends in: no such row (`None`), a flush refused by a NOT NULL
      column (the exception the caller sees), or the updated row. */
  datatype UpdateOutcome = NotFound | Refused | Updated(db: Db, task: Task)

  /** `update`: the row with the sent fields overwritten. */
  function Update(db: Db, id: string, u: TaskUpdate, now: nat): (r: UpdateOutcome)
    ensures r.NotFound? <==> id !in TaskIds(db)
    ensures r.Refused? <==> id in TaskIds(db) && ClearsRequiredColumn(u)
    ensures r.Updated? ==>
      exists k :: 0 <= k < |db.tasks| && db.tasks[k].id == id &&
        r.db == db.(tasks := db.tasks[k := r.task]) &&
        OnlySetFieldsChange(db.tasks[k], r.task, u)
    ensures r.Updated? ==> TaskIds(r.db) == TaskIds(db) && r.db.logs == db.logs
    ensures r.Updated? && Valid(db) ==> Valid(r.db)
  {
    match Find(db, id)
    case None => NotFound
    case Some(i) =>
      if ClearsRequiredColumn(u) then Refused
      else
        var t := db.tasks[i];
        var t' := Touch(t, ApplyUpdate(t, u), now);
        var db' := db.(tasks := db.tasks[i := t']);
        ReplaceKeepsIds(db, i, t');
        UpdateChangesOnlySetFields(t, u, now);
        assert db.tasks[i].id == id && db' == db.(tasks := db.tasks[i := t']) &&
               OnlySetFieldsChange(db.tasks[i], t', u);
        Updated(db', t')
  }

  lemma UpdateChangesOnlySetFields(t: Task, u: TaskUpdate, now: nat)
    ensures OnlySetFieldsChange(t, Touch(t, ApplyUpdate(t, u), now), u)
  {
  }

  /** Replacing a row by one with the same id keeps the key set and uniqueness. */
  lemma ReplaceKeepsIds(db: Db, i: nat, t: Task)
    requires i < |db.tasks| && t.id == db.tasks[i].id
    ensures TaskIds(db.(tasks := db.tasks[i := t])) == TaskIds(db)
    ensures UniqueTaskIds(db.tasks) ==> UniqueTaskIds(db.tasks[i := t])
    ensures Valid(db) ==> Valid(db.(tasks := db.tasks[i := t]))
  {
    var db' := db.(tasks := db.tasks[i := t]);
    forall x | x in TaskIds(db')
      ensures x in TaskIds(db)
    {
      var k :| 0 <= k < |db'.tasks| && db'.tasks[k].id == x;
      assert db.tasks[k].id == x;
    }
    forall x | x in TaskIds(db)
      ensures x in TaskIds(db')
    {
      var k :| 0 <= k < |db.tasks| && db.tasks[k].id == x;
      assert db'.tasks[k].id == x;
    }
  }

  /** An accepted update keeps a row inside the schema bounds. */
  lemma UpdatePreservesBounds(t: Task, u: TaskUpdate)
    requires TaskWithinBounds(t) && ValidUpdate(u) && !ClearsRequiredColumn(u)
    ensures TaskWithinBounds(ApplyUpdate(t, u))
  {
    var r := ApplyUpdate(t, u);
    assert PatchOk(u.cronExpression, (s: string) => |s| <= MaxCronLength);
    assert PatchOk(u.startUrl, (s: string) => |s| <= MaxStartUrlLength);
    assert PatchOk(u.telegramChatId, (s: string) => |s| <= MaxChatIdLength);
    assert PatchOk(u.timezone, (s: string) => |s| <= MaxTimezoneLength);
  }

  /** `delete`: removes the row and, through the `all, delete-orphan` cascade,
      every run record of that task. */
  function Delete(db: Db, id: string): (r: (Db, bool))
    ensures !r.1 <==> id !in TaskIds(db)
    ensures !r.1 ==> r.0 == db
    ensures r.1 ==> id !in TaskIds(r.0)
    ensures r.1 ==> TaskIds(r.0) == TaskIds(db) - {id}
    ensures r.1 ==> forall k :: 0 <= k < |r.0.logs| ==> r.0.logs[k].taskId != id
    ensures r.1 ==> forall k :: 0 <= k < |db.logs| && db.logs[k].taskId != id ==> db.logs[k] in r.0.logs
    ensures r.1 ==> forall k :: 0 <= k < |db.tasks| && db.tasks[k].id != id ==> db.tasks[k] in r.0.tasks
    ensures r.1 ==> forall k :: 0 <= k < |r.0.logs| ==> r.0.logs[k] in db.logs
    ensures r.1 ==> forall k :: 0 <= k < |r.0.tasks| ==> r.0.tasks[k] in db.tasks
  {
    if id !in TaskIds(db) then (db, false)
    else
      var tasks := Seqs.Filter(db.tasks, (t: Task) => t.id != id);
      var logs := Seqs.Filter(db.logs, (l: TaskLog) => l.taskId != id);
      var db' := Db(tasks, logs);
      assert TaskIds(db') == TaskIds(db) - {id} by {
        forall x | x in TaskIds(db')
          ensures x in TaskIds(db) - {id}
        {
          var k :| 0 <= k < |tasks| && tasks[k].id == x;
          assert tasks[k] in db.tasks;
          var j :| 0 <= j < |db.tasks| && db.tasks[j] == tasks[k];
        }
        forall x | x in TaskIds(db) - {id}
          ensures x in TaskIds(db')
        {
          var k :| 0 <= k < |db.tasks| && db.tasks[k].id == x;
          assert db.tasks[k] in tasks;
          var j :| 0 <= j < |tasks| && tasks[j] == db.tasks[k];
        }
      }
      (db', true)
  }

  /** Deleting keeps primary keys unique and leaves no run record without its task. */
  lemma DeleteKeepsValid(db: Db, id: string)
    requires Valid(db)
    ensures Valid(Delete(db, id).0)
  {
    var (db', deleted) := Delete(db, id);
    if deleted {
      Seqs.FilterKeepsDistinct(db.tasks, (t: Task) => t.id != id, TaskKey);
      Seqs.FilterKeepsDistinct(db.logs, (l: TaskLog) => l.taskId != id, LogKey);
      forall k | 0 <= k < |db'.logs|
        ensures db'.logs[k].taskId in TaskIds(db')
      {
        var j :| 0 <= j < |db.logs| && db.logs[j] == db'.logs[k];
        var i :| 0 <= i < |db.tasks| && db.tasks[i].id == db.logs[j].taskId;
        assert db.tasks[i] in db'.tasks;
      }
    }
  }

  function TaskKey(t: Task): string {
    t.id
  }

  function LogKey(l: TaskLog): string {
    l.id
  }

  /** `toggle_enabled`: negates `is_enabled`, nothing else but the stamp. */
  function ToggleEnabled(db: Db, id: string, now: nat): (r: (Db, Option<Task>))
    ensures r.1.None? <==> id !in TaskIds(db)
    ensures r.1.None? ==> r.0 == db
    ensures r.1.Some? ==>
      exists k :: 0 <= k < |db.tasks| && db.tasks[k].id == id &&
        r.1.value == db.tasks[k].(isEnabled := !db.tasks[k].isEnabled, updatedAt := now) &&
        r.0 == db.(tasks := db.tasks[k := r.1.value])
    ensures r.1.Some? ==> r.1.value.id == id && TaskIds(r.0) == TaskIds(db) && r.0.logs == db.logs
  {
    match Find(db, id)
    case None => (db, None)
    case Some(i) =>
      var t' := Toggled(db.tasks[i], now);
      ReplaceKeepsIds(db, i, t');
      (db.(tasks := db.tasks[i := t']), Some(t'))
  }

  /** The row with `is_enabled` flipped and the `updated_at` stamp renewed. */
  function Toggled(t: Task, now: nat): (r: Task)
    ensures r == t.(isEnabled := !t.isEnabled, updatedAt := now)
  {
    Touch(t, t.(isEnabled := !t.isEnabled), now)
  }

  /** Toggling twice restores every column except the `updated_at` stamp. */
  lemma ToggleTwiceRestores(db: Db, id: string, now1: nat, now2: nat)
    requires UniqueTaskIds(db.tasks)
    requires id in TaskIds(db)
    ensures var (db1, _) := ToggleEnabled(db, id, now1);
            var (db2, t2) := ToggleEnabled(db1, id, now2);
            forall k :: 0 <= k < |db.tasks| && db.tasks[k].id == id ==>
              t2 == Some(db.tasks[k].(updatedAt := now2)) &&
              db2 == db.(tasks := db.tasks[k := db.tasks[k].(updatedAt := now2)])
  {
    var k := Find(db, id).value;
    var t1 := Toggled(db.tasks[k], now1);
    var db1 := db.(tasks := db.tasks[k := t1]);
    assert ToggleEnabled(db, id, now1) == (db1, Some(t1));
    ReplaceKeepsIds(db, k, t1);
    assert Find(db1, id) == Some(k);
    var t2 := Toggled(t1, now2);
    assert t2 == db.tasks[k].(updatedAt := now2);
    assert db1.tasks[k := t2] == db.tasks[k := t2];
    assert ToggleEnabled(db1, id, now2) == (db.(tasks := db.tasks[k := t2]), Some(t2));
  }

  /** The row `after` is `before` up to the run-time columns and the
      `updated_at` stamp. */
  predicate SameBarRunTimes(before: Task, after: Task) {
    after.(lastRunAt := before.lastRunAt, nextRunAt := before.nextRunAt, updatedAt := before.updatedAt) == before
  }

  /** `after` is `before` with the given run times written and every other
      column except the `updated_at` stamp untouched. */
  predicate RunTimesWritten(before: Task, after: Task, lastRunAt: Option<nat>, nextRunAt: Option<nat>) {
    && after.lastRunAt == (if lastRunAt.Some? then lastRunAt else before.lastRunAt)
    && after.nextRunAt == (if nextRunAt.Some? then nextRunAt else before.nextRunAt)
    && SameBarRunTimes(before, after)
  }

  /** The two tables differ at most in the run-time columns and the
      `updated_at` stamp of task rows: same rows in the same order, the same
      run records. */
  predicate OnlyRunTimesDiffer(before: Db, after: Db) {
    && |after.tasks| == |before.tasks|
    && after.logs == before.logs
    && forall k :: 0 <= k < |before.tasks| ==> SameBarRunTimes(before.tasks[k], after.tasks[k])
  }

  /** A row of a table with unique keys is read back from any table that
      differs from it only in run times, and only its run times may differ. */
  lemma ReadBackBarRunTimes(staged: Db, stored: Db, k: nat)
    requires k < |staged.tasks| && UniqueTaskIds(staged.tasks) && OnlyRunTimesDiffer(staged, stored)
    ensures GetById(stored, staged.tasks[k].id) == Some(stored.tasks[k])
    ensures SameBarRunTimes(staged.tasks[k], stored.tasks[k])
  {
    assert forall i :: 0 <= i < |stored.tasks| ==> stored.tasks[i].id == staged.tasks[i].id by {
      forall i | 0 <= i < |stored.tasks|
        ensures stored.tasks[i].id == staged.tasks[i].id
      {
        assert SameBarRunTimes(staged.tasks[i], stored.tasks[i]);
      }
    }
  }

  lemma OnlyRunTimesDifferTrans(a: Db, b: Db, c: Db)
    requires OnlyRunTimesDiffer(a, b) && OnlyRunTimesDiffer(b, c)
    ensures OnlyRunTimesDiffer(a, c)
  {
    forall k | 0 <= k < |a.tasks|
      ensures SameBarRunTimes(a.tasks[k], c.tasks[k])
    {
      assert SameBarRunTimes(a.tasks[k], b.tasks[k]) && SameBarRunTimes(b.tasks[k], c.tasks[k]);
    }
  }

  function WriteRunTimes(t: Task, lastRunAt: Option<nat>, nextRunAt: Option<nat>, now: nat): (r: Task)
    ensures RunTimesWritten(t, r, lastRunAt, nextRunAt)
  {
    var t1 := if lastRunAt.Some? then t.(lastRunAt := lastRunAt) else t;
    var t2 := if nextRunAt.Some? then t1.(nextRunAt := nextRunAt) else t1;
    Touch(t, t2, now)
  }

  /** `update_run_times`: writes only the timestamps that are given. */
  function UpdateRunTimes(db: Db, id: string, lastRunAt: Option<nat>, nextRunAt: Option<nat>, now: nat): (r: (Db, Option<Task>))
    ensures r.1.None? <==> id !in TaskIds(db)
    ensures r.1.None? ==> r.0 == db
    ensures r.1.Some? ==>
      exists k :: 0 <= k < |db.tasks| && db.tasks[k].id == id &&
        r.0 == db.(tasks := db.tasks[k := r.1.value]) &&
        RunTimesWritten(db.tasks[k], r.1.value, lastRunAt, nextRunAt)
    ensures OnlyRunTimesDiffer(db, r.0)
    ensures TaskIds(r.0) == TaskIds(db)
    ensures r.0.logs == db.logs
    ensures Valid(db) ==> Valid(r.0)
  {
    match Find(db, id)
    case None => (db, None)
    case Some(i) =>
      var t' := WriteRunTimes(db.tasks[i], lastRunAt, nextRunAt, now);
      var db' := db.(tasks := db.tasks[i := t']);
      ReplaceKeepsIds(db, i, t');
      assert db.tasks[i].id == id && db' == db.(tasks := db.tasks[i := t']) &&
        RunTimesWritten(db.tasks[i], t', lastRunAt, nextRunAt);
      (db', Some(t'))
  }

  /** With unique ids, `update_run_times` writes the given timestamps into
      the row of that id and keeps every row's id. */
  lemma UpdateRunTimesRow(db: Db, id: string, lastRunAt: Option<nat>, nextRunAt: Option<nat>, now: nat)
    requires UniqueTaskIds(db.tasks)
    ensures var db' := UpdateRunTimes(db, id, lastRunAt, nextRunAt, now).0;
      && |db'.tasks| == |db.tasks|
      && (forall k :: 0 <= k < |db.tasks| ==> db'.tasks[k].id == db.tasks[k].id)
      && forall k :: 0 <= k < |db.tasks| && db.tasks[k].id == id ==>
           RunTimesWritten(db.tasks[k], db'.tasks[k], lastRunAt, nextRunAt)
  {
    var (db', t) := UpdateRunTimes(db, id, lastRunAt, nextRunAt, now);
    forall k | 0 <= k < |db.tasks|
      ensures db'.tasks[k].id == db.tasks[k].id
    {
      assert db'.tasks[k].(lastRunAt := db.tasks[k].lastRunAt, nextRunAt := db.tasks[k].nextRunAt,
                           updatedAt := db.tasks[k].updatedAt) == db.tasks[k];
    }
    if t.Some? {
      var i :| 0 <= i < |db.tasks| && db.tasks[i].id == id &&
        db' == db.(tasks := db.tasks[i := t.value]) &&
        RunTimesWritten(db.tasks[i], t.value, lastRunAt, nextRunAt);
      forall k | 0 <= k < |db.tasks| && db.tasks[k].id == id
        ensures RunTimesWritten(db.tasks[k], db'.tasks[k], lastRunAt, nextRunAt)
      {
        assert k == i;
      }
    }
  }

  /** `count`: the number of rows, which is the number of distinct ids. */
  function Count(db: Db): (n: nat)
    ensures n == |db.tasks|
    ensures UniqueTaskIds(db.tasks) ==> n == |TaskIds(db)|
  {
    if UniqueTaskIds(db.tasks) then
      DistinctIdsCount(db.tasks);
      |db.tasks|
    else |db.tasks|
  }

  /** Appending a row adds exactly its id. */
  lemma TaskIdsSnoc(init: seq<Task>, last: Task)
    ensures TaskIds(Db(init + [last], [])) == TaskIds(Db(init, [])) + {last.id}
  {
    var tasks := init + [last];
    forall x | x in TaskIds(Db(tasks, []))
      ensures x in TaskIds(Db(init, [])) + {last.id}
    {
      var k :| 0 <= k < |tasks| && tasks[k].id == x;
      if k < |init| {
        assert init[k].id == x;
      }
    }
    forall x | x in TaskIds(Db(init, []))
      ensures x in TaskIds(Db(tasks, []))
    {
      var k :| 0 <= k < |init| && init[k].id == x;
      assert tasks[k].id == x;
    }
    assert tasks[|init|].id == last.id;
  }

  lemma {:induction false} DistinctIdsCount(tasks: seq<Task>)
    requires UniqueTaskIds(tasks)
    ensures |TaskIds(Db(tasks, []))| == |tasks|
  {
    if |tasks| > 0 {
      var init := tasks[..|tasks| - 1];
      var last := tasks[|tasks| - 1];
      assert init + [last] == tasks;
      assert UniqueTaskIds(init) by {
        forall i, j | 0 <= i < j < |init|
          ensures init[i].id != init[j].id
        {
          assert init[i] == tasks[i] && init[j] == tasks[j];
        }
      }
      DistinctIdsCount(init);
      TaskIdsSnoc(init, last);
      assert last.id !in TaskIds(Db(init, [])) by {
        forall k | 0 <= k < |init|
          ensures init[k].id != last.id
        {
          assert init[k] == tasks[k];
        }
      }
    }
  }
}

=== FILE: tasks_router.dfy ===
/** The task endpoints (src/api/routers/tasks.py): each handler as a step of
    the world (tables, job store, running map), answering with a body or an
    HTTP error. Commits are not modelled separately: the tables after a
    handler are the committed ones. */
module TasksRouter {
  import opened Wrappers
  import opened Text
  import opened Models
  import opened Schemas
  import Seqs
  import TaskService
  import opened Scheduler
  import opened Api

  /** `list_tasks`: every task newest first, and how many there are. */
  function ListTasks(w: World): (r: (seq<Task>, nat))
    ensures r.1 == |r.0| == |w.db.tasks|
    ensures Seqs.SortedDesc(r.0, TaskService.CreatedKey)
    ensures multiset(r.0) == multiset(w.db.tasks)
  {
    var tasks := TaskService.GetAll(w.db);
    assert |multiset(tasks)| == |multiset(w.db.tasks)|;
    (tasks, |tasks|)
  }

  /** `get_task`: the task, or 404. */
  function GetTask(w: World, id: string): (r: Response<Task>)
    ensures r.Fail? <==> id !in TaskIds(w.db)
    ensures r.Fail? ==> r.error == NotFound
    ensures r.Ok? ==> r.code == OkCode && r.body.id == id && r.body in w.db.tasks
  {
    match TaskService.GetById(w.db, id)
    case None => Fail(NotFound)
    case Some(t) => Ok(OkCode, t)
  }

  /** The job store after scheduling `task` agrees with `before` on every
      other job, and holds the task's job exactly when it is schedulable. */
  ghost predicate ScheduledAs(before: map<string, Job>, after: map<string, Job>, task: Task, cron: Cron) {
    && (JobId(task.id) in after <==> Schedulable(task, cron))
    && (Schedulable(task, cron) ==> after[JobId(task.id)] == Job(task.id, Trigger(task.cronExpression.value, task.timezone)))
    && (forall key :: key != JobId(task.id) ==> (key in after <==> key in before))
    && (forall key :: key != JobId(task.id) && key in before ==> after[key] == before[key])
  }

  lemma ScheduleTaskScheduledAs(w: World, task: Task, cron: Cron, now: nat)
    ensures ScheduledAs(w.jobs, ScheduleTask(w, task, cron, now).0.jobs, task, cron)
  {
  }

  /** `create_task`: a body outside the bounds is refused with 422 and
      nothing changes; otherwise the row is inserted, `schedule_task` runs on
      it, and the answer is the row as inserted. `id` stands for the
      generated uuid. */
  function CreateTask(w: World, body: TaskCreate, id: string, cron: Cron, now: nat): (r: (Response<Task>, World))
    requires id !in TaskIds(w.db)
    ensures r.0.Fail? <==> !ValidCreate(body)
    ensures r.0.Fail? ==> r.0.error == Unprocessable && r.1 == w
    ensures r.0.Ok? ==> r.0.code == CreatedCode && r.0.body == TaskService.NewRow(id, body, now)
    ensures r.0.Ok? ==> TaskIds(r.1.db) == TaskIds(w.db) + {id} && TaskWithinBounds(r.0.body)
    ensures r.0.Ok? ==> TaskService.OnlyRunTimesDiffer(w.db.(tasks := w.db.tasks + [r.0.body]), r.1.db)
    ensures r.0.Ok? ==> ScheduledAs(w.jobs, r.1.jobs, r.0.body, cron)
    ensures r.1.running == w.running && r.1.db.logs == w.db.logs
    ensures Valid(w.db) ==> Valid(r.1.db)
  {
    if !ValidCreate(body) then (Fail(Unprocessable), w)
    else
      var (db, task) := TaskService.Create(w.db, id, body, now);
      var w1 := ScheduleTask(w.(db := db), task, cron, now).0;
      ScheduleTaskScheduledAs(w.(db := db), task, cron, now);
      (Ok(CreatedCode, task), w1)
  }

  /** After a successful create, `get_task` reads back the answered row, up
      to the run times `schedule_task` writes in its own session. */
  lemma CreateThenGet(w: World, body: TaskCreate, id: string, cron: Cron, now: nat)
    requires id !in TaskIds(w.db) && UniqueTaskIds(w.db.tasks)
    ensures var (r, w') := CreateTask(w, body, id, cron, now);
      r.Ok? ==> GetTask(w', id).Ok? && TaskService.SameBarRunTimes(r.body, GetTask(w', id).body)
  {
    var (r, w') := CreateTask(w, body, id, cron, now);
    if r.Ok? {
      AppendFreshRow(w.db, r.body);
      TaskService.ReadBackBarRunTimes(w.db.(tasks := w.db.tasks + [r.body]), w'.db, |w.db.tasks|);
    }
  }

  /** Appending a row under an unused key keeps the keys unique. */
  lemma AppendFreshRow(db: Db, t: Task)
    requires t.id !in TaskIds(db) && UniqueTaskIds(db.tasks)
    ensures UniqueTaskIds(db.tasks + [t])
  {
    var tasks := db.tasks + [t];
    forall i, j | 0 <= i < j < |tasks|
      ensures tasks[i].id != tasks[j].id
    {
      if j == |db.tasks| {
        assert db.tasks[i].id in TaskIds(db);
      }
    }
  }

  /** `update_task`: 422 for a body outside the bounds, 404 for a missing
      task, 500 when the body clears a NOT NULL column; otherwise the sent
      fields are written and the task is rescheduled from its new values. */
  function UpdateTask(w: World, id: string, body: TaskUpdate, cron: Cron, now: nat): (r: (Response<Task>, World))
    ensures r.0.Fail? ==> r.1 == w
    ensures r.0 == Fail(Unprocessable) <==> !ValidUpdate(body)
    ensures r.0 == Fail(NotFound) <==> ValidUpdate(body) && id !in TaskIds(w.db)
    ensures r.0 == Fail(Internal) <==> ValidUpdate(body) && id in TaskIds(w.db) && ClearsRequiredColumn(body)
    ensures r.0.Ok? ==> r.0.code == OkCode && r.0.body.id == id
    ensures r.0.Ok? ==>
      exists k :: 0 <= k < |w.db.tasks| && w.db.tasks[k].id == id &&
        TaskService.OnlySetFieldsChange(w.db.tasks[k], r.0.body, body) &&
        TaskService.OnlyRunTimesDiffer(w.db.(tasks := w.db.tasks[k := r.0.body]), r.1.db)
    ensures r.0.Ok? ==> ScheduledAs(w.jobs, r.1.jobs, r.0.body, cron)
    ensures r.1.running == w.running && TaskIds(r.1.db) == TaskIds(w.db) && r.1.db.logs == w.db.logs
  {
    if !ValidUpdate(body) then (Fail(Unprocessable), w)
    else match TaskService.Update(w.db, id, body, now)
      case NotFound => (Fail(NotFound), w)
      case Refused => (Fail(Internal), w)
      case Updated(db, task) =>
        ScheduleTaskScheduledAs(w.(db := db), task, cron, now);
        (Ok(OkCode, task), ScheduleTask(w.(db := db), task, cron, now).0)
  }

  /** After a successful update, `get_task` reads back the answered row, up
      to the run times `schedule_task` writes in its own session. */
  lemma UpdateThenGet(w: World, id: string, body: TaskUpdate, cron: Cron, now: nat)
    requires UniqueTaskIds(w.db.tasks)
    ensures var (r, w') := UpdateTask(w, id, body, cron, now);
      r.Ok? ==> GetTask(w', id).Ok? && TaskService.SameBarRunTimes(r.body, GetTask(w', id).body)
  {
    var (r, w') := UpdateTask(w, id, body, cron, now);
    if r.Ok? {
      var k :| 0 <= k < |w.db.tasks| && w.db.tasks[k].id == id &&
        TaskService.OnlyRunTimesDiffer(w.db.(tasks := w.db.tasks[k := r.body]), w'.db);
      TaskService.ReplaceKeepsIds(w.db, k, r.body);
      TaskService.ReadBackBarRunTimes(w.db.(tasks := w.db.tasks[k := r.body]), w'.db, k);
    }
  }

  /** `delete_task`: the job goes first, found or not; then 404 for a missing
      task, or the task and (by cascade) its run records are removed. The
      running map is not touched. */
  function DeleteTask(w: World, id: string): (r: (Response<()>, World))
    ensures r.1.jobs == w.jobs - {JobId(id)}
    ensures r.1.running == w.running && r.1.events == w.events && r.1.outbox == w.outbox
    ensures r.0.Fail? <==> id !in TaskIds(w.db)
    ensures r.0.Fail? ==> r.0.error == NotFound && r.1.db == w.db
    ensures r.0.Ok? ==> r.0.code == NoContentCode
    ensures r.0.Ok? ==> TaskIds(r.1.db) == TaskIds(w.db) - {id}
    ensures r.0.Ok? ==> forall k :: 0 <= k < |r.1.db.logs| ==> r.1.db.logs[k].taskId != id
    ensures r.0.Ok? ==> forall k :: 0 <= k < |w.db.tasks| && w.db.tasks[k].id != id ==> w.db.tasks[k] in r.1.db.tasks
    ensures r.0.Ok? ==> forall k :: 0 <= k < |w.db.logs| && w.db.logs[k].taskId != id ==> w.db.logs[k] in r.1.db.logs
    ensures r.0.Ok? ==> forall k :: 0 <= k < |r.1.db.tasks| ==> r.1.db.tasks[k] in w.db.tasks
    ensures r.0.Ok? ==> forall k :: 0 <= k < |r.1.db.logs| ==> r.1.db.logs[k] in w.db.logs
    ensures r.0.Ok? ==> r.1.db == TaskService.Delete(w.db, id).0
  {
    var (w1, _) := UnscheduleTask(w, id);
    var (db, deleted) := TaskService.Delete(w1.db, id);
    if !deleted then (Fail(NotFound), w1)
    else (Ok(NoContentCode, ()), w1.(db := db))
  }

  /** After a successful delete, `get_task` answers 404 for the task and
      answers every other task exactly as before. */
  lemma DeleteThenGet(w: World, id: string, other: string)
    requires Valid(w.db) && other != id
    ensures var (r, w') := DeleteTask(w, id);
      r.Ok? ==> GetTask(w', id) == Fail(NotFound) && GetTask(w', other) == GetTask(w, other)
  {
    var (r, w') := DeleteTask(w, id);
    if r.Ok? {
      TaskService.DeleteKeepsValid(w.db, id);
      match TaskService.GetById(w.db, other)
      case None =>
      case Some(t) =>
        var k :| 0 <= k < |w.db.tasks| && w.db.tasks[k] == t;
        var j :| 0 <= j < |w'.db.tasks| && w'.db.tasks[j] == t;
    }
  }

  /** Deleting a task while it runs leaves its entry in the running map with
      no run record behind it: `get_running_tasks` keeps listing the deleted
      task until its run finishes. */
  lemma DeleteWhileRunningLeavesStaleEntry(w: World, id: string)
    requires Valid(w.db) && RunningConsistent(w) && id in w.running
    ensures var (r, w') := DeleteTask(w, id);
      r.Ok? && id in w'.running && !RunningConsistent(w')
  {
    DeleteLeavesStaleEntry(w.(jobs := w.jobs - {JobId(id)}), id);
  }

  /** `run_task_now`: 404 for a missing task, 409 whenever `run_now` answers
      `None` (the task is in the running map), otherwise the id; the run
      itself is spawned separately and nothing changes here. */
  function RunTask(w: World, id: string): (r: Response<string>)
    ensures r.Fail? ==> r.error == NotFound || r.error == Conflict
    ensures r == Fail(NotFound) <==> id !in TaskIds(w.db)
    ensures r == Fail(Conflict) <==> id in TaskIds(w.db) && id in w.running
    ensures r.Ok? <==> RunNow(w, id).Some?
    ensures r.Ok? ==> r.code == OkCode && r.body == id
  {
    match TaskService.GetById(w.db, id)
    case None => Fail(NotFound)
    case Some(_) =>
      match RunNow(w, id)
      case None => Fail(Conflict)
      case Some(_) => Ok(OkCode, id)
  }

  /** `toggle_task`: 404 for a missing task; otherwise `is_enabled` flips, and
      the task is scheduled when it is now enabled, unscheduled otherwise. */
  function ToggleTask(w: World, id: string, cron: Cron, now: nat): (r: (Response<Task>, World))
    ensures r.0.Fail? <==> id !in TaskIds(w.db)
    ensures r.0.Fail? ==> r.0.error == NotFound && r.1 == w
    ensures r.0.Ok? ==> r.0.code == OkCode && r.0.body.id == id
    ensures r.0.Ok? ==>
      exists k :: 0 <= k < |w.db.tasks| && w.db.tasks[k].id == id &&
        r.0.body.isEnabled == !w.db.tasks[k].isEnabled &&
        r.0.body == w.db.tasks[k].(isEnabled := !w.db.tasks[k].isEnabled, updatedAt := now) &&
        TaskService.OnlyRunTimesDiffer(w.db.(tasks := w.db.tasks[k := r.0.body]), r.1.db)
    ensures r.0.Ok? ==> ScheduledAs(w.jobs, r.1.jobs, r.0.body, cron)
    ensures r.0.Ok? && !r.0.body.isEnabled ==> JobId(id) !in r.1.jobs
    ensures r.1.running == w.running && TaskIds(r.1.db) == TaskIds(w.db) && r.1.db.logs == w.db.logs
  {
    match TaskService.ToggleEnabled(w.db, id, now)
    case (_, None) => (Fail(NotFound), w)
    case (db, Some(task)) =>
      if task.isEnabled then
        ScheduleTaskScheduledAs(w.(db := db), task, cron, now);
        (Ok(OkCode, task), ScheduleTask(w.(db := db), task, cron, now).0)
      else
        (Ok(OkCode, task), UnscheduleTask(w.(db := db), id).0)
  }

  /** After a successful toggle, `get_task` reads back the answered row, up
      to the run times `schedule_task` writes in its own session. */
  lemma ToggleThenGet(w: World, id: string, cron: Cron, now: nat)
    requires UniqueTaskIds(w.db.tasks)
    ensures var (r, w') := ToggleTask(w, id, cron, now);
      r.Ok? ==> GetTask(w', id).Ok? && TaskService.SameBarRunTimes(r.body, GetTask(w', id).body)
  {
    var (r, w') := ToggleTask(w, id, cron, now);
    if r.Ok? {
      var k :| 0 <= k < |w.db.tasks| && w.db.tasks[k].id == id &&
        TaskService.OnlyRunTimesDiffer(w.db.(tasks := w.db.tasks[k := r.body]), w'.db);
      TaskService.ReplaceKeepsIds(w.db, k, r.body);
      TaskService.ReadBackBarRunTimes(w.db.(tasks := w.db.tasks[k := r.body]), w'.db, k);
    }
  }

  const DuplicateSuffix: string := " (DUPLICATE)"

  /** The creation body `duplicate_task` builds: the original's fields with
      the suffixed name. `is_enabled` is not part of a creation body. */
  function DuplicateBody(t: Task): (c: TaskCreate)
    ensures StartsWith(c.name, t.name) && EndsWith(c.name, DuplicateSuffix)
    ensures |c.name| == |t.name| + |DuplicateSuffix|
    ensures c.description == t.description && c.cronExpression == t.cronExpression
    ensures c.timezone == t.timezone && c.timeoutSeconds == t.timeoutSeconds && c.headless == t.headless
    ensures c.startUrl == t.startUrl && c.telegramEnabled == t.telegramEnabled
    ensures c.telegramChatId == t.telegramChatId
    ensures c.notifyOnSuccess == t.notifyOnSuccess && c.notifyOnFailure == t.notifyOnFailure
  {
    TaskCreate(t.name + DuplicateSuffix, t.description, t.cronExpression, t.timezone, t.timeoutSeconds,
               t.headless, t.startUrl, t.telegramEnabled, t.telegramChatId, t.notifyOnSuccess, t.notifyOnFailure)
  }

  /** A task within the bounds can be duplicated exactly when its name leaves
      room for the suffix. */
  lemma DuplicateBodyValid(t: Task)
    requires TaskWithinBounds(t)
    ensures ValidCreate(DuplicateBody(t)) <==> |t.name| + |DuplicateSuffix| <= MaxNameLength
  {
  }

  /** `duplicate_task`: 404 for a missing original; 500 when the built body
      fails validation (the exception is raised inside the handler);
      otherwise a new enabled copy is inserted and scheduled only when it has
      a cron expression. `newId` stands for the generated uuid. */
  function DuplicateTask(w: World, id: string, newId: string, cron: Cron, now: nat): (r: (Response<Task>, World))
    requires newId !in TaskIds(w.db)
    ensures r.0 == Fail(NotFound) <==> id !in TaskIds(w.db)
    ensures r.0 == Fail(Internal) <==>
      id in TaskIds(w.db) && !ValidCreate(DuplicateBody(TaskService.GetById(w.db, id).value))
    ensures r.0.Fail? ==> r.1 == w
    ensures r.0.Ok? ==> r.0.code == CreatedCode && r.0.body.id == newId && r.0.body.isEnabled
    ensures r.0.Ok? ==>
      var original := TaskService.GetById(w.db, id).value;
      && r.0.body.name == original.name + DuplicateSuffix
      && r.0.body == TaskService.NewRow(newId, DuplicateBody(original), now)
    ensures r.0.Ok? ==> TaskIds(r.1.db) == TaskIds(w.db) + {newId}
    ensures r.0.Ok? ==> TaskService.OnlyRunTimesDiffer(w.db.(tasks := w.db.tasks + [r.0.body]), r.1.db)
    ensures r.0.Ok? && Truthy(r.0.body.cronExpression) ==> ScheduledAs(w.jobs, r.1.jobs, r.0.body, cron)
    ensures r.0.Ok? && !Truthy(r.0.body.cronExpression) ==> r.1.jobs == w.jobs
    ensures r.1.running == w.running && r.1.db.logs == w.db.logs
  {
    match TaskService.GetById(w.db, id)
    case None => (Fail(NotFound), w)
    case Some(original) =>
      var body := DuplicateBody(original);
      if !ValidCreate(body) then (Fail(Internal), w)
      else
        var (db, task) := TaskService.Create(w.db, newId, body, now);
        var w1 := w.(db := db);
        if task.isEnabled && Truthy(task.cronExpression) then
          ScheduleTaskScheduledAs(w1, task, cron, now);
          (Ok(CreatedCode, task), ScheduleTask(w1, task, cron, now).0)
        else
          (Ok(CreatedCode, task), w1)
  }

  /** After a successful duplicate, `get_task` reads back the answered copy
      under the new id, up to the run times `schedule_task` writes in its own
      session. */
  lemma DuplicateThenGet(w: World, id: string, newId: string, cron: Cron, now: nat)
    requires newId !in TaskIds(w.db) && UniqueTaskIds(w.db.tasks)
    ensures var (r, w') := DuplicateTask(w, id, newId, cron, now);
      r.Ok? ==> GetTask(w', newId).Ok? && TaskService.SameBarRunTimes(r.body, GetTask(w', newId).body)
  {
    var (r, w') := DuplicateTask(w, id, newId, cron, now);
    if r.Ok? {
      AppendFreshRow(w.db, r.body);
      TaskService.ReadBackBarRunTimes(w.db.(tasks := w.db.tasks + [r.body]), w'.db, |w.db.tasks|);
    }
  }
}

=== FILE: text.dfy ===
/** The handful of Python string operations the core relies on: truthiness of an
    optional string, prefix slicing `s[:n]`, substring search, `str.split` and
    `str(int)`. Each is defined once here and used by every other module. */
module Text {
  import opened Wrappers

  /** Python truthiness of `str | None`: present and non-empty. */
  predicate Truthy(o: Option<string>) {
    o.Some? && |o.value| > 0
  }

  /** Python `s[:n]` for a non-negative `n`. */
  function Take(s: string, n: nat): (r: string)
    ensures |r| == if |s| < n then |s| else n
    ensures r <= s
    ensures |s| <= n ==> r == s
  {
    if |s| <= n then s else s[..n]
  }

  predicate StartsWith(s: string, prefix: string) {
    prefix <= s
  }

  predicate EndsWith(s: string, suffix: string) {
    |suffix| <= |s| && s[|s| - |suffix|..] == suffix
  }

  /** A prefix, a suffix and a length that leaves no room between them
      determine the string. */
  lemma Abutting(s: string, prefix: string, suffix: string)
    requires StartsWith(s, prefix) && EndsWith(s, suffix) && |s| == |prefix| + |suffix|
    ensures s == prefix + suffix
  {
    assert s == s[..|prefix|] + s[|prefix|..];
  }

  /** `part` occurs in `s` starting at index `j`. */
  predicate OccursAt(s: string, part: string, j: nat) {
    j + |part| <= |s| && s[j..j + |part|] == part
  }

  /** Python `part in s`. */
  predicate Contains(s: string, part: string) {
    exists j: nat | j <= |s| :: OccursAt(s, part, j)
  }

  lemma ContainsMiddle(a: string, part: string, b: string)
    ensures Contains(a + part + b, part)
  {
    var s := a + part + b;
    assert s[|a|..|a| + |part|] == part;
    assert OccursAt(s, part, |a|);
  }

  lemma ContainsSuffix(a: string, part: string)
    ensures Contains(a + part, part)
  {
    assert a + part == a + part + "";
    ContainsMiddle(a, part, "");
  }

  /** Leftmost occurrence of `sep` in `s` at or after `k` (Python `s.find(sep, k)`). */
  function FindFrom(s: string, sep: string, k: nat): (r: Option<nat>)
    requires |sep| > 0 && k <= |s|
    ensures r.Some? ==> k <= r.value && OccursAt(s, sep, r.value)
    ensures r.Some? ==> forall j: nat :: k <= j < r.value ==> !OccursAt(s, sep, j)
    ensures r.None? ==> forall j: nat :: k <= j ==> !OccursAt(s, sep, j)
    decreases |s| - k
  {
    if OccursAt(s, sep, k) then Some(k)
    else if k == |s| then None
    else FindFrom(s, sep, k + 1)
  }

  /** The leftmost-occurrence search fails exactly when the separator does not occur. */
  lemma FindFromStartAbsent(s: string, sep: string)
    requires |sep| > 0
    ensures FindFrom(s, sep, 0).None? <==> !Contains(s, sep)
  {
    var r := FindFrom(s, sep, 0);
    if r.Some? {
      assert r.value <= |s| && OccursAt(s, sep, r.value);
    }
  }

  /** Python `s.split(sep)` for a non-empty separator: cut at the leftmost
      occurrence and continue after it, so occurrences never overlap. */
  function Split(s: string, sep: string): (pieces: seq<string>)
    requires |sep| > 0
    ensures |pieces| >= 1
    decreases |s|
  {
    match FindFrom(s, sep, 0)
    case None => [s]
    case Some(i) => [s[..i]] + Split(s[i + |sep|..], sep)
  }

  /** Python `sep.join(pieces)`, the inverse direction of `Split`. */
  function Join(pieces: seq<string>, sep: string): string
    requires |pieces| >= 1
  {
    if |pieces| == 1 then pieces[0] else pieces[0] + sep + Join(pieces[1..], sep)
  }

  /** Joining the pieces of a split gives back the original text. */
  lemma {:induction false} JoinSplit(s: string, sep: string)
    requires |sep| > 0
    ensures Join(Split(s, sep), sep) == s
    decreases |s|
  {
    match FindFrom(s, sep, 0)
    case None =>
    case Some(i) =>
      var rest := s[i + |sep|..];
      var ps := [s[..i]] + Split(rest, sep);
      assert Split(s, sep) == ps;
      assert ps[1..] == Split(rest, sep);
      assert Join(ps, sep) == s[..i] + sep + Join(Split(rest, sep), sep);
      JoinSplit(rest, sep);
      assert s[i..i + |sep|] == sep;
      assert s == s[..i] + s[i..i + |sep|] + rest;
  }

  /** A prefix that ends before the first occurrence of `sep` does not contain it. */
  lemma PrefixBeforeFirstFree(s: string, sep: string, i: nat)
    requires |sep| > 0 && i <= |s|
    requires forall j: nat :: j < i ==> !OccursAt(s, sep, j)
    ensures !Contains(s[..i], sep)
  {
    var head := s[..i];
    forall j: nat | OccursAt(head, sep, j)
      ensures false
    {
      assert head[j..j + |sep|] == s[j..j + |sep|];
      assert OccursAt(s, sep, j);
    }
  }

  /** No piece of a split contains the separator. */
  lemma {:induction false} SplitPiecesFree(s: string, sep: string)
    requires |sep| > 0
    ensures forall k :: 0 <= k < |Split(s, sep)| ==> !Contains(Split(s, sep)[k], sep)
    decreases |s|
  {
    match FindFrom(s, sep, 0)
    case None =>
      assert Split(s, sep) == [s];
    case Some(i) =>
      var rest := s[i + |sep|..];
      SplitPiecesFree(rest, sep);
      PrefixBeforeFirstFree(s, sep, i);
      var ps := Split(s, sep);
      assert ps == [s[..i]] + Split(rest, sep);
      forall k | 0 <= k < |ps|
        ensures !Contains(ps[k], sep)
      {
        if k > 0 {
          assert ps[k] == Split(rest, sep)[k - 1];
        }
      }
  }

  /** When the separator occurs, the last piece is everything after its last
      occurrence: the string ends with the separator followed by that piece. */
  lemma {:induction false} SplitLastAfterSeparator(s: string, sep: string)
    requires |sep| > 0 && Contains(s, sep)
    ensures EndsWith(s, sep + Split(s, sep)[|Split(s, sep)| - 1])
    decreases |s|
  {
    FindFromStartAbsent(s, sep);
    var i := FindFrom(s, sep, 0).value;
    var rest := s[i + |sep|..];
    var ps := Split(rest, sep);
    assert Split(s, sep) == [s[..i]] + ps;
    var last := ps[|ps| - 1];
    FindFromStartAbsent(rest, sep);
    if Contains(rest, sep) {
      SplitLastAfterSeparator(rest, sep);
      assert s[|s| - |sep + last|..] == rest[|rest| - |sep + last|..];
    } else {
      assert last == rest;
      assert s[i..i + |sep|] == sep;
      assert s[|s| - |sep + last|..] == s[i..i + |sep|] + rest;
    }
  }

  /** The last piece of a split is a suffix of the text. */
  lemma {:induction false} SplitLastIsSuffix(s: string, sep: string)
    requires |sep| > 0
    ensures EndsWith(s, Split(s, sep)[|Split(s, sep)| - 1])
    decreases |s|
  {
    match FindFrom(s, sep, 0)
    case None =>
    case Some(i) =>
      var rest := s[i + |sep|..];
      SplitLastIsSuffix(rest, sep);
      var ps := Split(rest, sep);
      assert Split(s, sep) == [s[..i]] + ps;
      var last := ps[|ps| - 1];
      assert s[|s| - |last|..] == rest[|rest| - |last|..];
  }

  function DigitChar(d: nat): (c: char)
    requires d < 10
    ensures '0' <= c <= '9' && DigitValue(c) == d
  {
    "0123456789"[d]
  }

  function DigitValue(c: char): (d: nat)
    requires '0' <= c <= '9'
    ensures d < 10
  {
    (c as int - '0' as int) as nat
  }

  predicate AllDigits(s: string) {
    forall k :: 0 <= k < |s| ==> '0' <= s[k] <= '9'
  }

  /** Python `str(n)` for a natural number: never empty, and no leading zero
      unless the number is zero itself. */
  function NatToString(n: nat): (r: string)
    ensures |r| >= 1 && AllDigits(r)
    ensures r[0] == '0' <==> n == 0
    ensures n == 0 ==> r == "0"
    decreases n
  {
    if n < 10 then [DigitChar(n)] else NatToString(n / 10) + [DigitChar(n % 10)]
  }

  /** Reads a string of decimal digits back as a number; the partner of `NatToString`. */
  function ParseNat(s: string): nat
    requires AllDigits(s)
  {
    if |s| == 0 then 0 else ParseNat(s[..|s| - 1]) * 10 + DigitValue(s[|s| - 1])
  }

  /** Rendering a number in decimal and reading it back is the identity. */
  lemma {:induction false} ParseNatToString(n: nat)
    ensures ParseNat(NatToString(n)) == n
    decreases n
  {
    var s := NatToString(n);
    if n < 10 {
      assert DigitValue(DigitChar(n)) == n;
    } else {
      ParseNatToString(n / 10);
      assert s[..|s| - 1] == NatToString(n / 10);
      assert DigitValue(DigitChar(n % 10)) == n % 10;
    }
  }

  /** A string of digits as `str` writes it: non-empty, and no leading zero
      unless it is `"0"`. */
  predicate Canonical(s: string) {
    |s| >= 1 && AllDigits(s) && (s[0] == '0' ==> |s| == 1)
  }

  lemma DigitCharOfValue(c: char)
    requires '0' <= c <= '9'
    ensures DigitChar(DigitValue(c)) == c
  {
  }

  lemma {:induction false} ParseNatPositive(s: string)
    requires |s| >= 1 && AllDigits(s) && s[0] != '0'
    ensures ParseNat(s) >= 1
    decreases |s|
  {
    if |s| > 1 {
      ParseNatPositive(s[..|s| - 1]);
    }
  }

  /** The converse round trip: a canonical digit string is exactly what
      `NatToString` writes for the number it denotes, so `str(n)` is the only
      canonical rendering of `n`. */
  lemma {:induction false} NatToStringParseNat(s: string)
    requires Canonical(s)
    ensures NatToString(ParseNat(s)) == s
    decreases |s|
  {
    var last := s[|s| - 1];
    if |s| == 1 {
      DigitCharOfValue(last);
      assert s == [last];
    } else {
      var p := s[..|s| - 1];
      assert Canonical(p);
      ParseNatPositive(p);
      NatToStringParseNat(p);
      var n := ParseNat(s);
      assert n == ParseNat(p) * 10 + DigitValue(last);
      assert n / 10 == ParseNat(p) && n % 10 == DigitValue(last);
      DigitCharOfValue(last);
      assert s == p + [last];
    }
  }

  /** Python `str(i)` for any integer: a minus sign for a negative number,
      then the digits of its magnitude without a leading zero. */
  function IntToString(i: int): (r: string)
    ensures i >= 0 ==> |r| >= 1 && AllDigits(r) && ParseNat(r) == i && (r[0] == '0' <==> i == 0)
    ensures i == 0 ==> r == "0"
    ensures i < 0 ==> |r| >= 2 && r[0] == '-' && AllDigits(r[1..]) && ParseNat(r[1..]) == -i && r[1] != '0'
  {
    if i < 0 then
      ParseNatToString(-i);
      assert ("-" + NatToString(-i))[1..] == NatToString(-i);
      "-" + NatToString(-i)
    else
      ParseNatToString(i);
      NatToString(i)
  }
}

=== FILE: wrappers.dfy ===
/** The optional value that stands in for Python's `None` throughout the model. */
module Wrappers {

  /** `None` is Python's `None`; `Some(v)` is a present value. */
  datatype Option<+T> = None | Some(value: T) {

    /** Returns the value, or `default` when absent (Python's `x or default` for non-falsy values). */
    function GetOr(default: T): T {
      match this
      case Some(v) => v
      case None => default
    }
  }
}
